=== FILE: README.md ===
# Evergrain storefront in Dafny

Evergrain is a bilingual (English/Arabic) storefront for handcrafted wooden
kitchenware. Its behaviour lives in a handful of React contexts and page
handlers, plus two offline tools for the published catalog file. This project
models those rules as pure Dafny functions over immutable values and proves what
they promise:

- **Catalog** (`catalog.dfy`, `catalog_sync.dfy`): the snapshot
  `{removedIds, customProducts}`, `addProduct` with id allocation above the seed
  range 1-9, `removeProduct`, `updateProduct`, the defensive `loadSaved`, and the
  start-up fetch as a state machine driven by a sequence of fetch results.
- **Product text and media** (`product_text.dfy`, `product_media.dfy`): the
  language fallback chain for titles, prices, badges and features; Google Drive id
  extraction and url rewriting; the ordered media list; video url
  classification.
- **Cart** (`cart.dfy`): lines keyed by id with add, remove, update, clear, count,
  total and the saved minimal copy.
- **Pages** (`admin_page.dfy`, `checkout_page.dfy`, `shop_page.dfy`,
  `product_detail_page.dfy`, `cart_page.dfy`): the admin form's mapping to
  records, the media list editing, upload limits and export file; checkout
  enrichment, validation and the order e-mail; the shop filter and query
  parameters; the detail page's quantity picker and add loop; the cart page's
  shipping rule and line amounts.
- **Small helpers** (`router.dfy`, `governorates.dfy`, `auth.dfy`): route
  matching, shipping by governorate, and the admin sign-in with its saved flag.
- **Offline tools** (`load_products_json.dfy`, `remove_product_media.dfy`): the
  Django command that imports the catalog file into the product table, and the
  Node script that strips media keys from the file.

Shared foundations:

- `js.dfy` holds JavaScript values, with `Undefined`, `Null`, booleans, integer
  numbers, `NaN`, strings, arrays and objects. It also defines `||` (`Or`),
  truthiness, property access and strict equality. A `TypeError` outcome stands
  for a throw.
- `strings.dfy` holds the string built-ins the code relies on: `trim`, `split`,
  `indexOf`, `toLowerCase` on ASCII letters, `parseInt` and `parseFloat`.
- `prices.dfy` reads a price text by keeping its digits and dots.
- `wrappers.dfy` holds `Option`.

The Python command has its own value type for parsed JSON (`PyValue`) and
models a raised `AttributeError` as an outcome.

Storage, the network, timers, the e-mail service and file reads are
parameters or inputs. Examples: the stored text, the sequence of fetch
results, the e-mail service's reply, the data URL of an uploaded file, and
the set of ids already in the product table.

## Model

| member | source | states |
|---|---|---|
| Auth.Login | src/context/AuthContext.jsx:29-35 | sign-in succeeds exactly when the lower-cased username text and the password text are both "admin"; success sets the flag, failure leaves it |
| Auth.Logout | src/context/AuthContext.jsx:37 | signing out always clears the flag |
| Auth.InitialFlag | src/context/AuthContext.jsx:17-23 | on start-up the flag is set exactly when the stored text is "true"; a missing entry reads as signed out |
| Auth.FlagRoundTrip | src/context/AuthContext.jsx:17-27 | the flag written as `String(isAdmin)` reads back unchanged after a reload |
| Auth.CredentialCases | src/context/AuthContext.jsx:29-32 | two usernames that differ only in letter case are accepted or refused alike, and any accepted password is exactly "admin" |
| Auth.AcceptedUsernames | src/context/AuthContext.jsx:31 | the accepted usernames are exactly the five-letter spellings of "admin" in any mix of cases |
| Governorates.ShippingByGovernorate | src/data/governorates.js:6-22 | a missing or empty governorate costs 70; Cairo and Giza in any case cost 70, every other text 80; a set non-text id throws; the fee is always 70 or 80 |
| Governorates.ShippingIgnoresCase | src/data/governorates.js:17-22 | any letter-case spelling of a table id costs what the id costs: 70 for the first two rows (Cairo, Giza), 80 for every other row |
| Governorates.TableIdsAreLower | src/data/governorates.js:24-52 | the table has 27 rows and every id is already lower-case |
| Governorates.TableIdsAreDistinct | src/data/governorates.js:24-52 | no id appears twice in the table |
| Governorates.TableFees | src/data/governorates.js:11-52 | looked up by its table id, only the first two rows, Cairo and Giza, get the cheaper fee |
| Router.DynamicRouteShape | src/utils/Router.jsx:56-61 | a route with ":id" matches exactly the paths that fill the placeholder with one non-empty segment without "/" |
| Router.RouteMatches | src/utils/Router.jsx:55-64 | a path always matches itself; a path without ":id" matches only itself; any other match fills ":id" with at least one character |
| Router.ProductRoute | src/utils/Router.jsx:55-64 | "/product/:id" renders exactly for "/product/" followed by one non-empty segment without "/", and for its own literal path |
| Router.StaticRoutesExclusive | src/utils/Router.jsx:64 | two different routes without ":id" never both render for one path |
| Cart.QuantityOr1 | src/context/CartContext.jsx:19-98 | a zero quantity counts as one; any other quantity counts as itself |
| Cart.PriceOf | src/context/CartContext.jsx:59 | the price a new line records is always truthy, falling back on "0" |
| Cart.AddToCart | src/context/CartContext.jsx:43-63 | a product already in the cart gains one unit on the lines with its id and nothing else changes; a new product is appended with quantity 1 and its price |
| Cart.RemoveFromCart | src/context/CartContext.jsx:65-69 | afterwards no line carries the id, and a line remains exactly when it was there and carries another id |
| Cart.UpdateQuantity | src/context/CartContext.jsx:71-81 | a quantity of zero or less removes the product; a positive one replaces the quantity of the lines with the id and leaves the rest |
| Cart.ClearCart | src/context/CartContext.jsx:83-85 | the cleared cart is empty and counts zero |
| Cart.LinePrice | src/context/CartContext.jsx:91 | a line's price value is never negative |
| Cart.Count | src/context/CartContext.jsx:97-99 | an empty cart counts 0 and a one-line cart counts that line's quantity, or 1 when unset |
| Cart.CountSplits | src/context/CartContext.jsx:97-99 | the count of two carts joined is the sum of their counts |
| Cart.Total | src/context/CartContext.jsx:87-95 | an empty cart totals 0 and a one-line cart totals that line's price times its quantity |
| Cart.TotalSplits | src/context/CartContext.jsx:87-95 | the total of two carts joined is the sum of their totals |
| Cart.Saved | src/context/CartContext.jsx:14-21 | the saved copy has one line per line with the same id, `quantity || 1` and `price || "0"` |
| Cart.SavedKeepsCount | src/context/CartContext.jsx:14-99 | reloading the saved copy gives the same item count |
| Cart.SavedKeepsTotal | src/context/CartContext.jsx:14-95 | reloading the saved copy gives the same total |
| Cart.OccurrencesOfDistinct | src/context/CartContext.jsx:45 | in a cart with distinct ids an id occurs at most once, and once exactly when `find` succeeds |
| Cart.CountOfBump | src/context/CartContext.jsx:47-99 | bumping adds one to the count per line carrying the id |
| Cart.AddCountsOneMore | src/context/CartContext.jsx:43-99 | in a well-formed cart each add raises the count by exactly one |
| Cart.AddKeepsCartWellFormed | src/context/CartContext.jsx:43-63 | adding keeps ids distinct and quantities positive |
| Cart.ChangesKeepCartWellFormed | src/context/CartContext.jsx:65-81 | removing and updating keep ids distinct and quantities positive |
| Cart.RemoveKeepsOrder | src/context/CartContext.jsx:65-69 | removal keeps the remaining lines in their relative order and keeps the cart well formed |
| Cart.SetQuantityIsCounted | src/context/CartContext.jsx:71-99 | setting a positive quantity changes the count by the new quantity minus the old one |
| ProductText.GetProductText | src/utils/productText.js:9-43 | a missing product reads ""; otherwise the first set value of `field_<language>`, `field` and the other language's field, where only undefined, null and "" count as unset |
| ProductText.TextEmptyOnlyWhenUnset | src/utils/productText.js:9-43 | the text is set exactly when one of the three shapes is set |
| ProductText.TextIsLanguageSpecific | src/utils/productText.js:13-20 | when both languages carry text, each language reads its own |
| ProductText.SingleLanguageShownInBoth | src/utils/productText.js:13-40 | a product with only English text shows it in Arabic too |
| ProductText.GetProductTitle | src/utils/productText.js:48-50 | the title is always truthy: the resolved text, or "Product" when that is falsy |
| ProductText.GetProductDescription | src/utils/productText.js:55-57 | a falsy product gives ""; a present description in the page language is shown; a description is shown exactly when the page language's, the legacy or the other language's one is present |
| ProductText.GetProductShortDescription | src/utils/productText.js:62-67 | the short description falls back on the description when its own text is falsy |
| ProductText.GetProductBadge | src/utils/productText.js:72-77 | the badge is always truthy: the resolved text, or the "new arrival" label of the language |
| ProductText.GetProductFeatures | src/utils/productText.js:83-105 | a falsy product has no features; otherwise the page language's features when they are an array, else the legacy `features` array, else the other language's array, else an empty array; the result is always an array |
| ProductText.FeaturesAreFirstArray | src/utils/productText.js:83-105 | for a set product the features are the first array among the page language's, the legacy and the other language's fields, and empty when none is an array |
| ProductText.GetProductPrice | src/utils/productText.js:110-144 | the price is always set: the first set value of the chain, else "$0" |
| ProductText.PriceFollowsTextChain | src/utils/productText.js:9-144 | wherever a price is set, the price reads what the text resolver reads for "price" |
| ProductText.CurrencyFrom | src/utils/productText.js:169-170 | the currency found is always one of the three pound spellings |
| ProductText.CurrencyFromLeftmost | src/utils/productText.js:169-170 | when a currency matches at some position and none matches before it, that currency is the one found: the leftmost match wins, and at one position "جنيه" is tried before "EG" and "EG" before "ج.م" |
| ProductText.CurrencyFromNone | src/utils/productText.js:169-170 | a text naming no currency gets "جنيه" |
| ProductText.LeftmostCurrencyWins | src/utils/productText.js:169-170 | in "EG 600 جنيه" the currency found is "EG", although "جنيه" is the first alternative |
| ProductText.GetOriginalPrice | src/utils/productText.js:151-176 | a falsy price reads "$0"; a text whose price reads as zero is returned as is; every other text is marked up by the discount, strictly above its price; the layout is the dollar one exactly when the text has "$", otherwise the currency the regular expression finds first when the text names one, otherwise bare; a non-text price throws |
| ProductText.DollarPriceMarkedUp | src/utils/productText.js:151-164 | "$" followed by a positive whole number is marked up to 1.2 times that number and keeps "$" in front |
| ProductText.PoundPriceMarkedUp | src/utils/productText.js:151-172 | a positive whole number followed by a space and "جنيه" or "EG" is marked up to 1.2 times that number and keeps that currency after it |
| ProductText.MarkUp | src/utils/productText.js:159 | the crossed-out price of a positive amount is strictly above it |
| ProductText.MarkUpIsDiscount | src/utils/productText.js:159-183 | the mark-up is exactly the advertised discount percentage added to the amount |
| ProductText.GetDiscountPercentage | src/utils/productText.js:159-183 | the advertised discount is a percentage strictly between 0 and 100, and it is the mark-up the crossed-out price applies: 1.2 times the price |
| Prices.PriceValue | src/context/CartContext.jsx:91 | the value read from a price text, keeping only digits and dots before `parseFloat`, is never negative |
| Prices.PriceOfDigits | src/context/CartContext.jsx:91 | a price made of digits alone reads as their decimal value |
| Prices.KeepDigitsAndDots | src/context/CartContext.jsx:91 | the kept text holds only digits and dots, every digit or dot of the price survives, and a single character is kept exactly when it is a digit or a dot |
| Prices.KeepDigitsAndDotsAppend | src/context/CartContext.jsx:91 | filtering joined texts gives the filtered pieces joined, so the kept characters keep their order and their repeats |
| Prices.KeepNoPriceChars | src/context/CartContext.jsx:91 | a text without digits or dots keeps nothing |
| ProductMedia.SearchSound | src/utils/productMedia.js:7-14 | a search reports the capture of a match at or after its start, and reports nothing only when no position there matches |
| ProductMedia.SearchFindsFirst | src/utils/productMedia.js:7-14 | when the first match from the start is at a given position, the search reports that position's capture |
| ProductMedia.UcMatch | src/utils/productMedia.js:11 | a `uc?…id=` match captures a well-formed file id and starts at the marker |
| ProductMedia.ExtractDriveId | src/utils/productMedia.js:4-16 | a non-text url has no file id, and any id found is a non-empty run of `[a-zA-Z0-9_-]` |
| ProductMedia.DriveIdNeedsHost | src/utils/productMedia.js:4-16 | only a trimmed link through "drive.google.com" yields a file id |
| ProductMedia.IsGoogleDriveUrl | src/utils/productMedia.js:21-23 | a link is a Drive link exactly when a file id can be read from it, which needs text containing the Drive host |
| ProductMedia.ToDisplayableDriveUrl | src/utils/productMedia.js:31-38 | a non-Drive url is kept; a Drive url becomes the file's view link for videos and its thumbnail link otherwise; a non-empty url stays non-empty |
| ProductMedia.DisplayableIsIdempotent | src/utils/productMedia.js:31-38 | rewriting a rewritten url changes nothing |
| ProductMedia.ViewUrlRoundTrip | src/utils/productMedia.js:4-35 | the view link of a file id reads back as that id |
| ProductMedia.ThumbnailUrlRoundTrip | src/utils/productMedia.js:4-37 | the thumbnail link of a file id reads back as that id |
| ProductMedia.FileLinkWins | src/utils/productMedia.js:7-8 | a link with a `file/d/` match reads its id from there, whatever else it holds |
| ProductMedia.ThumbnailLinkLast | src/utils/productMedia.js:13-15 | a link with none of the first three shapes reads its id from the thumbnail shape |
| ProductMedia.PlainUrlIsKept | src/utils/productMedia.js:33 | a url too short to hold the Drive host is displayed as it is |
| ProductMedia.FromMediaEntries | src/utils/productMedia.js:49-62 | a media list yields at most one item per entry, each with a non-empty url |
| ProductMedia.FromImageUrls | src/utils/productMedia.js:53-62 | an image list yields at most one image item per url, each non-empty |
| ProductMedia.GetProductMedia | src/utils/productMedia.js:46-63 | a missing product has no media; every item has a url; a non-empty media list throws exactly when it holds null or undefined; without one every item is an image |
| ProductMedia.ImagesShownWithoutMedia | src/utils/productMedia.js:53-55 | without a media list, a non-empty image list is what is shown |
| ProductMedia.PlainEntriesReadBack | src/utils/productMedia.js:48-62 | well-formed media entries come back one for one, in order, with their own type and url |
| ProductMedia.FirstImageIndex | src/utils/productMedia.js:70 | the index found is that of the first image, and none is found only when there is no image |
| ProductMedia.FirstImageUrl | src/utils/productMedia.js:70-71 | the first image's url, else the first item's url, else "" |
| ProductMedia.FirstImageUrlAt | src/utils/productMedia.js:70-71 | the first image url of a media list is the url of its earliest image entry |
| ProductMedia.GetProductFirstImageUrl | src/utils/productMedia.js:68-72 | throws exactly when reading the media throws; otherwise it is the url of the first image entry of the shown media, else the first entry's url when none is an image, and "" exactly when there are no media |
| ProductMedia.ScanVideoExtension | src/utils/productMedia.js:95 | true exactly when ".mp4", ".webm" or ".ogg", in any case, is followed by "?" or the end |
| ProductMedia.IsDirectVideoUrl | src/utils/productMedia.js:92-98 | true exactly for a non-empty text with a video extension or starting "data:video/" |
| ProductMedia.YouTubeMatch | src/utils/productMedia.js:80 | a YouTube match captures a non-empty id after a watch or short link |
| ProductMedia.VimeoMatch | src/utils/productMedia.js:82 | a Vimeo match captures a non-empty run of digits after the host |
| ProductMedia.GetVideoEmbedUrl | src/utils/productMedia.js:77-87 | a non-text link gives none; a link is embedded exactly when its trimmed text has a YouTube or Vimeo match or a Drive file id; a YouTube match gives the YouTube embed of its video id, else a Vimeo match gives the Vimeo embed of its number, else the Drive preview link |
| ProductMedia.EmbedPrefersYouTube | src/utils/productMedia.js:80-81 | a link with a YouTube match anywhere embeds the video id of its first match, whatever else it holds |
| ProductMedia.EmbedVimeoWithoutYouTube | src/utils/productMedia.js:80-83 | a link without a YouTube match but with a Vimeo match embeds the number of its first Vimeo match |
| ProductMedia.EmbedDriveWithoutVideoHost | src/utils/productMedia.js:80-86 | a link with neither host gives the Drive preview of its file id, and no link when it has none |
| ProductMedia.DriveVideoEmbedsPreview | src/utils/productMedia.js:35-87 | a Drive video stored under its view link embeds through the preview player for the same file |
| ProductMedia.ViewHasNoVideoHost | src/utils/productMedia.js:80-83 | the Drive view link matches neither the YouTube nor the Vimeo pattern |
| Catalog.MaxId | src/context/ProductsContext.jsx:110 | the largest of 9 and the stored ids: at least 9, no smaller than any id, and an id itself when above 9; NaN exactly when some id does not convert to a number |
| Catalog.KeepEntries | src/context/ProductsContext.jsx:113-115 | the kept entries are exactly the submitted entries that are set, typed "image" or "video" and carry a truthy url; there are never more of them than submitted, and one entry is kept or dropped on its own |
| Catalog.KeepEntriesAppend | src/context/ProductsContext.jsx:113-115 | filtering a list is filtering its two halves one after the other, so the kept entries stay in their submitted order |
| Catalog.UrlEntries | src/context/ProductsContext.jsx:116-123 | the truthy urls, and only they, become image entries; one url gives one entry exactly when it is truthy |
| Catalog.UrlEntriesAppend | src/context/ProductsContext.jsx:116-123 | the entries of two url lists are the entries of the first list followed by those of the second, so entries follow the urls' order |
| Catalog.NewMedia | src/context/ProductsContext.jsx:111-123 | a non-empty submitted `media` list gives its kept entries; otherwise an `images` array gives an image entry per truthy url; otherwise a truthy `image` gives one image entry and nothing else gives no entries |
| Catalog.ImageUrls | src/context/ProductsContext.jsx:124 | reading the images throws exactly when an entry is null or undefined; otherwise the result is the url of every image entry |
| Catalog.ImageUrlsAppend | src/context/ProductsContext.jsx:124 | the image urls of two lists are those of the first followed by those of the second, so the urls keep the order of their entries |
| Catalog.NoImageNoUrls | src/context/ProductsContext.jsx:124 | a media list without an image entry has no image urls |
| Catalog.FirstImageUrlLeads | src/context/ProductsContext.jsx:124-125 | the image urls start with the url of the first image entry |
| Catalog.FirstImage | src/context/ProductsContext.jsx:125 | the cover is the first image url when that is truthy, else the first entry's url when that is truthy, else ""; it is never another falsy value |
| Catalog.ImageList | src/context/ProductsContext.jsx:154-155 | the image list is the image urls when there are any, else the cover alone when it is truthy, else empty; it is empty exactly when there are no urls and no cover |
| Catalog.NextId | src/context/ProductsContext.jsx:110-127 | the next id is a number above 9 and above every stored id, or NaN when a stored id is not a number |
| Catalog.AddProduct | src/context/ProductsContext.jsx:109-158 | throws exactly when a stored product or the submission is null; otherwise appends one product after the unchanged list, with an id above the seed range and every stored id, the English text under its tagged and legacy names taken from the tagged field, else the legacy one, else "New Product", "NEW ARRIVAL", "$0" or "", the Arabic text or "", the filtered media and the cover and image list derived from them |
| Catalog.RecordStoresSubmission | src/context/ProductsContext.jsx:126-157 | the record built from a submission carries each text, the media and the derived cover and image list the way `addProduct` stores them |
| Catalog.AddKeepsIdsDistinct | src/context/ProductsContext.jsx:109-158 | adding keeps ids numeric and pairwise distinct |
| Catalog.NewProductShowsItsMedia | src/context/ProductsContext.jsx:109-158 | a new product displays exactly the media list it was stored with |
| Catalog.NewProductShowsItsText | src/context/ProductsContext.jsx:129-151 | a new product shows its stored English title and price, which equal the legacy ones |
| Catalog.WithoutId | src/context/ProductsContext.jsx:164 | throws exactly when a product is null; otherwise keeps exactly the products whose id differs, never more than before |
| Catalog.OtherIdsAppend | src/context/ProductsContext.jsx:164 | filtering two lists is filtering each in turn, so the kept products stay in their order |
| Catalog.RemoveProduct | src/context/ProductsContext.jsx:160-166 | a seed id 1-9 is added to `removedIds` at most once and leaves the products; any other id deletes the products carrying it and leaves `removedIds` |
| Catalog.RemoveIsIdempotent | src/context/ProductsContext.jsx:160-166 | removing the same product twice is the same as removing it once |
| Catalog.Merge | src/context/ProductsContext.jsx:173 | the merged record reads every updated key from the updates and every other key from the product |
| Catalog.RefreshImages | src/context/ProductsContext.jsx:174-181 | when the merged record holds a non-empty media list, reading it throws exactly when an entry is null, and otherwise the cover is the first image url (else the first entry's url, else "") and the image list is the image urls (else the cover alone); when it does not, the record is returned as merged, except that the corrected variant empties the cover and image list when the update set `media`; every field other than `image` and `images` is the merged one |
| Catalog.UpdateAll | src/context/ProductsContext.jsx:170-184 | each product is updated on its own; the update throws exactly when one product's update throws |
| Catalog.UpdateProduct | src/context/ProductsContext.jsx:168-185 | a seed id changes nothing; otherwise it throws exactly when updating one of the products throws, products with other ids are kept, and each product with the id carries every field of `{...p, ...updates}` except the cover and image list, which are recomputed from a non-empty media list; without such a list the product becomes exactly `{...p, ...updates}` |
| Catalog.UpdatedCoverIsShownFirst | src/context/ProductsContext.jsx:174-181 | after an update that sets a non-empty list of well-formed media, the stored cover is the url of the first image the product's media show |
| Catalog.UpdateProductClearingMedia | src/context/ProductsContext.jsx:168-185 | the corrected update: a seed id changes nothing; otherwise it throws exactly when updating one product throws, products with other ids are kept, and each product is updated by UpdateOne with the stale images cleared |
| Catalog.ClearingMatchesUpdate | src/context/ProductsContext.jsx:168-185 | the correction differs from the code only for updates that remove the media list |
| Catalog.UpdateKeepsIds | src/context/ProductsContext.jsx:168-185 | an update without an `id` key keeps every product's id |
| Catalog.RemovedMediaReappear | src/context/ProductsContext.jsx:174-181 | as written, clearing every media item of a product with one image still shows that image |
| Catalog.ClearedMediaStayCleared | src/context/ProductsContext.jsx:168-185 | with the correction, a product whose media were removed shows no media |
| Catalog.VisibleProducts | src/pages/Checkout.jsx:25-31 | the listed products are the seed products not in `removedIds`, followed by every stored product in order |
| Catalog.ShownDefaults | src/pages/Admin.jsx:50 | throws exactly when a seed product is null; otherwise keeps exactly the seed products whose id is not hidden |
| Catalog.NotRemovedAppend | src/pages/Admin.jsx:50 | hiding over two lists is hiding over each in turn, so the shown seed products keep their order |
| Catalog.RemovedSeedIsHidden | src/context/ProductsContext.jsx:160-162 | once a seed product is removed no page lists it |
| CatalogSync.ArrayOr | src/context/ProductsContext.jsx:20-23 | an array field is read as its items and anything else as empty |
| CatalogSync.LoadSaved | src/context/ProductsContext.jsx:14-28 | missing, empty, unparseable or null stored text gives the empty snapshot; otherwise the parsed record with non-array fields read as empty |
| CatalogSync.SaveThenLoad | src/context/ProductsContext.jsx:6-28 | a saved snapshot reads back unchanged |
| CatalogSync.SafeSave | src/context/ProductsContext.jsx:6-12 | a refused save leaves the stored text as it was |
| CatalogSync.LoadAfterSave | src/context/ProductsContext.jsx:6-28 | after a save the cache holds the saved snapshot or what it held before |
| CatalogSync.Initial | src/context/ProductsContext.jsx:45-101 | on mount the cached snapshot is shown, with a spinner exactly when no product is cached, and the first request is issued |
| CatalogSync.HasCachedData | src/context/ProductsContext.jsx:79 | there is cached data exactly when the saved snapshot holds a product or a hidden id |
| CatalogSync.FallBack | src/context/ProductsContext.jsx:78-96 | giving up settles the sync and stops the spinner; the saved snapshot is installed when it holds anything, and the current one is kept otherwise |
| CatalogSync.Step | src/context/ProductsContext.jsx:62-99 | a reply with data replaces the snapshot and settles; a failure before the third attempt only counts one more attempt and keeps the spinner and snapshot; the third failure, or an empty reply, falls back: it settles and restores the cache when it has data |
| CatalogSync.SettlesWithinRetries | src/context/ProductsContext.jsx:40-98 | whatever the replies, the fetch settles after three results, so at most three requests are made |
| CatalogSync.SettledIgnoresFetches | src/context/ProductsContext.jsx:62-99 | once settled, further fetch results change nothing |
| CatalogSync.LoadingOnlyEnds | src/context/ProductsContext.jsx:49-97 | the spinner is never switched back on |
| CatalogSync.ReplyOverridesEdits | src/context/ProductsContext.jsx:69-78 | a reply with data replaces the snapshot even over edits made while it was pending |
| CatalogSync.FailuresFallBackToCache | src/context/ProductsContext.jsx:88-98 | three failures restore a non-empty cache, or keep the current snapshot when the cache is empty |
| AdminPage.Either | src/pages/Admin.jsx:119-121 | a non-empty first text wins, an empty one gives the second |
| AdminPage.ParseFeatures | src/pages/Admin.jsx:110-117 | every parsed feature is non-empty, has no space at either end, and holds no line break |
| AdminPage.FeaturesRoundTrip | src/pages/Admin.jsx:90-117 | features shown one per line in the form are read back as the same list |
| AdminPage.ParseFeaturesIsStable | src/pages/Admin.jsx:110-117 | writing the parsed features back one per line and parsing again changes nothing |
| AdminPage.Submit | src/pages/Admin.jsx:108-177 | every field of the record sent is stated: the trimmed form texts; "New Product" for an empty English title, "$0" for an empty English price, "NEW ARRIVAL" and "وصل حديثاً" for empty badges; the legacy title, description, short description and badge take the English text, else the Arabic one, else the default; a legacy price exactly when adding; both feature lists parsed, with the English list, else the Arabic one, as legacy features; the form's media list when it has one and no media list exactly when it has none |
| AdminPage.Record | src/pages/Admin.jsx:118-176 | the submitted record carries the title and media, and a `price` field exactly when the form sends one |
| AdminPage.RecordFields | src/pages/Admin.jsx:118-175 | every other field of the submission lands under its own key, and the record has exactly the eighteen keys of the form plus `price` when adding, so a merge overwrites those fields and no others |
| AdminPage.EditKeepsLegacyPrice | src/pages/Admin.jsx:144-175 | an edit, which sends no legacy `price`, leaves the stored product's legacy price as it was |
| AdminPage.SubmittedTitleShown | src/pages/Admin.jsx:108-177 | a saved product shows its English title (or "New Product") in English, and in Arabic its Arabic title when one was typed, else the English one |
| AdminPage.StartEdit | src/pages/Admin.jsx:81-106 | a seed product opens no editor; any other product opens one exactly when both feature lists, after their fallbacks, are arrays and its media can be listed, and otherwise the call throws; an editor opened is for the product's own id and shows its English title, its features one per line and its media |
| AdminPage.SaveUnedited | src/pages/Admin.jsx:81-176 | saving right after opening a product throws exactly when one of the ten text boxes holds a value that is not a string; otherwise it sends the trimmed English title (or "New Product") and no legacy price; a seed product sends nothing |
| AdminPage.NumericTitleCannotBeSaved | src/pages/Admin.jsx:81-176 | a product whose English title is a non-zero number opens in the editor, but saving it unchanged throws |
| AdminPage.ShowsEditButton | src/pages/Admin.jsx:820 | no seed product shows an edit button, and a product with a numeric id shows one exactly when the id is above 9 |
| AdminPage.EditButtonOnlyOutsideSeeds | src/pages/Admin.jsx:81-823 | a product with an edit button is never a seed product, and a seed product has no edit button and opens no editor |
| AdminPage.UnchangedEditKeepsTitleAndFeatures | src/pages/Admin.jsx:81-177 | opening a product and saving it untouched keeps its English title and features when they are stored as the form writes them |
| AdminPage.AddMediaItem | src/pages/Admin.jsx:179-183 | a blank or non-text url is ignored; otherwise the trimmed url is appended with its kind |
| AdminPage.RemoveMediaItem | src/pages/Admin.jsx:184-185 | the item at the index leaves and the others keep their order; an index out of range changes nothing |
| AdminPage.RemoveUndoesAdd | src/pages/Admin.jsx:179-185 | removing the item just added restores the list |
| AdminPage.WithinLimit | src/pages/Admin.jsx:192-193 | exactly the files within the size limit are kept; a single file is kept iff it is within the limit |
| AdminPage.WithinLimitAppend | src/pages/Admin.jsx:192-193 | the size filter distributes over concatenation, so with the one-file case it keeps the files in their order and with their repetitions |
| AdminPage.AddUploads | src/pages/Admin.jsx:187-225 | the existing items stay first, then one item per file within 2 MB for images or 20 MB for videos, each of the chosen kind with the data url read from the kept file at the same position |
| AdminPage.UploadItems | src/pages/Admin.jsx:200-204 | each file read becomes one item of the chosen kind holding its data URL, in order |
| AdminPage.UploadLimitsDiffer | src/pages/Admin.jsx:187-188 | any file larger than 2 MB and at most 20 MB is dropped as an image and appended as a video item |
| AdminPage.ImageToUrl | src/pages/Admin.jsx:329-337 | an image given as text is exported as it is |
| AdminPage.Export | src/pages/Admin.jsx:340-373 | the exported file hides every seed id 1-9; its product list is the seed products not in removedIds, in catalog order, each converted to its exportable form, followed by every stored product in order; a null seed product throws |
| AdminPage.ExportedDefault | src/pages/Admin.jsx:344-366 | an exported seed product keeps its id, title and price, and lists one image media entry per image url in order; a product without an image list exports its single image as the list |
| AdminPage.ExportHidesSeeds | src/pages/Admin.jsx:340-373 | a catalog loaded from the exported file lists exactly the exported products, so no seed product is listed twice |
| CheckoutPage.FindProduct | src/pages/Checkout.jsx:39 | the first product with the line's id, and none only when no product has it |
| CheckoutPage.Enrich | src/pages/Checkout.jsx:37-45 | the item keeps the line's id, carries `quantity || 1`, and keeps the line's own price when the product is no longer listed |
| CheckoutPage.EnrichKeepsFields | src/pages/Checkout.jsx:39-44 | apart from the quantity, an enriched line carries every field of the listed product with its id, and every field of the cart line when none is listed |
| CheckoutPage.IdentifiedLines | src/pages/Checkout.jsx:38-46 | the lines kept are exactly those with a truthy id |
| CheckoutPage.EnrichedItems | src/pages/Checkout.jsx:34-47 | one item per line with an id, in cart order, each the enriched line |
| CheckoutPage.PriceText | src/pages/Checkout.jsx:63-64 | a price that is not text throws; a text price is read as itself |
| CheckoutPage.QuantityOf | src/pages/Checkout.jsx:65 | a non-zero numeric quantity is the multiplier |
| CheckoutPage.ItemAmount | src/pages/Checkout.jsx:62-66 | an item is priced exactly when its price is text, as the price's value times its quantity |
| CheckoutPage.Subtotal | src/pages/Checkout.jsx:60-68 | the subtotal exists exactly when the items' prices are all text |
| CheckoutPage.PricedAsTextEverywhere | src/pages/Checkout.jsx:60-68 | the items can be priced exactly when every single price is text |
| CheckoutPage.OrderTotalsAddUp | src/pages/Checkout.jsx:60-108 | the e-mail has one line per item and its line totals add up to the subtotal; both fail together |
| CheckoutPage.AmountOfOrderLine | src/pages/Checkout.jsx:96-108 | an item's order line is priced exactly as its share of the subtotal |
| CheckoutPage.OrderLines | src/pages/Checkout.jsx:96-108 | there are never more order lines than enriched items, and items without a truthy id give no lines |
| CheckoutPage.OrderLinesAreTitled | src/pages/Checkout.jsx:103 | every order line names its product with a truthy title |
| CheckoutPage.UnlistedLinePricedAsInCart | src/pages/Checkout.jsx:43-44 | a line whose product left the catalog is priced as the cart's own total prices it |
| CheckoutPage.OrderOf | src/pages/Checkout.jsx:70-120 | the order exists exactly when every price is text; it charges no shipping, its total is its subtotal, its lines add up to it, and the contact fields are trimmed |
| CheckoutPage.ErrorText | src/pages/Checkout.jsx:127-131 | the message shown is never empty and is the error's own message when it has one |
| CheckoutPage.Confirm | src/pages/Checkout.jsx:80-135 | an incomplete form changes nothing; a delivered order empties the cart and shows the thank-you page; a refused one keeps the cart and shows the error |
| CheckoutPage.IdentifiedItems | src/pages/Checkout.jsx:46 | every item listed carries a truthy id |
| CheckoutPage.CartClearedOnlyOnDelivery | src/pages/Checkout.jsx:80-135 | a non-empty cart is emptied exactly when the form is complete and the order is delivered |
| ShopPage.Filter | src/pages/Shop.jsx:115-121 | a product is listed exactly when it matches both the category tab and the search |
| ShopPage.FilterKeepsOrder | src/pages/Shop.jsx:115-121 | filtering works piece by piece, so listed products keep their relative order |
| ShopPage.FilterIsIdempotent | src/pages/Shop.jsx:115-121 | filtering the listed products again changes nothing |
| ShopPage.NoFilterShowsAll | src/pages/Shop.jsx:115-121 | the "ALL" tab without a search lists every product in order |
| ShopPage.SearchIgnoresCase | src/pages/Shop.jsx:117-119 | a search lists the same products as its lower-case spelling |
| ShopPage.ApplyQuery | src/pages/Shop.jsx:100-112 | a category in the address wins and clears the search; a search alone resets the tab to "ALL"; with neither nothing changes |
| ShopPage.CategoryLinkShowsCategory | src/pages/Shop.jsx:100-121 | after a link with a category the page lists exactly that category's products |
| ShopPage.SelectCategory | src/pages/Shop.jsx:160-163 | choosing a tab keeps the search |
| ShopPage.ClearSearch | src/pages/Shop.jsx:140-145 | "Clear" empties the search and keeps the tab |
| ShopPage.ClearingWidens | src/pages/Shop.jsx:115-145 | every product listed before the search is cleared is still listed after |
| ProductDetailPage.IdText | src/pages/ProductDetail.jsx:129 | the id text is missing exactly when the address has no "/product/" |
| ProductDetailPage.FindById | src/pages/ProductDetail.jsx:130 | a product found is listed and carries the id; none is found only for NaN or an id no product has |
| ProductDetailPage.PathOfDigits | src/pages/ProductDetail.jsx:127-135 | "/product/" followed by digits names the product with that number |
| ProductDetailPage.OnPath | src/pages/ProductDetail.jsx:127-135 | the page shows the product the address names, selecting its first picture when found and keeping the quantity |
| ProductDetailPage.Decrement | src/pages/ProductDetail.jsx:272 | "-" lowers the quantity by one but never below one |
| ProductDetailPage.Increment | src/pages/ProductDetail.jsx:285 | "+" raises the quantity by one |
| ProductDetailPage.TypeQuantity | src/pages/ProductDetail.jsx:280 | a typed number of one or more is taken; anything else gives one |
| ProductDetailPage.QuantityStaysPositive | src/pages/ProductDetail.jsx:127-285 | every change the page makes keeps the quantity at one or more |
| ProductDetailPage.AddRepeatedly | src/pages/ProductDetail.jsx:139-141 | adding `quantity` times bumps a present product's lines by `quantity` or appends one line holding `quantity` units, and in a well-formed cart raises the count by `quantity` |
| ProductDetailPage.HandleAddToCart | src/pages/ProductDetail.jsx:137-145 | without a product the cart is unchanged; otherwise a new product gets one line with the picked quantity and the count grows by that quantity |
| CartPage.Shipping | src/pages/Cart.jsx:41 | shipping is free exactly from a subtotal of 100, and 10 below it |
| CartPage.OrderTotal | src/pages/Cart.jsx:40-42 | the total exceeds the subtotal by exactly the shipping |
| CartPage.TotalCoversSubtotal | src/pages/Cart.jsx:40-42 | the total is never below the subtotal, and adds the fee of 10 exactly below 100 |
| CheckoutPage.CartQuotesFeeCheckoutWaives | src/pages/Checkout.jsx:72-74 | for an order whose subtotal is below 100, the total the cart page quotes for that subtotal is the order's own total plus the 10 shipping fee, since the order adds no shipping |
| CartPage.Subtotal | src/pages/Cart.jsx:40 | the subtotal shown on the cart page is the cart context's total |
| CartPage.QuantityArgument | src/pages/Cart.jsx:52 | the quantity passed is never zero: the parsed number, or one for NaN or zero |
| CartPage.ChangeQuantity | src/pages/Cart.jsx:51-53 | a negative selection removes the product as the cart's removeFromCart does, keeping every other line; any other selection keeps every line in place and sets the quantity of the lines with the id to the parsed number, or 1 when the text does not parse or gives 0 |
| CartPage.SelectionKeepsLine | src/pages/Cart.jsx:51-53 | a selection that is not negative keeps the line and sets its quantity to one or more |
| CartPage.NegativeSelectionRemoves | src/pages/Cart.jsx:51-53 | a negative selection removes the product from the cart |
| CartPage.RemoveFirstDollar | src/pages/Cart.jsx:181 | at most one character is removed, and a text without "$" is unchanged |
| CartPage.RemovesFirstDollar | src/pages/Cart.jsx:181 | when the text holds a "$", the result is the text with the character at DollarIndex cut out and everything else kept in order |
| CartPage.DollarIndex | src/pages/Cart.jsx:181 | within the text it points at a "$" |
| CartPage.NoDollarBefore | src/pages/Cart.jsx:181 | no "$" comes before DollarIndex, so it is the first one |
| CartPage.DollarIndexInside | src/pages/Cart.jsx:181 | a text holds a "$" exactly when DollarIndex points inside it |
| CartPage.FirstDollarRemoved | src/pages/Cart.jsx:181 | the removed character is a "$" with no "$" before it, and the result is the rest of the text in order |
| CartPage.LineAmountAsWritten | src/pages/Cart.jsx:179-183 | as written: the line amount exists exactly when the price (or its "$0" fallback) is text |
| CartPage.DefaultPricesAgree | src/pages/Cart.jsx:181 | the page's fallback "$0" and the cart's fallback "0" both read as zero |
| CartPage.LineAmountIsShare | src/pages/Cart.jsx:179-183 | read as the subtotal reads it, a line's amount is its share of the cart total |
| CartPage.LineAmountsAddUp | src/pages/Cart.jsx:40-183 | read as the subtotal reads them, the amounts beside the lines add up to the subtotal |
| CartPage.DollarPricesAgree | src/pages/Cart.jsx:179-183 | for "$" followed by digits the page's reading and the subtotal's agree |
| CartPage.ThousandsSeparatorMisread | src/pages/Cart.jsx:179-183 | as written, a line priced "$1,200" shows 1 beside it while the subtotal counts 1200 |
| LoadProductsJson.AsList | backend/products/management/commands/load_products_json.py:15-18 | the list is empty exactly for None or an empty list, and holds only the value itself or the list's own elements |
| LoadProductsJson.AsListIsIdempotent | backend/products/management/commands/load_products_json.py:15-18 | listing a listed value again changes nothing |
| LoadProductsJson.AsStr | backend/products/management/commands/load_products_json.py:21-24 | a falsy value gives the default; a truthy one gives text with no space at either end, a text being stripped |
| LoadProductsJson.StripIsIdempotent | backend/products/management/commands/load_products_json.py:24 | stripping a stripped text changes nothing |
| LoadProductsJson.LegacyFieldsPreferEnglish | backend/products/management/commands/load_products_json.py:92-97 | each legacy field is the English field when that is set, else the plain one |
| LoadProductsJson.RowOf | backend/products/management/commands/load_products_json.py:79-97 | every text of the row is stripped, and an entry without fields gives empty texts and lists throughout |
| LoadProductsJson.MediaType | backend/products/management/commands/load_products_json.py:104-106 | a truthy type that is not text raises; otherwise the type is image or video, video exactly when the text lower-cases to "video" |
| LoadProductsJson.DictPositionsAreDicts | backend/products/management/commands/load_products_json.py:101-103 | the positions listed are exactly the dictionary entries, increasing |
| LoadProductsJson.MediaRowsRaise | backend/products/management/commands/load_products_json.py:100-113 | the media loop raises exactly when some dictionary entry has a truthy type that is not text |
| LoadProductsJson.MediaRowsFollowPositions | backend/products/management/commands/load_products_json.py:100-113 | a completed media loop stores one row per dictionary entry, in order, each the row of the entry at that position |
| LoadProductsJson.MediaRowsKeepPositions | backend/products/management/commands/load_products_json.py:100-113 | every stored media row is an image or video whose order is its entry's position, increasing, and every dictionary entry has one |
| LoadProductsJson.ImportOne | backend/products/management/commands/load_products_json.py:79-113 | an entry is stored as the row its fields give, and fails exactly when its media fail |
| LoadProductsJson.KeptItems | backend/products/management/commands/load_products_json.py:75-78 | an entry is imported exactly when it is a dictionary whose id is None or not yet stored |
| LoadProductsJson.ImportItems | backend/products/management/commands/load_products_json.py:73-115 | never more products are saved than entries read |
| LoadProductsJson.ImportItemsRaise | backend/products/management/commands/load_products_json.py:73-115 | the loop raises exactly when some entry is not a dictionary, or is kept and has a media entry with a bad type |
| LoadProductsJson.ImportItemsSaveKept | backend/products/management/commands/load_products_json.py:73-115 | a completed loop stores one product per kept entry, in file order, each as that entry is imported |
| LoadProductsJson.SavedAreNotSkipped | backend/products/management/commands/load_products_json.py:75-114 | the products saved and the entries skipped together make up the file's entries |
| LoadProductsJson.Handle | backend/products/management/commands/load_products_json.py:64-116 | nothing is cleared or saved when the file has no products; a crash saves nothing; the table is cleared only with `--clear`; the count reported is the number saved |
| LoadProductsJson.CreatedCountsNewEntries | backend/products/management/commands/load_products_json.py:69-116 | the count reported is the entries minus those skipped, and every entry with `--clear` |
| LoadProductsJson.NothingSkippedWhenEmpty | backend/products/management/commands/load_products_json.py:76-78 | into an empty table no entry is skipped |
| RemoveProductMedia.Cleaned | scripts/remove-product-media.js:17-23 | a cleaned product keeps exactly its keys other than the media keys, with their values |
| RemoveProductMedia.StripProduct | scripts/remove-product-media.js:17-23 | a product that is not an object throws; otherwise it is cleaned and the count is the number of media keys it held |
| RemoveProductMedia.PresentCountsKeys | scripts/remove-product-media.js:18-22 | counting the three keys one by one counts the media keys present |
| RemoveProductMedia.StripProducts | scripts/remove-product-media.js:16-24 | the loop throws exactly when some product cannot be cleaned; otherwise every product is cleaned in place |
| RemoveProductMedia.RemovedCountsKeys | scripts/remove-product-media.js:15-24 | the count is the number of media keys the products held |
| RemoveProductMedia.RemoveMedia | scripts/remove-product-media.js:12-26 | the script throws exactly on null data, a product list that is not an array, or a product that is not an object; other top-level keys are kept; the products are cleaned one for one |
| RemoveProductMedia.NoMediaRemains | scripts/remove-product-media.js:16-26 | afterwards no product holds a media key |
| RemoveProductMedia.RemovedCountIsKeysHeld | scripts/remove-product-media.js:12-24 | the count reported is the number of media keys the file's products held |
| RemoveProductMedia.RemovingIsIdempotent | scripts/remove-product-media.js:12-26 | running the script twice changes nothing the second time and removes nothing |
| RemoveProductMedia.CleanedTwice | scripts/remove-product-media.js:16-24 | cleaned products are their own cleaning |
| RemoveProductMedia.NoKeysCountZero | scripts/remove-product-media.js:15-24 | products without media keys count zero |
| Cart.Bump | src/context/CartContext.jsx:47-51 | the cart keeps its length; each line with the id gains one unit and every other line is unchanged |
| Cart.SetQuantity | src/context/CartContext.jsx:76-80 | the cart keeps its length; each line with the id takes the new quantity and every other line is unchanged |
| Catalog.WithoutIdIdempotent | src/context/ProductsContext.jsx:164 | filtering an id out a second time removes nothing more |
| Catalog.UpdateOne | src/context/ProductsContext.jsx:171-183 | a null product throws; a product with another id is returned unchanged; the product with the id throws exactly when its merged media list is non-empty and holds a null entry; it gets every updated field, other fields kept, and its cover and image list recomputed from a non-empty media list; without such a list it is exactly `{...p, ...updates}`, or, in the corrected variant when the update removes the media, that merge with the cover and image list emptied |
| Catalog.UpdateWith | src/context/ProductsContext.jsx:168-185 | a seed id changes nothing; otherwise it throws exactly when one product's update throws, the list keeps its length, products with other ids stay as they were and every product is the result of UpdateOne on it |
| Catalog.ClearingOnlyAffectsMediaRemoval | src/context/ProductsContext.jsx:168-185 | an update that keeps a media list, or sets none, gives the same products with or without the correction |
| Catalog.StaleUpdateKeepsImages | src/context/ProductsContext.jsx:174-181 | as written, removing the media of a product with one image leaves its image list in place |
| CatalogSync.Run | src/context/ProductsContext.jsx:62-99 | any sequence of fetch results and edits keeps the sync state well formed |
| CatalogSync.SnapshotComesFrom | src/context/ProductsContext.jsx:44-99 | whatever the events, the catalog shown is the one it started with, the saved one, an admin edit or a normalised server reply |

## Left out

- Rendering, styling, translation tables, static pages, React context plumbing, `Link` navigation and scroll handling are not modelled: they hold no rules.
- `localStorage`, `fetch`, `setTimeout`, `FileReader`, blob downloads, `alert`, logging and the file reads and writes of both offline tools are replaced by parameters and inputs. The Django ORM is replaced by a set of existing ids and a list of saved rows.
- The e-mail service (`src/utils/emailService.js`) and the Drive proxy (`api/drive-proxy.js`) are not part of this model. The e-mail service's answer is a parameter of `CheckoutPage.Confirm`.
- Numbers are integers or exact reals, not IEEE doubles. `toFixed(2)` formatting is not modelled, so `CheckoutPage.OrderLineOf` keeps the exact line total. Price arithmetic, including the 1.2 factor in `getOriginalPrice`, is exact.
- `toLowerCase`, Python's `lower`, `trim` and `strip` are modelled on ASCII letters and the listed white-space characters. There is no Unicode case folding.
- `Js.ToNumber` reads only blank text and plain decimal digit runs as numbers. Signs, fractions, exponents and hexadecimal literals read as NaN. So do arrays and objects.
- CheckoutPage.QuantityOf: a truthy quantity that is not a number counts as 1, where JavaScript would coerce it in the multiplication. Enriched items always carry a numeric quantity, so this only matters for hand-written records.
- AdminPage.ImageToUrl: only the text-image case is stated. The `src`, `default` and `/photo<id>` fallbacks are in the body but unstated, because the seed images are module imports that the model cannot see.
- AdminPage.StartEdit: the form's text boxes hold strings, so a value that is not a string is shown as the text `Js.ToJsString` gives, where the page keeps the value itself. The throw this causes when such a form is saved is stated by `AdminPage.SaveUnedited`, for a save with nothing typed.
- The discount code on the cart page has no effect in the code, so the model does not carry it.
- AdminPage.ExportedDefault: the `description`, `shortDescription`, `badge` and `features` defaults and the conversion of each image through `imageToUrl` are in the body but not stated. Only the id, title, price and the pairing of image urls with media entries are stated.
- AdminPage.Record: its own contract states the title, the media and the legacy price. Every other key, and the full key set, are stated by `AdminPage.RecordFields`.
- ProductText.GetOriginalPrice: returns the marked-up amount and its layout, not the text `toFixed(2)` builds from them.
- CartPage.LineAmountsAddUp: sums the amount of every cart line, including a line with a falsy id, which the page does not render (src/pages/Cart.jsx:105). The subtotal counts such a line as well, so on that page the rendered amounts fall short of the subtotal.
- Js.StrictEquals: arrays and objects compare by their contents, where `===` compares them by identity. Ids that are equal arrays or objects therefore count as the same cart line. `Js.Includes` makes the same approximation.
- CheckoutPage.OrderLines: its own contract states only the bound on the number of lines and the all-unidentified case. What each line holds is stated by `CheckoutPage.AmountOfOrderLine` and `CheckoutPage.OrderLinesAreTitled`.
- LoadProductsJson.ImportItems: its own contract states only the bound on the number of saved rows. Which rows are saved and when the run raises are stated by `LoadProductsJson.ImportItemsSaveKept` and `LoadProductsJson.ImportItemsRaise`.
- Router: route patterns are compared as plain text. A route pattern holding other regular-expression metacharacters is not modelled.
- LoadProductsJson.Handle: the existing-id set is fixed for the whole run. Ids given to rows created earlier in the same run are not added to it, and Django's coercion of the `id` value in the lookup is reduced to equality. `str()` of floats, lists and dicts is the parameter `show`, and tuples are not modelled.
- LoadProductsJson.Handle: a crash inside the loop is modelled as the transaction rolling back every row saved in that run. A `--clear` that ran before the loop stays done.
- CatalogSync.Run: retry delays and the cache-busting query string are not modelled. Only the order of fetch results and edits matters.

## Findings

| source | as written | input that shows it | evidently intended | confidence | as-written member | corrected member |
|---|---|---|---|---|---|---|
| src/context/ProductsContext.jsx:174-181 | When an edit removes every media item, the form sends `media: undefined`, so `image`/`images` are not recomputed and the stale image list is displayed again | product `{id: 10, media: [image a.jpg], image: "a.jpg", images: ["a.jpg"]}` updated with `{media: undefined}` still shows `a.jpg` | removing every media item leaves the product with nothing to show | not executed | Catalog.RemovedMediaReappear | Catalog.ClearedMediaStayCleared |
| src/pages/Cart.jsx:179-183 | The amount beside a line removes only the first "$" and stops `parseFloat` at the first non-numeric character, while the subtotal keeps every digit and dot | one line priced `"$1,200"`, quantity 1: the line shows 1.00 while the subtotal is 1200 | the line amounts add up to the subtotal | not executed | CartPage.ThousandsSeparatorMisread | CartPage.LineAmountsAddUp |

=== FILE: admin_page.dfy ===
/**
 The admin page's own rules: how the product form becomes the record handed to
 `addProduct` / `updateProduct`, how a product is loaded back into the form,
 the pending media list, the upload size limits, and the exported catalog file.

 The form's text boxes hold strings; reading an uploaded file as a data URL is
 a parameter (`read`).
 */
module AdminPage {
  import opened Wrappers
  import opened Js
  import opened Strings
  import Catalog
  import ProductMedia
  import ProductText

  // The product form

  datatype Form = Form(
    titleEn: string, titleAr: string,
    descriptionEn: string, descriptionAr: string,
    shortDescriptionEn: string, shortDescriptionAr: string,
    badgeEn: string, badgeAr: string,
    featuresEn: string, featuresAr: string,
    priceEn: string, priceAr: string,
    media: seq<Value>)

  /** The form after `resetForm()`. */
  const EmptyForm := Form("", "", "", "", "", "", ProductText.NewArrivalEn, ProductText.NewArrivalAr, "", "", "", "", [])

  /** `a || b` on two strings. */
  function Either(a: string, b: string): (r: string)
    ensures a != "" ==> r == a
    ensures a == "" ==> r == b
  {
    if a != "" then a else b
  }

  /** A feature line as the form produces it: non-empty, without surrounding
      space, on one line. */
  predicate IsFeatureLine(line: string) {
    line != [] && !IsSpace(line[0]) && !IsSpace(line[|line| - 1]) && '\n' !in line
  }

  /** `text.split("\n").map((f) => f.trim()).filter(Boolean)` */
  function ParseFeatures(text: string): (r: seq<string>)
    ensures forall k :: 0 <= k < |r| ==> IsFeatureLine(r[k])
  {
    TrimmedLines(SplitOn(text, '\n'))
  }

  function TrimmedLines(parts: seq<string>): (r: seq<string>)
    requires forall k :: 0 <= k < |parts| ==> '\n' !in parts[k]
    ensures |r| <= |parts|
    ensures forall k :: 0 <= k < |r| ==> IsFeatureLine(r[k])
  {
    if parts == [] then []
    else
      var line := Trim(parts[0]);
      StripKeepsOut(parts[0], IsSpace, '\n');
      (if line != "" then [line] else []) + TrimmedLines(parts[1..])
  }

  /** Feature lines written one per line read back as the same list. */
  lemma FeaturesRoundTrip(lines: seq<string>)
    requires forall k :: 0 <= k < |lines| ==> IsFeatureLine(lines[k])
    ensures ParseFeatures(Join(lines, "\n")) == lines
  {
    if lines == [] {
      assert SplitOn("", '\n') == [""];
    } else {
      assert forall k :: 0 <= k < |lines| ==> '\n' !in lines[k];
      SplitJoin(lines, '\n');
      TrimmedLinesKeeps(lines);
    }
  }

  lemma {:induction false} TrimmedLinesKeeps(lines: seq<string>)
    requires forall k :: 0 <= k < |lines| ==> IsFeatureLine(lines[k])
    requires forall k :: 0 <= k < |lines| ==> '\n' !in lines[k]
    ensures TrimmedLines(lines) == lines
  {
    if lines != [] {
      StripUnchanged(lines[0], IsSpace);
      TrimmedLinesKeeps(lines[1..]);
    }
  }

  /** Parsing is stable: writing the parsed lines back and parsing again changes nothing. */
  lemma ParseFeaturesIsStable(text: string)
    ensures ParseFeatures(Join(ParseFeatures(text), "\n")) == ParseFeatures(text)
  {
    FeaturesRoundTrip(ParseFeatures(text));
  }

  function Strs(lines: seq<string>): (r: seq<Value>)
    ensures |r| == |lines|
    ensures forall k :: 0 <= k < |lines| ==> r[k] == Str(lines[k])
  {
    if lines == [] then [] else [Str(lines[0])] + Strs(lines[1..])
  }

  /** The record the form submits. Editing sends no legacy `price`. */
  datatype Submission = Submission(
    titleEn: Value, titleAr: Value,
    descriptionEn: Value, descriptionAr: Value,
    shortDescriptionEn: Value, shortDescriptionAr: Value,
    priceEn: Value, priceAr: Value,
    badgeEn: Value, badgeAr: Value,
    featuresEn: Value, featuresAr: Value,
    title: Value, description: Value, shortDescription: Value,
    price: Option<Value>, badge: Value, features: Value,
    media: Value)

  /** The object literal of `handleAddProduct` (`withPrice`) or
      `handleSaveEdit`: an object that carries a legacy `price` exactly when
      the submission has one. */
  function Record(sub: Submission): (r: Value)
    ensures r.Obj?
    ensures "price" in r.fields <==> sub.price.Some?
    ensures sub.price.Some? ==> Get(r, "price") == sub.price.value
    ensures Get(r, "title") == sub.title && Get(r, "media") == sub.media
  {
    var fields := map[
      "description_en" := sub.descriptionEn, "description_ar" := sub.descriptionAr,
      "shortDescription_en" := sub.shortDescriptionEn, "shortDescription_ar" := sub.shortDescriptionAr,
      "price_en" := sub.priceEn, "price_ar" := sub.priceAr,
      "badge_en" := sub.badgeEn, "badge_ar" := sub.badgeAr,
      "features_en" := sub.featuresEn, "features_ar" := sub.featuresAr,
      "description" := sub.description, "shortDescription" := sub.shortDescription,
      "badge" := sub.badge, "features" := sub.features,
      "media" := sub.media, "title_en" := sub.titleEn, "title_ar" := sub.titleAr, "title" := sub.title];
    Obj(if sub.price.Some? then fields["price" := sub.price.value] else fields)
  }

  /** Saving an edit sends no legacy `price`, so the edited product keeps
      the one it had, whatever the form held. */
  lemma EditKeepsLegacyPrice(p: Value, sub: Submission)
    requires sub.price.None?
    ensures Get(Catalog.Merge(p, Record(sub)), "price") == Get(p, "price")
  {
    assert "price" !in Spread(Record(sub));
  }

  /** The form's fields, trimmed and defaulted as both submit handlers do. */
  function Submit(form: Form, withPrice: bool): (r: Submission)
    ensures r.titleEn == Str(Either(Trim(form.titleEn), Catalog.NewProductTitle))
    ensures r.titleAr == Str(Trim(form.titleAr))
    ensures r.title == Str(Either(Trim(form.titleEn), Either(Trim(form.titleAr), Catalog.NewProductTitle)))
    ensures r.priceEn == Str(Either(Trim(form.priceEn), Catalog.NewProductPrice))
    ensures withPrice <==> r.price.Some?
    ensures withPrice ==> r.price == Some(Str(Either(Trim(form.priceEn), Either(Trim(form.priceAr), Catalog.NewProductPrice))))
    ensures form.media == [] <==> r.media == Undefined
    ensures r.featuresEn == Arr(Strs(ParseFeatures(form.featuresEn)))
    ensures r.features == Arr(Strs(if ParseFeatures(form.featuresEn) != [] then ParseFeatures(form.featuresEn) else ParseFeatures(form.featuresAr)))
    ensures r.featuresAr == Arr(Strs(ParseFeatures(form.featuresAr)))
    ensures form.media != [] ==> r.media == Arr(form.media)
    ensures r.descriptionEn == Str(Trim(form.descriptionEn)) && r.descriptionAr == Str(Trim(form.descriptionAr))
    ensures r.shortDescriptionEn == Str(Trim(form.shortDescriptionEn))
    ensures r.shortDescriptionAr == Str(Trim(form.shortDescriptionAr))
    ensures r.description == Str(Either(Trim(form.descriptionEn), Trim(form.descriptionAr)))
    ensures r.shortDescription == Str(Either(Trim(form.shortDescriptionEn), Trim(form.shortDescriptionAr)))
    ensures r.priceAr == Str(Trim(form.priceAr))
    ensures r.badgeEn == Str(Either(Trim(form.badgeEn), ProductText.NewArrivalEn))
    ensures r.badgeAr == Str(Either(Trim(form.badgeAr), ProductText.NewArrivalAr))
    ensures r.badge == Str(Either(Trim(form.badgeEn), Either(Trim(form.badgeAr), ProductText.NewArrivalEn)))
  {
    var titleEn := Trim(form.titleEn);
    var titleAr := Trim(form.titleAr);
    var descriptionEn := Trim(form.descriptionEn);
    var descriptionAr := Trim(form.descriptionAr);
    var shortEn := Trim(form.shortDescriptionEn);
    var shortAr := Trim(form.shortDescriptionAr);
    var priceEn := Trim(form.priceEn);
    var priceAr := Trim(form.priceAr);
    var badgeEn := Trim(form.badgeEn);
    var badgeAr := Trim(form.badgeAr);
    var featuresEn := ParseFeatures(form.featuresEn);
    var featuresAr := ParseFeatures(form.featuresAr);
    Submission(
      Str(Either(titleEn, Catalog.NewProductTitle)), Str(titleAr),
      Str(descriptionEn), Str(descriptionAr),
      Str(shortEn), Str(shortAr),
      Str(Either(priceEn, Catalog.NewProductPrice)), Str(priceAr),
      Str(Either(badgeEn, ProductText.NewArrivalEn)), Str(Either(badgeAr, ProductText.NewArrivalAr)),
      Arr(Strs(featuresEn)), Arr(Strs(featuresAr)),
      Str(Either(titleEn, Either(titleAr, Catalog.NewProductTitle))),
      Str(Either(descriptionEn, descriptionAr)),
      Str(Either(shortEn, shortAr)),
      if withPrice then Some(Str(Either(priceEn, Either(priceAr, Catalog.NewProductPrice)))) else None,
      Str(Either(badgeEn, Either(badgeAr, ProductText.NewArrivalEn))),
      Arr(Strs(if |featuresEn| > 0 then featuresEn else featuresAr)),
      if |form.media| > 0 then Arr(form.media) else Undefined)
  }

  lemma RecordReadsTitles(sub: Submission)
    ensures Get(Record(sub), "title_en") == sub.titleEn
    ensures Get(Record(sub), "title_ar") == sub.titleAr
    ensures Get(Record(sub), "title") == sub.title
    ensures Get(Record(sub), "media") == sub.media
  {
  }

  /** The fields every submitted record carries; the legacy `price` comes on top
      when the submission has one. */
  const RecordKeys: set<string> := {
    "title_en", "title_ar", "description_en", "description_ar",
    "shortDescription_en", "shortDescription_ar", "price_en", "price_ar",
    "badge_en", "badge_ar", "features_en", "features_ar",
    "title", "description", "shortDescription", "badge", "features", "media"}

  /** Each field of the submission lands under its own key, and the record has
      no other key: the fields a merge overwrites are exactly these. */
  lemma RecordFields(sub: Submission)
    ensures Record(sub).fields.Keys == RecordKeys + (if sub.price.Some? then {"price"} else {})
    ensures Get(Record(sub), "description_en") == sub.descriptionEn
    ensures Get(Record(sub), "description_ar") == sub.descriptionAr
    ensures Get(Record(sub), "shortDescription_en") == sub.shortDescriptionEn
    ensures Get(Record(sub), "shortDescription_ar") == sub.shortDescriptionAr
    ensures Get(Record(sub), "price_en") == sub.priceEn && Get(Record(sub), "price_ar") == sub.priceAr
    ensures Get(Record(sub), "badge_en") == sub.badgeEn && Get(Record(sub), "badge_ar") == sub.badgeAr
    ensures Get(Record(sub), "features_en") == sub.featuresEn && Get(Record(sub), "features_ar") == sub.featuresAr
    ensures Get(Record(sub), "description") == sub.description
    ensures Get(Record(sub), "shortDescription") == sub.shortDescription
    ensures Get(Record(sub), "badge") == sub.badge && Get(Record(sub), "features") == sub.features
  {
    RecordKeySet(sub);
    RecordReadsDescriptions(sub);
    RecordReadsShortDescriptions(sub);
    RecordReadsPrices(sub);
    RecordReadsBadges(sub);
    RecordReadsFeatures(sub);
    RecordReadsLegacyTexts(sub);
    RecordReadsLegacyLists(sub);
  }

  lemma RecordKeySet(sub: Submission)
    ensures Record(sub).fields.Keys == RecordKeys + (if sub.price.Some? then {"price"} else {})
  {
  }

  lemma RecordReadsDescriptions(sub: Submission)
    ensures Get(Record(sub), "description_en") == sub.descriptionEn
    ensures Get(Record(sub), "description_ar") == sub.descriptionAr
  {
  }

  lemma RecordReadsShortDescriptions(sub: Submission)
    ensures Get(Record(sub), "shortDescription_en") == sub.shortDescriptionEn
    ensures Get(Record(sub), "shortDescription_ar") == sub.shortDescriptionAr
  {
  }

  lemma RecordReadsPrices(sub: Submission)
    ensures Get(Record(sub), "price_en") == sub.priceEn
    ensures Get(Record(sub), "price_ar") == sub.priceAr
  {
  }

  lemma RecordReadsBadges(sub: Submission)
    ensures Get(Record(sub), "badge_en") == sub.badgeEn
    ensures Get(Record(sub), "badge_ar") == sub.badgeAr
  {
  }

  lemma RecordReadsFeatures(sub: Submission)
    ensures Get(Record(sub), "features_en") == sub.featuresEn
    ensures Get(Record(sub), "features_ar") == sub.featuresAr
  {
  }

  lemma RecordReadsLegacyTexts(sub: Submission)
    ensures Get(Record(sub), "description") == sub.description
    ensures Get(Record(sub), "shortDescription") == sub.shortDescription
  {
  }

  lemma RecordReadsLegacyLists(sub: Submission)
    ensures Get(Record(sub), "badge") == sub.badge
    ensures Get(Record(sub), "features") == sub.features
  {
  }

  /** Which title the text resolver shows for a submitted record. */
  lemma RecordTitleShown(sub: Submission)
    requires ProductText.Present(sub.titleEn)
    ensures ProductText.GetProductText(Record(sub), "title", "en") == sub.titleEn
    ensures ProductText.GetProductText(Record(sub), "title", "ar")
      == (if ProductText.Present(sub.titleAr) then sub.titleAr
          else if ProductText.Present(sub.title) then sub.title else sub.titleEn)
  {
    RecordReadsTitles(sub);
    assert ProductText.Tagged("title", "en") == "title_en";
    assert ProductText.Tagged("title", "ar") == "title_ar";
  }

  /** The title a shopper sees for a submitted product: in English the English
      title (or "New Product"), in Arabic the Arabic title when one was typed
      and otherwise the English one. */
  lemma SubmittedTitleShown(form: Form, withPrice: bool)
    ensures ProductText.GetProductText(Record(Submit(form, withPrice)), "title", "en")
      == Str(Either(Trim(form.titleEn), Catalog.NewProductTitle))
    ensures ProductText.GetProductText(Record(Submit(form, withPrice)), "title", "ar")
      == Str(Either(Trim(form.titleAr), Either(Trim(form.titleEn), Catalog.NewProductTitle)))
  {
    TitlesShown(Submit(form, withPrice), Trim(form.titleEn), Trim(form.titleAr));
  }

  lemma TitlesShown(sub: Submission, en: string, ar: string)
    requires sub.titleEn == Str(Either(en, Catalog.NewProductTitle))
    requires sub.titleAr == Str(ar)
    requires sub.title == Str(Either(en, Either(ar, Catalog.NewProductTitle)))
    ensures ProductText.GetProductText(Record(sub), "title", "en") == sub.titleEn
    ensures ProductText.GetProductText(Record(sub), "title", "ar")
      == Str(Either(ar, Either(en, Catalog.NewProductTitle)))
  {
    RecordTitleShown(sub);
  }

  // Loading a product into the form

  /** `(list || []).join("\n")` for an array: null and undefined become empty lines. */
  function JoinLines(items: seq<Value>): string {
    Join(Texts(items), "\n")
  }

  function Texts(items: seq<Value>): (r: seq<string>)
    ensures |r| == |items|
    ensures forall k :: 0 <= k < |items| ==> r[k] == (if Nullish(items[k]) then "" else ToJsString(items[k]))
  {
    if items == [] then [] else [if Nullish(items[0]) then "" else ToJsString(items[0])] + Texts(items[1..])
  }

  /** What a text box shows for a field value. */
  function FormText(v: Value): string {
    if v.Str? then v.s else ToJsString(v)
  }

  /** A media item as the form keeps it: `{type, url}`. */
  function MediaItem(m: ProductMedia.Media): Value {
    Obj(map["type" := Str(if m.kind.Video? then "video" else "image"), "url" := Str(m.url)])
  }

  function MediaItems(media: seq<ProductMedia.Media>): (r: seq<Value>)
    ensures |r| == |media|
    ensures forall k :: 0 <= k < |media| ==> r[k] == MediaItem(media[k])
  {
    if media == [] then [] else [MediaItem(media[0])] + MediaItems(media[1..])
  }

  /** The product id `startEdit` puts in edit mode, with the filled-in form. */
  datatype Editing = Editing(id: Value, form: Form)

  /** `startEdit(product)`: nothing for a seed product; otherwise the form is
      filled from the product. Joining features that are set but are not an
      array, or listing malformed media, throws. */
  function StartEdit(product: Value): (r: Outcome<Option<Editing>>)
    requires !Nullish(product)
    ensures Catalog.IsSeedId(Catalog.IdOf(product)) ==> r == Ok(None)
    ensures r.Ok? && r.value.Some? ==> !Catalog.IsSeedId(Catalog.IdOf(product)) && r.value.value.id == Catalog.IdOf(product)
    ensures r.Ok? && r.value.Some? ==>
      r.value.value.form.titleEn == EnglishText(product, "title", "")
    ensures r.Ok? && r.value.Some? ==>
      EnglishFeatures(product).Arr? && r.value.value.form.featuresEn == JoinLines(EnglishFeatures(product).items)
    ensures r.Ok? && r.value.Some? ==>
      ProductMedia.GetProductMedia(product).Ok? && r.value.value.form.media == MediaItems(ProductMedia.GetProductMedia(product).value)
    ensures !Catalog.IsSeedId(Catalog.IdOf(product)) ==>
      (r.Ok? && r.value.Some? <==> FeatureListsAreArrays(product) && ProductMedia.GetProductMedia(product).Ok?)
    ensures !Catalog.IsSeedId(Catalog.IdOf(product)) && !(FeatureListsAreArrays(product) && ProductMedia.GetProductMedia(product).Ok?) ==>
      r == TypeError
  {
    if Catalog.IsSeedId(Catalog.IdOf(product)) then Ok(None)
    else
      var featuresEn := EnglishFeatures(product);
      var featuresAr := ArabicFeatures(product);
      if !featuresEn.Arr? || !featuresAr.Arr? then TypeError
      else
        match ProductMedia.GetProductMedia(product)
        case TypeError => TypeError
        case Ok(media) =>
          var form := Form(
            EnglishText(product, "title", ""), ArabicText(product, "title", ""),
            EnglishText(product, "description", ""), ArabicText(product, "description", ""),
            EnglishText(product, "shortDescription", ""), ArabicText(product, "shortDescription", ""),
            EnglishText(product, "badge", ProductText.NewArrivalEn), ArabicText(product, "badge", ProductText.NewArrivalAr),
            JoinLines(featuresEn.items), JoinLines(featuresAr.items),
            EnglishText(product, "price", ""), ArabicText(product, "price", ""),
            MediaItems(media));
          Ok(Some(Editing(Catalog.IdOf(product), form)))
  }

  /** `product.features_en || product.features || []` */
  function EnglishFeatures(product: Value): Value {
    Or(Get(product, "features_en"), Or(Get(product, "features"), Arr([])))
  }

  /** `product.features_ar || []` */
  function ArabicFeatures(product: Value): Value {
    Or(Get(product, "features_ar"), Arr([]))
  }

  /** Both feature lists can be joined into lines. */
  predicate FeatureListsAreArrays(product: Value) {
    EnglishFeatures(product).Arr? && ArabicFeatures(product).Arr?
  }

  /** `product.<field>_en || product.<field> || fallback`: what `startEdit` puts
      in an English text box. */
  function RawEnglish(product: Value, field: string, fallback: string): Value {
    Or(Get(product, field + "_en"), Or(Get(product, field), Str(fallback)))
  }

  /** `product.<field>_ar || fallback`: what `startEdit` puts in an Arabic text box. */
  function RawArabic(product: Value, field: string, fallback: string): Value {
    Or(Get(product, field + "_ar"), Str(fallback))
  }

  function EnglishText(product: Value, field: string, fallback: string): string {
    FormText(RawEnglish(product, field, fallback))
  }

  function ArabicText(product: Value, field: string, fallback: string): string {
    FormText(RawArabic(product, field, fallback))
  }

  /** The ten values `startEdit` puts in the text boxes, in the order of the
      form: titles, descriptions, short descriptions, badges, prices. */
  function RawTexts(product: Value): (r: seq<Value>)
    ensures |r| == 10
  {
    [RawEnglish(product, "title", ""), RawArabic(product, "title", ""),
     RawEnglish(product, "description", ""), RawArabic(product, "description", ""),
     RawEnglish(product, "shortDescription", ""), RawArabic(product, "shortDescription", ""),
     RawEnglish(product, "badge", ProductText.NewArrivalEn), RawArabic(product, "badge", ProductText.NewArrivalAr),
     RawEnglish(product, "price", ""), RawArabic(product, "price", "")]
  }

  /** Every text box holds a string, so `trim()` can be called on each. */
  predicate TextBoxesHoldStrings(product: Value) {
    forall k :: 0 <= k < 10 ==> RawTexts(product)[k].Str?
  }

  /** `startEdit(product)` and then `handleSaveEdit` with nothing typed. The
      save calls `trim()` on each of the ten text boxes, which throws when a
      box holds a value that is not a string (a numeric title, say). */
  function SaveUnedited(product: Value): (r: Outcome<Option<Submission>>)
    requires !Nullish(product)
    ensures StartEdit(product).TypeError? ==> r == TypeError
    ensures StartEdit(product) == Ok(None) ==> r == Ok(None)
    ensures StartEdit(product).Ok? && StartEdit(product).value.Some? ==>
      (r.TypeError? <==> !TextBoxesHoldStrings(product))
    ensures r.Ok? && r.value.Some? ==>
      && StartEdit(product).Ok? && StartEdit(product).value.Some? && TextBoxesHoldStrings(product)
      && r.value.value.titleEn == Str(Either(Trim(RawTexts(product)[0].s), Catalog.NewProductTitle))
      && r.value.value.price.None?
  {
    match StartEdit(product)
    case TypeError => TypeError
    case Ok(None) => Ok(None)
    case Ok(Some(editing)) =>
      if !TextBoxesHoldStrings(product) then TypeError
      else Ok(Some(Submit(editing.form, false)))
  }

  /** A product whose English title is a number, as a hand-edited catalog may
      hold, opens in the editor but cannot be saved unchanged. */
  lemma NumericTitleCannotBeSaved(product: Value, n: int)
    requires product.Obj? && !Catalog.IsSeedId(Catalog.IdOf(product))
    requires FeatureListsAreArrays(product) && ProductMedia.GetProductMedia(product).Ok?
    requires Get(product, "title_en") == Num(n) && n != 0
    ensures StartEdit(product).Ok? && StartEdit(product).value.Some?
    ensures SaveUnedited(product) == TypeError
  {
    assert "title" + "_en" == "title_en";
    assert RawEnglish(product, "title", "") == Num(n);
    assert !RawTexts(product)[0].Str?;
  }

  /** `product.id > 9`: the edit button is only offered past the seed range,
      never for a seed id. */
  function ShowsEditButton(product: Value): (r: bool)
    ensures r ==> !Catalog.IsSeedId(Catalog.IdOf(product))
    ensures Catalog.IdOf(product).Num? ==> (r <==> Catalog.IdOf(product).n > Catalog.HighestSeedId)
  {
    var n := ToNumber(Catalog.IdOf(product));
    n.Some? && n.value > Catalog.HighestSeedId
  }

  /** Every product with an edit button can be edited, and no seed product has one. */
  lemma EditButtonOnlyOutsideSeeds(product: Value)
    requires !Nullish(product)
    ensures ShowsEditButton(product) ==> !Catalog.IsSeedId(Catalog.IdOf(product))
    ensures Catalog.IsSeedId(Catalog.IdOf(product)) ==> !ShowsEditButton(product) && StartEdit(product) == Ok(None)
  {
  }

  /** The product already holds its English title and feature list in the
      shape the form writes them: trimmed, non-blank, one feature per line. */
  predicate StoredAsFormWrites(product: Value, title: string, features: seq<string>) {
    && Get(product, "title_en") == Str(title) && IsFeatureLine(title)
    && Get(product, "features_en") == Arr(Strs(features)) && features != []
    && forall k :: 0 <= k < |features| ==> IsFeatureLine(features[k])
  }

  /** The form shows that title and those features, one per line. */
  predicate FormShows(form: Form, title: string, features: seq<string>) {
    && form.titleEn == title && IsFeatureLine(title)
    && form.featuresEn == Join(features, "\n")
    && forall k :: 0 <= k < |features| ==> IsFeatureLine(features[k])
  }

  /** Opening a product in the editor and saving without changes keeps its
      English title and feature list, when those are already in the shape the
      form writes. */
  lemma UnchangedEditKeepsTitleAndFeatures(product: Value, editing: Editing, title: string, features: seq<string>)
    requires !Nullish(product) && StartEdit(product) == Ok(Some(editing))
    requires StoredAsFormWrites(product, title, features)
    ensures Submit(editing.form, false).titleEn == Str(title)
    ensures Submit(editing.form, false).featuresEn == Arr(Strs(features))
  {
    EditFormOf(product, editing, title, features);
    SubmitKeeps(editing.form, title, features);
  }

  /** The form `startEdit` fills shows the stored English title and the
      stored features, one per line. */
  lemma EditFormOf(product: Value, editing: Editing, title: string, features: seq<string>)
    requires !Nullish(product) && StartEdit(product) == Ok(Some(editing))
    requires StoredAsFormWrites(product, title, features)
    ensures FormShows(editing.form, title, features)
  {
    EnglishTitleOf(product, title);
    assert EnglishFeatures(product) == Arr(Strs(features));
    assert editing.form.featuresEn == JoinLines(Strs(features));
    TextsOfStrs(features);
  }

  lemma EnglishTitleOf(product: Value, title: string)
    requires Get(product, "title_en") == Str(title) && title != ""
    ensures EnglishText(product, "title", "") == title
  {
    assert "title" + "_en" == "title_en";
  }

  lemma TextsOfStrs(lines: seq<string>)
    ensures Texts(Strs(lines)) == lines
  {
  }

  /** Submitting a form that shows a trimmed title and trimmed feature lines
      writes them back unchanged. */
  lemma SubmitKeeps(form: Form, title: string, features: seq<string>)
    requires FormShows(form, title, features)
    ensures Submit(form, false).titleEn == Str(title)
    ensures Submit(form, false).featuresEn == Arr(Strs(features))
  {
    StripUnchanged(title, IsSpace);
    FeaturesRoundTrip(features);
  }

  // The pending media list

  /** `addMediaItem(type, url)`: a url that is not text or is blank after
      trimming is ignored; otherwise `{type, url: trimmed}` goes at the end. */
  function AddMediaItem(items: seq<Value>, kind: Value, url: Value): (r: seq<Value>)
    ensures !url.Str? || Trim(url.s) == "" ==> r == items
    ensures url.Str? && Trim(url.s) != "" ==> r == items + [Obj(map["type" := kind, "url" := Str(Trim(url.s))])]
  {
    var u := if url.Str? then Trim(url.s) else "";
    if u == "" then items else items + [Obj(map["type" := kind, "url" := Str(u)])]
  }

  /** `removeMediaItem(index)`: the item at that position leaves; the others keep their order. */
  function RemoveMediaItem(items: seq<Value>, index: int): (r: seq<Value>)
    ensures 0 <= index < |items| ==> r == items[..index] + items[index + 1..]
    ensures !(0 <= index < |items|) ==> r == items
  {
    if 0 <= index < |items| then items[..index] + items[index + 1..] else items
  }

  /** Removing the item just added restores the list. */
  lemma RemoveUndoesAdd(items: seq<Value>, kind: Value, url: Value)
    requires url.Str? && Trim(url.s) != ""
    ensures RemoveMediaItem(AddMediaItem(items, kind, url), |items|) == items
  {
    var added := AddMediaItem(items, kind, url);
    assert added[..|items|] == items;
  }

  // Uploads

  const MaxImageSizeMb := 2
  const MaxVideoSizeMb := 20
  const BytesPerMb := 1024 * 1024

  datatype Upload = Upload(name: string, size: int)

  /** `files.filter((f) => f.size <= maxBytes)` */
  function WithinLimit(files: seq<Upload>, maxBytes: int): (r: seq<Upload>)
    ensures |r| <= |files|
    ensures forall k :: 0 <= k < |r| ==> r[k].size <= maxBytes
    ensures forall f :: f in r <==> f in files && f.size <= maxBytes
    ensures |files| == 1 ==> r == (if files[0].size <= maxBytes then files else [])
  {
    if files == [] then []
    else (if files[0].size <= maxBytes then [files[0]] else []) + WithinLimit(files[1..], maxBytes)
  }

  /** The filter distributes over concatenation, so with the one-file case it
      keeps the order and the repetitions of the files it lets through. */
  lemma {:induction false} WithinLimitAppend(a: seq<Upload>, b: seq<Upload>, maxBytes: int)
    ensures WithinLimit(a + b, maxBytes) == WithinLimit(a, maxBytes) + WithinLimit(b, maxBytes)
  {
    if a == [] {
      assert a + b == b;
    } else {
      var ab := a + b;
      assert ab[0] == a[0] && ab[1..] == a[1..] + b;
      WithinLimitAppend(a[1..], b, maxBytes);
      var head := if a[0].size <= maxBytes then [a[0]] else [];
      assert WithinLimit(ab, maxBytes) == head + WithinLimit(a[1..] + b, maxBytes);
      Catalog.Associative(head, WithinLimit(a[1..], maxBytes), WithinLimit(b, maxBytes));
    }
  }

  /** `handleFileChange` / `handleVideoFileChange`: files within the size limit
      of their kind (2 MB for images, 20 MB for videos) are read as data URLs
      and appended, in order, as items of that kind. */
  function AddUploads(items: seq<Value>, files: seq<Upload>, video: bool, read: Upload -> string): (r: seq<Value>)
    ensures files == [] ==> r == items
    ensures |r| == |items| + |WithinLimit(files, (if video then MaxVideoSizeMb else MaxImageSizeMb) * BytesPerMb)|
    ensures r[..|items|] == items
    ensures forall k :: |items| <= k < |r| ==>
      r[k] == Obj(map["type" := Str(if video then "video" else "image"),
                      "url" := Str(read(WithinLimit(files, (if video then MaxVideoSizeMb else MaxImageSizeMb) * BytesPerMb)[k - |items|]))])
  {
    var kept := WithinLimit(files, (if video then MaxVideoSizeMb else MaxImageSizeMb) * BytesPerMb);
    items + UploadItems(kept, if video then "video" else "image", read)
  }

  function UploadItems(files: seq<Upload>, kind: string, read: Upload -> string): (r: seq<Value>)
    ensures |r| == |files|
    ensures forall k :: 0 <= k < |files| ==> r[k] == Obj(map["type" := Str(kind), "url" := Str(read(files[k]))])
  {
    if files == [] then [] else [Obj(map["type" := Str(kind), "url" := Str(read(files[0]))])] + UploadItems(files[1..], kind, read)
  }

  /** A file above the image limit but within the video limit is dropped as
      an image and appended as a video. */
  lemma UploadLimitsDiffer(items: seq<Value>, f: Upload, read: Upload -> string)
    requires MaxImageSizeMb * BytesPerMb < f.size <= MaxVideoSizeMb * BytesPerMb
    ensures AddUploads(items, [f], false, read) == items
    ensures AddUploads(items, [f], true, read) == items + [Obj(map["type" := Str("video"), "url" := Str(read(f))])]
  {
    assert WithinLimit([f], MaxImageSizeMb * BytesPerMb) == [];
    assert WithinLimit([f], MaxVideoSizeMb * BytesPerMb) == [f];
  }

  // Export

  /** `imageToUrl(img, fallbackId)`: text as is, else the module's `src` or
      `default`, else the conventional `/photo<id>` path. */
  function ImageToUrl(img: Value, fallbackId: Value): (r: Value)
    ensures img.Str? ==> r == img
  {
    if img.Str? then img
    else if !Nullish(img) && Truthy(Get(img, "src")) then Get(img, "src")
    else if !Nullish(img) && Truthy(Get(img, "default")) then Get(img, "default")
    else Str("/photo" + ToJsString(fallbackId) + "." + (if StrictEquals(fallbackId, Num(1)) then "png" else "jpg"))
  }

  function ImageUrlsOf(images: seq<Value>, fallbackId: Value): (r: seq<Value>)
    ensures |r| == |images|
    ensures forall k :: 0 <= k < |images| ==> r[k] == ImageToUrl(images[k], fallbackId)
  {
    if images == [] then [] else [ImageToUrl(images[0], fallbackId)] + ImageUrlsOf(images[1..], fallbackId)
  }

  function ImageEntries(urls: seq<Value>): (r: seq<Value>)
    ensures |r| == |urls|
    ensures forall k :: 0 <= k < |urls| ==> r[k] == Catalog.ImageEntry(urls[k])
  {
    if urls == [] then [] else [Catalog.ImageEntry(urls[0])] + ImageEntries(urls[1..])
  }

  /** A seed product in the exported file: its id, title and price as they
      were, and a media list of exactly its image urls, each as an image entry. */
  function ExportedDefault(p: Value): (r: Value)
    requires !Nullish(p)
    ensures Get(r, "id") == Catalog.IdOf(p) && Get(r, "title") == Get(p, "title") && Get(r, "price") == Get(p, "price")
    ensures Get(r, "images").Arr? && Get(r, "media").Arr?
    ensures |Get(r, "media").items| == |Get(r, "images").items|
    ensures forall k :: 0 <= k < |Get(r, "images").items| ==>
      Get(r, "media").items[k] == Catalog.ImageEntry(Get(r, "images").items[k])
    ensures !Get(p, "images").Arr? ==> Get(r, "images") == Arr([Get(r, "image")])
  {
    var id := Catalog.IdOf(p);
    var image := ImageToUrl(Get(p, "image"), id);
    var images := if Get(p, "images").Arr? then ImageUrlsOf(Get(p, "images").items, id) else [image];
    var texts := map[
      "description" := Or(Get(p, "description"), Str("")),
      "shortDescription" := Or(Get(p, "shortDescription"), Str("")),
      "badge" := Get(p, "badge"),
      "features" := Or(Get(p, "features"), Arr([]))];
    Obj(texts["title" := Get(p, "title")]["price" := Get(p, "price")]["image" := image]
      ["images" := Arr(images)]["media" := Arr(ImageEntries(images))]["id" := id])
  }

  function ExportedDefaults(shown: seq<Value>): (r: seq<Value>)
    requires !HasNullish(shown)
    ensures |r| == |shown|
    ensures forall k :: 0 <= k < |shown| ==> r[k] == ExportedDefault(shown[k])
  {
    if shown == [] then [] else [ExportedDefault(shown[0])] + ExportedDefaults(shown[1..])
  }

  function SeedIds(n: nat): (r: seq<Value>)
    ensures |r| == n
    ensures forall k :: 0 <= k < n ==> r[k] == Num(k + 1)
  {
    if n == 0 then [] else SeedIds(n - 1) + [Num(n)]
  }

  /** The downloaded `initial-products.json`: every seed id hidden, and every
      listed product (shown seed products first) stored as a custom product. */
  function Export(defaults: seq<Value>, s: Catalog.Snapshot): (r: Outcome<Catalog.Snapshot>)
    ensures r.TypeError? <==> HasNullish(defaults)
    ensures r.Ok? ==> r.value.removedIds == SeedIds(Catalog.HighestSeedId)
    ensures r.Ok? ==> (|r.value.customProducts| >= |s.customProducts|
      && r.value.customProducts[|r.value.customProducts| - |s.customProducts|..] == s.customProducts)
    ensures r.Ok? ==> var shown := Catalog.NotRemoved(defaults, s.removedIds);
      && |r.value.customProducts| == |shown| + |s.customProducts|
      && forall k :: 0 <= k < |shown| ==> !Nullish(shown[k]) && r.value.customProducts[k] == ExportedDefault(shown[k])
  {
    match Catalog.ShownDefaults(defaults, s.removedIds)
    case TypeError => TypeError
    case Ok(shown) =>
      assert !HasNullish(shown) by {
        forall k | 0 <= k < |shown|
          ensures !Nullish(shown[k])
        {
          assert shown[k] in defaults;
        }
      }
      var exported := ExportedDefaults(shown);
      assert (exported + s.customProducts)[|exported|..] == s.customProducts;
      assert forall k :: 0 <= k < |exported| ==> (exported + s.customProducts)[k] == exported[k];
      Ok(Catalog.Snapshot(SeedIds(Catalog.HighestSeedId), exported + s.customProducts))
  }

  /** Re-importing the exported file shows exactly the exported products: the
      seed products themselves stay hidden, so none is listed twice. */
  lemma ExportHidesSeeds(defaults: seq<Value>, s: Catalog.Snapshot)
    requires Export(defaults, s).Ok?
    requires forall k :: 0 <= k < |defaults| ==> Catalog.IdOf(defaults[k]) in SeedIds(Catalog.HighestSeedId)
    ensures Catalog.VisibleProducts(defaults, Export(defaults, s).value) == Ok(Export(defaults, s).value.customProducts)
  {
    var e := Export(defaults, s).value;
    NoDefaultShown(defaults, e.removedIds);
  }

  lemma {:induction false} NoDefaultShown(defaults: seq<Value>, removedIds: seq<Value>)
    requires !HasNullish(defaults)
    requires forall k :: 0 <= k < |defaults| ==> Catalog.IdOf(defaults[k]) in removedIds
    ensures Catalog.ShownDefaults(defaults, removedIds).Ok? && Catalog.ShownDefaults(defaults, removedIds).value == []
  {
    if defaults != [] {
      NoDefaultShown(defaults[1..], removedIds);
      assert Includes(removedIds, Catalog.IdOf(defaults[0]));
    }
  }
}

=== FILE: auth.dfy ===
/**
 The admin session: a single flag, switched on by the fixed credentials and
 persisted as the text "true" or "false".
 */
module Auth {
  import opened Wrappers
  import opened Js
  import opened Strings

  const AdminUsername := "admin"
  const AdminPassword := "admin"

  /** The check `login` makes: the username is compared after lower-casing,
      the password exactly, both after conversion to text. */
  predicate Accepts(username: Value, password: Value) {
    Lower(ToJsString(username)) == AdminUsername && ToJsString(password) == AdminPassword
  }

  /** `login(username, password)`: the new flag and the returned success. */
  function Login(isAdmin: bool, username: Value, password: Value): (r: (bool, bool))
    ensures r.1 <==> Accepts(username, password)
    ensures r.1 ==> r.0
    ensures !r.1 ==> r.0 == isAdmin
  {
    var ok := Accepts(username, password);
    (if ok then true else isAdmin, ok)
  }

  /** `logout()` */
  function Logout(isAdmin: bool): (r: bool)
    ensures !r
  {
    false
  }

  /** The text the flag is stored as: `String(isAdmin)`. */
  function StoredFlag(isAdmin: bool): string {
    ToJsString(Bool(isAdmin))
  }

  /** The flag on start-up: set exactly when the stored text is "true"; a
      missing entry or a storage error reads as signed out. */
  function InitialFlag(stored: Option<string>): (r: bool)
    ensures r <==> stored == Some("true")
  {
    stored == Some("true")
  }

  /** The flag survives a reload. */
  lemma FlagRoundTrip(isAdmin: bool)
    ensures InitialFlag(Some(StoredFlag(isAdmin))) == isAdmin
  {
  }

  /** Two usernames that differ only in letter case are accepted alike, and
      a password is accepted only when it is "admin" exactly as written. */
  lemma CredentialCases(u: string, v: string, password: string)
    requires |u| == |v| && forall k :: 0 <= k < |u| ==> LowerChar(u[k]) == LowerChar(v[k])
    ensures Accepts(Str(u), Str(password)) <==> Accepts(Str(v), Str(password))
    ensures Accepts(Str(u), Str(password)) ==> password == AdminPassword
  {
    assert Lower(u) == Lower(v);
  }

  /** Exactly the five-letter spellings of "admin" in any mix of cases are accepted as usernames. */
  lemma AcceptedUsernames(s: string)
    ensures Lower(s) == AdminUsername <==>
      |s| == 5 && forall k :: 0 <= k < 5 ==> s[k] == "admin"[k] || s[k] == "ADMIN"[k]
  {
    if |s| == 5 && forall k :: 0 <= k < 5 ==> s[k] == "admin"[k] || s[k] == "ADMIN"[k] {
      assert forall k :: 0 <= k < 5 ==> Lower(s)[k] == "admin"[k];
    }
    if Lower(s) == AdminUsername {
      forall k | 0 <= k < 5
        ensures s[k] == "admin"[k] || s[k] == "ADMIN"[k]
      {
        assert LowerChar(s[k]) == "admin"[k];
      }
    }
  }
}

=== FILE: cart.dfy ===
/**
 The shopping cart: an ordered list of lines, one per product id, each with a
 quantity and the price text captured when the product was first added.

 Lines are typed records: every line is either created by `addToCart` or read
 back from the projection the cart saves, so it only ever has these three
 fields. Quantities are integers; the cart only ever stores numbers there.
 */
module Cart {
  import opened Js
  import opened Prices

  datatype Line = Line(id: Value, quantity: int, price: Value)

  type Cart = seq<Line>

  /** `item.quantity || 1` */
  function QuantityOr1(q: int): (r: int)
    ensures q != 0 ==> r == q
    ensures q == 0 ==> r == 1
  {
    if q != 0 then q else 1
  }

  predicate HasId(line: Line, id: Value) {
    StrictEquals(line.id, id)
  }

  /** Whether some line carries the id (`find` succeeds). */
  predicate InCart(cart: Cart, id: Value) {
    exists k :: 0 <= k < |cart| && HasId(cart[k], id)
  }

  /** No two lines carry the same id. */
  predicate DistinctLines(cart: Cart) {
    forall i, j :: 0 <= i < j < |cart| ==> !StrictEquals(cart[i].id, cart[j].id)
  }

  /** Every quantity is at least one. */
  predicate PositiveQuantities(cart: Cart) {
    forall k :: 0 <= k < |cart| ==> cart[k].quantity >= 1
  }

  /** The price a new line records: `price || price_en || price_ar || "0"`. */
  function PriceOf(product: Value): (r: Value)
    ensures Truthy(r)
  {
    Or(Get(product, "price"), Or(Get(product, "price_en"), Or(Get(product, "price_ar"), Str("0"))))
  }

  /** Every line with the id gets one more unit. */
  function Bump(cart: Cart, id: Value): (r: Cart)
    ensures |r| == |cart|
    ensures forall k :: 0 <= k < |cart| ==>
      r[k] == (if HasId(cart[k], id) then cart[k].(quantity := cart[k].quantity + 1) else cart[k])
  {
    if cart == [] then []
    else
      [if HasId(cart[0], id) then cart[0].(quantity := cart[0].quantity + 1) else cart[0]] + Bump(cart[1..], id)
  }

  /** `addToCart(product)`: one more unit of a product already in the cart,
      or a new line with one unit at the end. */
  function AddToCart(cart: Cart, product: Value): (r: Cart)
    requires !Nullish(product)
    ensures InCart(cart, IdOf(product)) ==> |r| == |cart|
    ensures InCart(cart, IdOf(product)) ==> forall k :: 0 <= k < |cart| ==>
      (HasId(cart[k], IdOf(product)) ==> r[k] == cart[k].(quantity := cart[k].quantity + 1))
      && (!HasId(cart[k], IdOf(product)) ==> r[k] == cart[k])
    ensures !InCart(cart, IdOf(product)) ==> r == cart + [Line(IdOf(product), 1, PriceOf(product))]
  {
    var id := IdOf(product);
    if InCart(cart, id) then Bump(cart, id) else cart + [Line(id, 1, PriceOf(product))]
  }

  function IdOf(product: Value): Value {
    Get(product, "id")
  }

  /** `removeFromCart(id)`: drops every line with the id, keeping the others in order. */
  function RemoveFromCart(cart: Cart, id: Value): (r: Cart)
    ensures |r| <= |cart|
    ensures !InCart(r, id)
    ensures forall line :: line in r <==> line in cart && !HasId(line, id)
  {
    if cart == [] then []
    else (if HasId(cart[0], id) then [] else [cart[0]]) + RemoveFromCart(cart[1..], id)
  }

  /** `updateQuantity(id, quantity)`: a quantity of zero or less removes the
      line; any other quantity replaces that line's quantity. */
  function UpdateQuantity(cart: Cart, id: Value, quantity: int): (r: Cart)
    ensures quantity <= 0 ==> r == RemoveFromCart(cart, id)
    ensures quantity > 0 ==> |r| == |cart|
    ensures quantity > 0 ==> forall k :: 0 <= k < |cart| ==>
      (HasId(cart[k], id) ==> r[k] == cart[k].(quantity := quantity))
      && (!HasId(cart[k], id) ==> r[k] == cart[k])
  {
    if quantity <= 0 then RemoveFromCart(cart, id) else SetQuantity(cart, id, quantity)
  }

  function SetQuantity(cart: Cart, id: Value, quantity: int): (r: Cart)
    ensures |r| == |cart|
    ensures forall k :: 0 <= k < |cart| ==>
      r[k] == (if HasId(cart[k], id) then cart[k].(quantity := quantity) else cart[k])
  {
    if cart == [] then []
    else [if HasId(cart[0], id) then cart[0].(quantity := quantity) else cart[0]] + SetQuantity(cart[1..], id, quantity)
  }

  function ClearCart(): (r: Cart)
    ensures Count(r) == 0 && |r| == 0
  {
    []
  }

  /** `getCartCount()`: the sum of `quantity || 1`. */
  function Count(cart: Cart): (r: int)
    ensures cart == [] ==> r == 0
    ensures |cart| == 1 ==> r == QuantityOr1(cart[0].quantity)
  {
    if cart == [] then 0 else QuantityOr1(cart[0].quantity) + Count(cart[1..])
  }

  /** The numeric value of a line's price: `parseFloat(String(price || "0")…) || 0`. */
  function LinePrice(line: Line): (r: real)
    ensures r >= 0.0
  {
    PriceValue(ToJsString(Or(line.price, Str("0"))))
  }

  /** `getCartTotal()`: the sum of price times `quantity || 1`. */
  function Total(cart: Cart): (r: real)
    ensures cart == [] ==> r == 0.0
    ensures |cart| == 1 ==> r == LineTotal(cart[0])
  {
    if cart == [] then 0.0 else LineTotal(cart[0]) + Total(cart[1..])
  }

  function LineTotal(line: Line): real {
    Scaled(LinePrice(line), QuantityOr1(line.quantity))
  }

  function Scaled(price: real, quantity: int): real {
    price * quantity as real
  }

  /** The minimal copy the cart saves: id, `quantity || 1` and `price || "0"`. */
  function Saved(cart: Cart): (r: Cart)
    ensures |r| == |cart|
    ensures forall k :: 0 <= k < |cart| ==>
      r[k].id == cart[k].id && r[k].quantity == QuantityOr1(cart[k].quantity) && r[k].price == Or(cart[k].price, Str("0"))
  {
    if cart == [] then [] else [SavedLine(cart[0])] + Saved(cart[1..])
  }

  function SavedLine(line: Line): Line {
    Line(line.id, QuantityOr1(line.quantity), Or(line.price, Str("0")))
  }

  // Properties

  /** The saved copy counts the same as the cart. */
  lemma {:induction false} SavedKeepsCount(cart: Cart)
    ensures Count(Saved(cart)) == Count(cart)
  {
    if cart != [] {
      SavedKeepsCount(cart[1..]);
      assert Saved(cart)[1..] == Saved(cart[1..]);
    }
  }

  /** The saved copy totals the same as the cart. */
  lemma {:induction false} SavedKeepsTotal(cart: Cart)
    ensures Total(Saved(cart)) == Total(cart)
  {
    if cart != [] {
      SavedKeepsTotal(cart[1..]);
      assert Saved(cart) == [SavedLine(cart[0])] + Saved(cart[1..]);
      SavedLineSameTotal(cart[0]);
    }
  }

  lemma SavedLineSameTotal(line: Line)
    ensures LineTotal(SavedLine(line)) == LineTotal(line)
  {
    SavedLinePrice(line);
    assert QuantityOr1(SavedLine(line).quantity) == QuantityOr1(line.quantity);
  }

  lemma SavedLinePrice(line: Line)
    ensures LinePrice(SavedLine(line)) == LinePrice(line)
  {
    assert Or(Or(line.price, Str("0")), Str("0")) == Or(line.price, Str("0"));
  }

  /** How many lines carry the id. */
  function Occurrences(cart: Cart, id: Value): nat {
    if cart == [] then 0 else (if HasId(cart[0], id) then 1 else 0) + Occurrences(cart[1..], id)
  }

  lemma {:induction false} OccurrencesOfDistinct(cart: Cart, id: Value)
    requires DistinctLines(cart)
    ensures Occurrences(cart, id) <= 1
    ensures Occurrences(cart, id) == 1 <==> InCart(cart, id)
  {
    if cart != [] {
      OccurrencesOfDistinct(cart[1..], id);
      if InCart(cart, id) && !HasId(cart[0], id) {
        var k :| 0 <= k < |cart| && HasId(cart[k], id);
        assert HasId(cart[1..][k - 1], id);
      }
    }
  }

  lemma {:induction false} CountOfBump(cart: Cart, id: Value)
    requires PositiveQuantities(cart)
    ensures Count(Bump(cart, id)) == Count(cart) + Occurrences(cart, id)
  {
    if cart != [] {
      CountOfBump(cart[1..], id);
      assert Bump(cart, id)[1..] == Bump(cart[1..], id);
    }
  }

  /** Adding a product puts exactly one more unit in a well-formed cart. */
  lemma AddCountsOneMore(cart: Cart, product: Value)
    requires !Nullish(product)
    requires DistinctLines(cart) && PositiveQuantities(cart)
    ensures Count(AddToCart(cart, product)) == Count(cart) + 1
  {
    var id := IdOf(product);
    if InCart(cart, id) {
      CountOfBump(cart, id);
      OccurrencesOfDistinct(cart, id);
    } else {
      CountOfAppend(cart, Line(id, 1, PriceOf(product)));
    }
  }

  lemma {:induction false} CountOfAppend(cart: Cart, line: Line)
    ensures Count(cart + [line]) == Count(cart) + QuantityOr1(line.quantity)
  {
    if cart != [] {
      CountOfAppend(cart[1..], line);
      assert (cart + [line])[1..] == cart[1..] + [line];
    }
  }

  /** The count is a sum over the lines: the count of two carts joined is the
      sum of their counts, and one line counts `quantity || 1`. */
  lemma {:induction false} CountSplits(a: Cart, b: Cart)
    ensures Count(a + b) == Count(a) + Count(b)
  {
    if a != [] {
      CountSplits(a[1..], b);
      assert (a + b)[0] == a[0] && (a + b)[1..] == a[1..] + b;
    } else {
      assert a + b == b;
    }
  }

  /** The total is a sum over the lines: the total of two carts joined is the
      sum of their totals. */
  lemma {:induction false} TotalSplits(a: Cart, b: Cart)
    ensures Total(a + b) == Total(a) + Total(b)
  {
    TotalIsSum(a + b);
    TotalIsSum(a);
    TotalIsSum(b);
    SumSplits(a, b, LineTotal);
  }

  function Sum(lines: seq<Line>, f: Line -> real): real {
    if lines == [] then 0.0 else f(lines[0]) + Sum(lines[1..], f)
  }

  lemma {:induction false} SumSplits(a: seq<Line>, b: seq<Line>, f: Line -> real)
    ensures Sum(a + b, f) == Sum(a, f) + Sum(b, f)
  {
    if a != [] {
      SumSplits(a[1..], b, f);
      assert (a + b)[0] == a[0] && (a + b)[1..] == a[1..] + b;
    } else {
      assert a + b == b;
    }
  }

  lemma {:induction false} TotalIsSum(cart: Cart)
    ensures Total(cart) == Sum(cart, LineTotal)
  {
    if cart != [] {
      TotalIsSum(cart[1..]);
    }
  }

  /** Adding keeps the cart well formed: distinct ids, positive quantities. */
  lemma AddKeepsCartWellFormed(cart: Cart, product: Value)
    requires !Nullish(product)
    requires DistinctLines(cart) && PositiveQuantities(cart)
    ensures DistinctLines(AddToCart(cart, product)) && PositiveQuantities(AddToCart(cart, product))
  {
  }

  /** Removing and updating keep the cart well formed. */
  lemma ChangesKeepCartWellFormed(cart: Cart, id: Value, quantity: int)
    requires DistinctLines(cart) && PositiveQuantities(cart)
    ensures DistinctLines(UpdateQuantity(cart, id, quantity)) && PositiveQuantities(UpdateQuantity(cart, id, quantity))
  {
    if quantity <= 0 {
      RemoveKeepsOrder(cart, id);
    }
  }

  /** Removing keeps the remaining lines in their original relative order:
      the result is a subsequence of the cart. */
  lemma RemoveKeepsOrder(cart: Cart, id: Value)
    ensures IsSubsequence(RemoveFromCart(cart, id), cart)
    ensures DistinctLines(cart) ==> DistinctLines(RemoveFromCart(cart, id))
    ensures PositiveQuantities(cart) ==> PositiveQuantities(RemoveFromCart(cart, id))
  {
    RemoveIsSubsequence(cart, id);
    if DistinctLines(cart) {
      RemoveKeepsDistinct(cart, id);
    }
    var r := RemoveFromCart(cart, id);
    if PositiveQuantities(cart) {
      forall k | 0 <= k < |r| ensures r[k].quantity >= 1 {
        assert r[k] in cart;
      }
    }
  }

  lemma {:induction false} RemoveIsSubsequence(cart: Cart, id: Value)
    ensures IsSubsequence(RemoveFromCart(cart, id), cart)
  {
    if cart != [] {
      RemoveIsSubsequence(cart[1..], id);
      var rest := RemoveFromCart(cart[1..], id);
      if !HasId(cart[0], id) {
        assert RemoveFromCart(cart, id) == [cart[0]] + rest;
        assert ([cart[0]] + rest)[1..] == rest;
      } else {
        assert RemoveFromCart(cart, id) == rest;
        if rest != [] {
          assert rest[0] in rest;
          assert rest[0] != cart[0];
        }
      }
    }
  }

  lemma {:induction false} RemoveKeepsDistinct(cart: Cart, id: Value)
    requires DistinctLines(cart)
    ensures DistinctLines(RemoveFromCart(cart, id))
  {
    if cart != [] {
      DistinctTail(cart);
      RemoveKeepsDistinct(cart[1..], id);
      if !HasId(cart[0], id) {
        var rest := RemoveFromCart(cart[1..], id);
        assert RemoveFromCart(cart, id) == [cart[0]] + rest;
        HeadNotInRest(cart, id);
        ConsDistinct(cart[0], rest);
      }
    }
  }

  lemma DistinctTail(cart: Cart)
    requires cart != [] && DistinctLines(cart)
    ensures DistinctLines(cart[1..])
  {
    forall i, j | 0 <= i < j < |cart[1..]| ensures !StrictEquals(cart[1..][i].id, cart[1..][j].id) {
      assert cart[1..][i] == cart[i + 1] && cart[1..][j] == cart[j + 1];
    }
  }

  /** In a cart with distinct ids, no line left after the first shares its id. */
  lemma HeadNotInRest(cart: Cart, id: Value)
    requires cart != [] && DistinctLines(cart)
    ensures forall j :: 0 <= j < |RemoveFromCart(cart[1..], id)| ==>
      !StrictEquals(cart[0].id, RemoveFromCart(cart[1..], id)[j].id)
  {
    var rest := RemoveFromCart(cart[1..], id);
    forall j | 0 <= j < |rest| ensures !StrictEquals(cart[0].id, rest[j].id) {
      assert rest[j] in cart[1..];
      var m :| 0 <= m < |cart[1..]| && cart[1..][m] == rest[j];
      assert cart[m + 1] == rest[j];
    }
  }

  lemma ConsDistinct(line: Line, rest: Cart)
    requires DistinctLines(rest)
    requires forall j :: 0 <= j < |rest| ==> !StrictEquals(line.id, rest[j].id)
    ensures DistinctLines([line] + rest)
  {
    var r := [line] + rest;
    forall i, j | 0 <= i < j < |r| ensures !StrictEquals(r[i].id, r[j].id) {
      assert r[j] == rest[j - 1];
      if i > 0 {
        assert r[i] == rest[i - 1];
      }
    }
  }

  /** `xs` is `ys` with some elements left out. */
  predicate IsSubsequence(xs: Cart, ys: Cart)
    decreases |ys|
  {
    if xs == [] then true
    else if ys == [] then false
    else if xs[0] == ys[0] then IsSubsequence(xs[1..], ys[1..])
    else IsSubsequence(xs, ys[1..])
  }

  /** Setting a positive quantity is read back by the count: the line's old
      quantity is replaced by the new one. */
  lemma {:induction false} SetQuantityIsCounted(cart: Cart, id: Value, quantity: int, k: int)
    requires quantity > 0
    requires DistinctLines(cart) && PositiveQuantities(cart)
    requires 0 <= k < |cart| && HasId(cart[k], id)
    ensures Count(UpdateQuantity(cart, id, quantity)) == Count(cart) - cart[k].quantity + quantity
  {
    var r := SetQuantity(cart, id, quantity);
    assert r[1..] == SetQuantity(cart[1..], id, quantity);
    if k == 0 {
      assert r[1..] == cart[1..] by {
        forall j | 1 <= j < |cart|
          ensures r[j] == cart[j]
        {
          assert !StrictEquals(cart[0].id, cart[j].id);
        }
      }
    } else {
      assert !StrictEquals(cart[0].id, cart[k].id);
      SetQuantityIsCounted(cart[1..], id, quantity, k - 1);
    }
  }
}

=== FILE: cart_page.dfy ===
/**
 The cart page: the subtotal, the flat shipping rule, the total, the
 quantity selector, and the amount printed beside each line.

 The amount beside a line is read differently from the cart's total: only
 the first "$" is removed before `parseFloat`, so a price written with a
 thousands separator or a leading currency word reads as a different number.
 `LineAmountAsWritten` models that reading; `LineAmount` reads the price the
 way the subtotal does, and the line amounts then add up to the subtotal.
 */
module CartPage {
  import opened Wrappers
  import opened Js
  import opened Strings
  import opened Prices
  import Cart

  /** `getCartTotal() || 0`: the total is a sum of non-NaN numbers, so the
      fallback only replaces a zero by a zero and the subtotal is the cart's
      total. */
  function Subtotal(cart: Cart.Cart): (r: real)
    ensures r == Cart.Total(cart)
  {
    var total := Cart.Total(cart);
    if total == 0.0 then 0.0 else total
  }

  const FreeShippingFrom: real := 100.0
  const ShippingFee: real := 10.0

  /** `subtotal >= 100 ? 0 : 10` */
  function Shipping(subtotal: real): (r: real)
    ensures r == 0.0 <==> subtotal >= FreeShippingFrom
    ensures r == 0.0 || r == ShippingFee
  {
    if subtotal >= FreeShippingFrom then 0.0 else ShippingFee
  }

  function OrderTotal(subtotal: real): (r: real)
    ensures r - subtotal == Shipping(subtotal)
  {
    subtotal + Shipping(subtotal)
  }

  /** The page never totals less than the subtotal, and a subtotal below the
      threshold always pays the fee on top. */
  lemma TotalCoversSubtotal(subtotal: real)
    ensures OrderTotal(subtotal) >= subtotal
    ensures subtotal < FreeShippingFrom ==> OrderTotal(subtotal) == subtotal + ShippingFee
    ensures subtotal >= FreeShippingFrom ==> OrderTotal(subtotal) == subtotal
  {
  }

  // The quantity selector

  /** `parseInt(value) || 1`: NaN and zero become one. */
  function QuantityArgument(text: string): (r: int)
    ensures r != 0
    ensures ParseInt(text).Some? && ParseInt(text).value != 0 ==> r == ParseInt(text).value
    ensures ParseInt(text).None? || ParseInt(text).value == 0 ==> r == 1
  {
    match ParseInt(text)
    case None => 1
    case Some(n) => if n == 0 then 1 else n
  }

  /** `handleQuantityChange(id, value)`: a negative choice removes the line;
      any other choice sets the line's quantity to the number chosen, or to
      one when the text is not a number or is zero, and leaves the other
      lines as they are. */
  function ChangeQuantity(cart: Cart.Cart, id: Value, text: string): (r: Cart.Cart)
    ensures ParseInt(text).Some? && ParseInt(text).value < 0 ==> !Cart.InCart(r, id)
    ensures ParseInt(text).Some? && ParseInt(text).value < 0 ==> r == Cart.RemoveFromCart(cart, id)
    ensures ParseInt(text).None? || ParseInt(text).value >= 0 ==>
      |r| == |cart|
      && forall k :: 0 <= k < |cart| ==>
        r[k] == (if Cart.HasId(cart[k], id) then cart[k].(quantity := QuantityArgument(text)) else cart[k])
  {
    Cart.UpdateQuantity(cart, id, QuantityArgument(text))
  }

  /** A selection that is not a negative number never drops the line: it sets
      its quantity to the number chosen, or to one. */
  lemma SelectionKeepsLine(cart: Cart.Cart, id: Value, text: string, k: int)
    requires ParseInt(text).None? || ParseInt(text).value >= 0
    requires 0 <= k < |cart| && Cart.HasId(cart[k], id)
    ensures |ChangeQuantity(cart, id, text)| == |cart|
    ensures ChangeQuantity(cart, id, text)[k].quantity >= 1
    ensures ChangeQuantity(cart, id, text)[k] == cart[k].(quantity := QuantityArgument(text))
  {
  }

  /** A negative selection removes the line altogether. */
  lemma NegativeSelectionRemoves(cart: Cart.Cart, id: Value, text: string)
    requires ParseInt(text).Some? && ParseInt(text).value < 0
    ensures !Cart.InCart(ChangeQuantity(cart, id, text), id)
  {
  }

  // The amount beside each line

  /** The position of the first "$", or the length of a text without one. */
  function DollarIndex(s: string): (i: nat)
    ensures i <= |s|
    ensures i < |s| ==> s[i] == '$'
  {
    if s == [] || s[0] == '$' then 0 else DollarIndex(s[1..]) + 1
  }

  /** No "$" comes before the index. */
  lemma {:induction false} NoDollarBefore(s: string)
    ensures forall k :: 0 <= k < DollarIndex(s) ==> s[k] != '$'
  {
    if s != [] && s[0] != '$' {
      NoDollarBefore(s[1..]);
      forall k | 0 < k < DollarIndex(s) ensures s[k] != '$' {
        assert s[k] == s[1..][k - 1];
      }
    }
  }

  /** `s.replace("$", "")`: only the first dollar sign goes (RemovesFirstDollar). */
  function RemoveFirstDollar(s: string): (r: string)
    ensures '$' !in s ==> r == s
    ensures |r| == |s| || |r| == |s| - 1
  {
    if s == [] then []
    else if s[0] == '$' then s[1..]
    else [s[0]] + RemoveFirstDollar(s[1..])
  }

  /** The "$" that goes is the first one: the text before it has none, and
      everything else is kept in order. */
  lemma {:induction false} RemovesFirstDollar(s: string)
    requires DollarIndex(s) < |s|
    ensures RemoveFirstDollar(s) == s[..DollarIndex(s)] + s[DollarIndex(s) + 1..]
  {
    if s[0] == '$' {
      assert s[..0] + s[1..] == s[1..];
    } else {
      var t := s[1..];
      RemovesFirstDollar(t);
      var j := DollarIndex(t);
      assert DollarIndex(s) == j + 1;
      assert RemoveFirstDollar(s) == [s[0]] + RemoveFirstDollar(t);
      CutAfterHead(s, j);
    }
  }

  /** A text holds a "$" exactly when its first-"$" index is inside it, so
      RemovesFirstDollar covers every text with a "$" in it. */
  lemma DollarIndexInside(s: string)
    ensures '$' in s <==> DollarIndex(s) < |s|
  {
    if '$' in s {
      var i :| 0 <= i < |s| && s[i] == '$';
      NoDollarBefore(s);
      assert !(i < DollarIndex(s));
    }
  }

  /** `replace` removes a "$" that has no "$" before it, and keeps the rest. */
  lemma FirstDollarRemoved(s: string)
    requires '$' in s
    ensures exists i :: 0 <= i < |s| && s[i] == '$' && '$' !in s[..i] && RemoveFirstDollar(s) == s[..i] + s[i + 1..]
  {
    DollarIndexInside(s);
    var i := DollarIndex(s);
    RemovesFirstDollar(s);
    NoDollarBefore(s);
    assert '$' !in s[..i];
  }

  /** Cutting one element out of a tail and putting the head back cuts the
      next element out of the whole sequence. */
  lemma CutAfterHead<T>(s: seq<T>, j: nat)
    requires j + 1 < |s|
    ensures [s[0]] + (s[1..][..j] + s[1..][j + 1..]) == s[..j + 1] + s[j + 2..]
  {
    assert s[..j + 1] == [s[0]] + s[1..][..j];
    assert s[j + 2..] == s[1..][j + 1..];
  }

  /** `parseFloat(text) || 0` */
  function NumberOr0(text: string): real {
    match ParseFloat(text)
    case None => 0.0
    case Some(x) => x
  }

  /** The amount the page prints beside a line, as written:
      `(parseFloat((price || "$0").replace("$", "")) || 0) * (quantity || 1)`.
      A price that is not text has no `replace` and throws. */
  function LineAmountAsWritten(line: Cart.Line): (r: Outcome<real>)
    ensures r.Ok? <==> Or(line.price, Str("$0")).Str?
  {
    var price := Or(line.price, Str("$0"));
    if !price.Str? then TypeError
    else Ok(Cart.Scaled(NumberOr0(RemoveFirstDollar(price.s)), Cart.QuantityOr1(line.quantity)))
  }

  /** The amount beside a line, read the way the subtotal reads it. */
  function LineAmount(line: Cart.Line): real {
    Cart.Scaled(PriceValue(ToJsString(Or(line.price, Str("$0")))), Cart.QuantityOr1(line.quantity))
  }

  function SumOfLineAmounts(cart: Cart.Cart): real {
    if cart == [] then 0.0 else LineAmount(cart[0]) + SumOfLineAmounts(cart[1..])
  }

  /** The "$0" the page falls back on reads as zero, like the cart's "0". */
  lemma DefaultPricesAgree()
    ensures PriceValue("$0") == PriceValue("0") == 0.0
  {
    assert KeepDigitsAndDots("$0") == "0";
    PriceOfDigits("0");
  }

  /** Each line's amount is its share of the cart total. */
  lemma LineAmountIsShare(line: Cart.Line)
    ensures LineAmount(line) == Cart.LineTotal(line)
  {
    FallbacksReadAlike(line.price);
  }

  /** The page's "$0" fallback and the cart's "0" fallback read the same price. */
  lemma FallbacksReadAlike(price: Value)
    ensures PriceValue(ToJsString(Or(price, Str("$0")))) == PriceValue(ToJsString(Or(price, Str("0"))))
  {
    if Truthy(price) {
      assert Or(price, Str("$0")) == price == Or(price, Str("0"));
    } else {
      DefaultPricesAgree();
      assert ToJsString(Or(price, Str("$0"))) == "$0";
      assert ToJsString(Or(price, Str("0"))) == "0";
    }
  }

  /** The amounts beside the lines add up to the subtotal. */
  lemma {:induction false} LineAmountsAddUp(cart: Cart.Cart)
    ensures SumOfLineAmounts(cart) == Subtotal(cart)
    decreases |cart|
  {
    if cart != [] {
      LineAmountsAddUp(cart[1..]);
      LineAmountIsShare(cart[0]);
    }
  }

  /** Where the two readings agree: a "$" followed by digits. */
  lemma DollarPricesAgree(id: Value, quantity: int, digits: string)
    requires digits != [] && forall k :: 0 <= k < |digits| ==> IsDigit(digits[k])
    ensures LineAmountAsWritten(Cart.Line(id, quantity, Str("$" + digits)))
      == Ok(LineAmount(Cart.Line(id, quantity, Str("$" + digits))))
  {
    DollarPriceAsWritten(id, quantity, digits);
    DollarPriceAmount(id, quantity, digits);
  }

  lemma DollarPriceAsWritten(id: Value, quantity: int, digits: string)
    requires digits != [] && forall k :: 0 <= k < |digits| ==> IsDigit(digits[k])
    ensures LineAmountAsWritten(Cart.Line(id, quantity, Str("$" + digits)))
      == Ok(Cart.Scaled(RadixValue(digits, 10) as real, Cart.QuantityOr1(quantity)))
  {
    var price := "$" + digits;
    TextPriceShown(price);
    assert RemoveFirstDollar(price) == digits;
    ParseFloatOfDigits(digits);
    assert NumberOr0(digits) == RadixValue(digits, 10) as real;
  }

  lemma DollarPriceAmount(id: Value, quantity: int, digits: string)
    requires digits != [] && forall k :: 0 <= k < |digits| ==> IsDigit(digits[k])
    ensures LineAmount(Cart.Line(id, quantity, Str("$" + digits)))
      == Cart.Scaled(RadixValue(digits, 10) as real, Cart.QuantityOr1(quantity))
  {
    var price := "$" + digits;
    assert KeepDigitsAndDots(price) == KeepDigitsAndDots(digits) by {
      assert price[1..] == digits;
    }
    KeepAllPriceChars(digits);
    PriceValueReadsKept(price, digits);
    PriceOfDigits(digits);
    TextPriceShown(price);
  }

  /** A non-empty price text is read as itself, whatever the fallback. */
  lemma TextPriceShown(s: string)
    requires s != ""
    ensures Or(Str(s), Str("$0")) == Str(s)
    ensures ToJsString(Or(Str(s), Str("$0"))) == s && ToJsString(Or(Str(s), Str("0"))) == s
  {
  }

  /** A price's value depends only on its digits and dots. */
  lemma PriceValueReadsKept(s: string, t: string)
    requires KeepDigitsAndDots(s) == KeepDigitsAndDots(t)
    ensures PriceValue(s) == PriceValue(t)
  {
  }

  /** A price written "$1,200": the page prints 1 beside the line while the
      subtotal counts 1200. */
  lemma ThousandsSeparatorMisread()
    ensures LineAmountAsWritten(Cart.Line(Num(10), 1, Str("$1,200"))) == Ok(1.0)
    ensures Subtotal([Cart.Line(Num(10), 1, Str("$1,200"))]) == 1200.0
  {
    TextPriceShown("$1,200");
    assert RemoveFirstDollar("$1,200") == "1,200";
    ParseUpToComma();
    assert Cart.Scaled(1.0, 1) == 1.0;
    SubtotalOfSeparatedPrice();
  }

  lemma ParseUpToComma()
    ensures NumberOr0("1,200") == 1.0
  {
    var u := "1,200";
    assert Run(u[1..], IsDigit) == [];
    assert Run(u, IsDigit) == "1";
    assert RadixValue("1", 10) == 1;
    assert RadixValue([], 10) == 0;
    assert Run(u, IsSpace) == [];
    assert SkipSpace(u) == u;
    assert UnsignedDecimal(u) == Some(Scale(Mantissa(1, 0, 0), ExponentScale(",200")));
  }

  lemma SubtotalOfSeparatedPrice()
    ensures Cart.Total([Cart.Line(Num(10), 1, Str("$1,200"))]) == 1200.0
  {
    var line := Cart.Line(Num(10), 1, Str("$1,200"));
    SeparatedLinePrice(line);
    OneLineTotal(line);
  }

  /** The cart reads "$1,200" as 1200. */
  lemma SeparatedLinePrice(line: Cart.Line)
    requires line.price == Str("$1,200")
    ensures Cart.LinePrice(line) == 1200.0
  {
    DigitsOfSeparatedPrice();
    ValueOf1200();
    KeepAllPriceChars("1200");
    PriceValueReadsKept("$1,200", "1200");
    TextPriceShown("$1,200");
  }

  /** A single line with one unit totals its price. */
  lemma OneLineTotal(line: Cart.Line)
    requires line.quantity == 1
    ensures Cart.Total([line]) == Cart.LinePrice(line)
  {
    var price := Cart.LinePrice(line);
    assert Cart.QuantityOr1(line.quantity) == 1;
    assert Cart.Scaled(price, 1) == price;
    assert Cart.Total([]) == 0.0;
    assert [line][1..] == [];
  }

  lemma DigitsOfSeparatedPrice()
    ensures KeepDigitsAndDots("$1,200") == "1200"
  {
    KeepSeparatedDigits();
  }

  lemma KeepSeparatedDigits()
    ensures KeepDigitsAndDots("1,200") == "1200"
  {
    KeepSeparatorDropped();
  }

  lemma KeepSeparatorDropped()
    ensures KeepDigitsAndDots(",200") == "200"
  {
    KeepTrailingZeros();
  }

  lemma KeepTrailingZeros()
    ensures KeepDigitsAndDots("00") == "00"
  {
  }

  lemma ValueOf1200()
    ensures PriceValue("1200") == 1200.0
  {
    assert RadixValue("1200", 10) == 1200 by {
      assert "1200"[..3] == "120" && "120"[..2] == "12" && "12"[..1] == "1";
    }
    PriceOfDigits("1200");
  }
}

=== FILE: catalog.dfy ===
/**
 The catalog state every page reads: the ids of hidden seed products and the
 list of products added through the admin page, with the three operations that
 change it (add, remove, update).

 Products are plain JSON records (`Js.Value`). Seed products carry the ids 1
 to 9 and are never stored in `customProducts`; removing one records its id in
 `removedIds` instead.
 */
module Catalog {
  import opened Wrappers
  import opened Js
  import ProductMedia
  import ProductText

  /** `{removedIds, customProducts}` */
  datatype Snapshot = Snapshot(removedIds: seq<Value>, customProducts: seq<Value>)

  const EmptySnapshot := Snapshot([], [])

  /** Ids 1 to 9 belong to the seed products. */
  const HighestSeedId := 9

  /** `id >= 1 && id <= 9`, after numeric conversion. */
  predicate IsSeedId(id: Value) {
    var n := ToNumber(id);
    n.Some? && 1 <= n.value <= HighestSeedId
  }

  predicate Distinct(xs: seq<Value>) {
    forall i, j :: 0 <= i < j < |xs| ==> xs[i] != xs[j]
  }

  function IdOf(p: Value): Value {
    Get(p, "id")
  }

  /** Every product's id is a number. */
  predicate NumericIds(products: seq<Value>) {
    forall k :: 0 <= k < |products| ==> IdOf(products[k]).Num?
  }

  /** No two products share an id. */
  predicate DistinctIds(products: seq<Value>) {
    forall i, j :: 0 <= i < j < |products| ==> IdOf(products[i]) != IdOf(products[j])
  }

  // Adding a product

  /** `Math.max(0, ...ids, 9)`: NaN (`None`) as soon as one id converts to NaN. */
  function MaxId(products: seq<Value>): (r: Option<int>)
    ensures r.Some? <==> forall k :: 0 <= k < |products| ==> ToNumber(IdOf(products[k])).Some?
    ensures r.Some? ==> r.value >= HighestSeedId
    ensures r.Some? ==> forall k :: 0 <= k < |products| ==> ToNumber(IdOf(products[k])).value <= r.value
    ensures r.Some? && r.value != HighestSeedId ==>
      exists k :: 0 <= k < |products| && ToNumber(IdOf(products[k])) == r
  {
    if products == [] then Some(HighestSeedId)
    else
      var rest := MaxId(products[1..]);
      match ToNumber(IdOf(products[0]))
      case None => None
      case Some(a) =>
        if rest.None? then None
        else if a > rest.value then Some(a)
        else rest
  }

  /** An entry kept from a submitted `media` list: `m && (m.type === "image" || m.type === "video") && m.url`. */
  predicate KeptEntry(m: Value) {
    && Truthy(m)
    && (Get(m, "type") == Str("image") || Get(m, "type") == Str("video"))
    && Truthy(Get(m, "url"))
  }

  /** The kept entries of a `media` list, in their order. */
  function KeepEntries(entries: seq<Value>): (r: seq<Value>)
    ensures |r| <= |entries|
    ensures forall k :: 0 <= k < |r| ==> KeptEntry(r[k])
    ensures forall x :: x in r <==> x in entries && KeptEntry(x)
    ensures |entries| == 1 ==> r == if KeptEntry(entries[0]) then entries else []
  {
    if entries == [] then []
    else (if KeptEntry(entries[0]) then [entries[0]] else []) + KeepEntries(entries[1..])
  }

  /** Keeping entries works piece by piece, so the kept entries stay in their order. */
  lemma {:induction false} KeepEntriesAppend(a: seq<Value>, b: seq<Value>)
    ensures KeepEntries(a + b) == KeepEntries(a) + KeepEntries(b)
    decreases |a|
  {
    if a == [] {
      assert a + b == b;
    } else {
      var ab := a + b;
      assert ab[0] == a[0] && ab[1..] == a[1..] + b;
      KeepEntriesAppend(a[1..], b);
      var head := if KeptEntry(a[0]) then [a[0]] else [];
      assert KeepEntries(ab) == head + KeepEntries(a[1..] + b);
      Associative(head, KeepEntries(a[1..]), KeepEntries(b));
    }
  }

  /** `{type: "image", url}` */
  function ImageEntry(url: Value): Value {
    Obj(map["type" := Str("image"), "url" := url])
  }

  /** `urls.filter(Boolean).map((url) => ({type: "image", url}))` */
  function UrlEntries(urls: seq<Value>): (r: seq<Value>)
    ensures |r| <= |urls|
    ensures forall k :: 0 <= k < |r| ==> KeptEntry(r[k]) && Get(r[k], "type") == Str("image")
    ensures forall u :: ImageEntry(u) in r <==> u in urls && Truthy(u)
    ensures |urls| == 1 ==> r == if Truthy(urls[0]) then [ImageEntry(urls[0])] else []
  {
    if urls == [] then []
    else (if Truthy(urls[0]) then [ImageEntry(urls[0])] else []) + UrlEntries(urls[1..])
  }

  /** Urls become entries piece by piece, so the entries follow the urls' order. */
  lemma {:induction false} UrlEntriesAppend(a: seq<Value>, b: seq<Value>)
    ensures UrlEntries(a + b) == UrlEntries(a) + UrlEntries(b)
    decreases |a|
  {
    if a == [] {
      assert a + b == b;
    } else {
      var ab := a + b;
      assert ab[0] == a[0] && ab[1..] == a[1..] + b;
      UrlEntriesAppend(a[1..], b);
      var head := if Truthy(a[0]) then [ImageEntry(a[0])] else [];
      assert UrlEntries(ab) == head + UrlEntries(a[1..] + b);
      Associative(head, UrlEntries(a[1..]), UrlEntries(b));
    }
  }

  /** The media list a new product is stored with: a non-empty submitted
      `media` list filtered, else its `images` list, else its single `image`. */
  function NewMedia(product: Value): (r: seq<Value>)
    ensures forall k :: 0 <= k < |r| ==> KeptEntry(r[k])
    ensures Get(product, "media").Arr? && |Get(product, "media").items| > 0 ==>
      forall x :: x in r <==> x in Get(product, "media").items && KeptEntry(x)
    ensures !(Get(product, "media").Arr? && |Get(product, "media").items| > 0) ==>
      forall k :: 0 <= k < |r| ==> Get(r[k], "type") == Str("image")
    ensures Get(product, "media").Arr? && |Get(product, "media").items| > 0 ==>
      r == KeepEntries(Get(product, "media").items)
    ensures !(Get(product, "media").Arr? && |Get(product, "media").items| > 0) && Get(product, "images").Arr? ==>
      r == UrlEntries(Get(product, "images").items)
    ensures !(Get(product, "media").Arr? && |Get(product, "media").items| > 0) && !Get(product, "images").Arr? ==>
      r == if Truthy(Get(product, "image")) then [ImageEntry(Get(product, "image"))] else []
  {
    var media := Get(product, "media");
    if media.Arr? && |media.items| > 0 then KeepEntries(media.items)
    else
      var images := Get(product, "images");
      var image := Get(product, "image");
      UrlEntries(if images.Arr? then images.items else if Truthy(image) then [image] else [])
  }

  /** The urls of the image entries of a media list, in their order. */
  function UrlsOfImages(media: seq<Value>): seq<Value> {
    if media == [] then []
    else (if Get(media[0], "type") == Str("image") then [Get(media[0], "url")] else []) + UrlsOfImages(media[1..])
  }

  /** `media.filter((m) => m.type === "image").map((m) => m.url)`; reading the
      type of a null or undefined entry throws. */
  function ImageUrls(media: seq<Value>): (r: Outcome<seq<Value>>)
    ensures r.TypeError? <==> HasNullish(media)
    ensures r.Ok? ==> r.value == UrlsOfImages(media)
  {
    if media == [] then Ok([])
    else if Nullish(media[0]) then TypeError
    else
      match ImageUrls(media[1..])
      case TypeError => TypeError
      case Ok(rest) => Ok((if Get(media[0], "type") == Str("image") then [Get(media[0], "url")] else []) + rest)
  }

  /** The urls of a concatenation are the urls of its parts, one after the
      other, so the image urls keep the order of their entries. */
  lemma {:induction false} ImageUrlsAppend(a: seq<Value>, b: seq<Value>)
    ensures UrlsOfImages(a + b) == UrlsOfImages(a) + UrlsOfImages(b)
    decreases |a|
  {
    if a == [] {
      assert a + b == b;
    } else {
      var ab := a + b;
      assert ab[0] == a[0] && ab[1..] == a[1..] + b;
      ImageUrlsAppend(a[1..], b);
      var head := if Get(a[0], "type") == Str("image") then [Get(a[0], "url")] else [];
      assert UrlsOfImages(ab) == head + UrlsOfImages(a[1..] + b);
      Associative(head, UrlsOfImages(a[1..]), UrlsOfImages(b));
    }
  }

  lemma Associative<T>(x: seq<T>, y: seq<T>, z: seq<T>)
    ensures x + (y + z) == (x + y) + z
  {
  }

  /** A media list without an image entry has no image urls. */
  lemma {:induction false} NoImageNoUrls(media: seq<Value>)
    requires forall k :: 0 <= k < |media| ==> Get(media[k], "type") != Str("image")
    ensures UrlsOfImages(media) == []
  {
    if media != [] {
      assert forall k :: 0 <= k < |media[1..]| ==> media[1..][k] == media[k + 1];
      NoImageNoUrls(media[1..]);
    }
  }

  /** The image urls start with the url of the first image entry. */
  lemma {:induction false} FirstImageUrlLeads(media: seq<Value>, k: nat)
    requires k < |media| && Get(media[k], "type") == Str("image")
    requires forall j :: 0 <= j < k ==> Get(media[j], "type") != Str("image")
    ensures UrlsOfImages(media) != [] && UrlsOfImages(media)[0] == Get(media[k], "url")
  {
    if k > 0 {
      assert forall j :: 0 <= j < k - 1 ==> media[1..][j] == media[j + 1];
      FirstImageUrlLeads(media[1..], k - 1);
    }
  }

  /** `imageUrls[0] || media[0]?.url || ""`: the cover image is the first image
      url when that is truthy, else the first entry's url when that is truthy,
      else "". */
  function FirstImage(imageUrls: seq<Value>, media: seq<Value>): (r: Value)
    ensures Truthy(r) || r == Str("")
    ensures imageUrls != [] && Truthy(imageUrls[0]) ==> r == imageUrls[0]
    ensures (!(imageUrls != [] && Truthy(imageUrls[0])) && media != [] && !Nullish(media[0])
             && Truthy(Get(media[0], "url"))) ==> r == Get(media[0], "url")
    ensures !(imageUrls != [] && Truthy(imageUrls[0])) && !(media != [] && !Nullish(media[0]) && Truthy(Get(media[0], "url")))
      ==> r == Str("")
  {
    var first := if imageUrls != [] then imageUrls[0] else Undefined;
    var fallback := if media != [] && !Nullish(media[0]) then Get(media[0], "url") else Undefined;
    Or(Or(first, fallback), Str(""))
  }

  /** `imageUrls.length > 0 ? imageUrls : image ? [image] : []` */
  function ImageList(imageUrls: seq<Value>, image: Value): (r: Value)
    ensures r.Arr?
    ensures r.items == [] <==> imageUrls == [] && !Truthy(image)
    ensures imageUrls != [] ==> r.items == imageUrls
    ensures imageUrls == [] && Truthy(image) ==> r.items == [image]
  {
    if imageUrls != [] then Arr(imageUrls)
    else if Truthy(image) then Arr([image])
    else Arr([])
  }

  const NewProductTitle := "New Product"
  const NewProductBadge := "NEW ARRIVAL"
  const NewProductPrice := "$0"

  /** `a || b || fallback` over two fields of the submitted product. */
  function EitherOr(product: Value, preferred: string, legacy: string, fallback: Value): Value {
    Or(Or(Get(product, preferred), Get(product, legacy)), fallback)
  }

  /** The fields of a product record as `addProduct` writes them; each
      English field is also stored under its legacy untagged name. */
  datatype ProductFields = ProductFields(
    id: Value,
    title: Value, titleAr: Value,
    description: Value, descriptionAr: Value,
    shortDescription: Value, shortDescriptionAr: Value,
    badge: Value, badgeAr: Value,
    features: Value, featuresAr: Value,
    price: Value, priceAr: Value,
    media: seq<Value>, image: Value, images: Value)

  /** The JSON record of a product's fields. */
  function Record(f: ProductFields): Value {
    Obj(map[
      "title_ar" := f.titleAr,
      "description_en" := f.description, "description_ar" := f.descriptionAr,
      "shortDescription_en" := f.shortDescription, "shortDescription_ar" := f.shortDescriptionAr,
      "badge_en" := f.badge, "badge_ar" := f.badgeAr,
      "features_en" := f.features, "features_ar" := f.featuresAr,
      "description" := f.description, "shortDescription" := f.shortDescription,
      "badge" := f.badge, "features" := f.features,
      "price_ar" := f.priceAr,
      "title" := f.title, "price" := f.price, "title_en" := f.title, "price_en" := f.price,
      "media" := Arr(f.media), "image" := f.image, "images" := f.images,
      "id" := f.id
    ])
  }

  lemma RecordReads(f: ProductFields)
    ensures Get(Record(f), "id") == f.id
    ensures Get(Record(f), "media") == Arr(f.media)
    ensures Get(Record(f), "image") == f.image
    ensures Get(Record(f), "images") == f.images
  {
  }

  lemma RecordReadsTitleAndPrice(f: ProductFields)
    ensures Get(Record(f), "title") == Get(Record(f), "title_en") == f.title
    ensures Get(Record(f), "price") == Get(Record(f), "price_en") == f.price
  {
  }

  lemma RecordReadsBadgeAndDescription(f: ProductFields)
    ensures Get(Record(f), "badge") == Get(Record(f), "badge_en") == f.badge
    ensures Get(Record(f), "description") == Get(Record(f), "description_en") == f.description
  {
  }

  lemma RecordReadsArabic(f: ProductFields)
    ensures Get(Record(f), "title_ar") == f.titleAr && Get(Record(f), "price_ar") == f.priceAr
  {
  }

  /** The fields `addProduct` derives from the submitted `product`. */
  function NewFields(id: Value, product: Value): ProductFields {
    var media := NewMedia(product);
    assert !HasNullish(media);
    var imageUrls := ImageUrls(media).value;
    var image := FirstImage(imageUrls, media);
    ProductFields(
      id,
      EitherOr(product, "title_en", "title", Str(NewProductTitle)), Or(Get(product, "title_ar"), Str("")),
      EitherOr(product, "description_en", "description", Str("")), Or(Get(product, "description_ar"), Str("")),
      EitherOr(product, "shortDescription_en", "shortDescription", Str("")),
      Or(Get(product, "shortDescription_ar"), Str("")),
      EitherOr(product, "badge_en", "badge", Str(NewProductBadge)), Or(Get(product, "badge_ar"), Str("")),
      EitherOr(product, "features_en", "features", Arr([])), Or(Get(product, "features_ar"), Arr([])),
      EitherOr(product, "price_en", "price", Str(NewProductPrice)), Or(Get(product, "price_ar"), Str("")),
      media, image, ImageList(imageUrls, image))
  }

  /** The record `addProduct` appends for the submitted `product`. */
  function NewProduct(id: Value, product: Value): Value {
    Record(NewFields(id, product))
  }

  /** The id the next product receives: one above the seed range and above
      every stored id, or NaN when a stored id is not a number. */
  function NextId(products: seq<Value>): (r: Value)
    requires !HasNullish(products)
    ensures MaxId(products).Some? ==>
      (&& r.Num? && r.n > HighestSeedId
       && forall k :: 0 <= k < |products| ==> ToNumber(IdOf(products[k])).value < r.n)
    ensures MaxId(products).None? ==> r == NaN
  {
    match MaxId(products)
    case Some(m) => Num(m + 1)
    case None => NaN
  }

  /** `addProduct(product)`: reading the id of a null stored product, or a
      field of a null submission, throws. */
  function AddProduct(s: Snapshot, product: Value): (r: Outcome<Snapshot>)
    ensures r.TypeError? <==> HasNullish(s.customProducts) || Nullish(product)
    ensures r.Ok? ==> r.value.removedIds == s.removedIds
    ensures r.Ok? ==> |r.value.customProducts| == |s.customProducts| + 1
    ensures r.Ok? ==> r.value.customProducts[..|s.customProducts|] == s.customProducts
    ensures r.Ok? && MaxId(s.customProducts).Some? ==>
      var id := IdOf(r.value.customProducts[|s.customProducts|]);
      && id.Num? && id.n > HighestSeedId
      && forall k :: 0 <= k < |s.customProducts| ==> ToNumber(IdOf(s.customProducts[k])).value < id.n
    ensures r.Ok? ==> StoresSubmission(r.value.customProducts[|s.customProducts|], product)
  {
    if HasNullish(s.customProducts) || Nullish(product) then TypeError
    else
      var p := NewProduct(NextId(s.customProducts), product);
      NewProductId(NextId(s.customProducts), product);
      RecordStoresSubmission(NextId(s.customProducts), product);
      Ok(Snapshot(s.removedIds, s.customProducts + [p]))
  }

  /** `a || b || fallback` read from the submission. */
  function Submitted(product: Value, preferred: string, legacy: string, fallback: string): Value {
    Or(Or(Get(product, preferred), Get(product, legacy)), Str(fallback))
  }

  /** What a stored new product carries from the submission `product`: the
      English text under both its tagged and its legacy name, each taken from
      the tagged field, else the legacy one, else the default; the Arabic text
      from its own field, else ""; the media list with the cover and image
      list derived from it. */
  predicate StoresSubmission(p: Value, product: Value) {
    && Get(p, "title_en") == Get(p, "title") == Submitted(product, "title_en", "title", NewProductTitle)
    && Get(p, "price_en") == Get(p, "price") == Submitted(product, "price_en", "price", NewProductPrice)
    && Get(p, "badge_en") == Get(p, "badge") == Submitted(product, "badge_en", "badge", NewProductBadge)
    && Get(p, "description_en") == Get(p, "description") == Submitted(product, "description_en", "description", "")
    && Get(p, "title_ar") == Or(Get(product, "title_ar"), Str(""))
    && Get(p, "price_ar") == Or(Get(product, "price_ar"), Str(""))
    && Get(p, "media") == Arr(NewMedia(product))
    && ImagesFollowMedia(p, p)
  }

  lemma RecordStoresSubmission(id: Value, product: Value)
    ensures StoresSubmission(Record(NewFields(id, product)), product)
  {
    var f := NewFields(id, product);
    NewFieldsFromSubmission(id, product);
    RecordReads(f);
    RecordReadsTitleAndPrice(f);
    RecordReadsBadgeAndDescription(f);
    RecordReadsArabic(f);
  }

  lemma NewFieldsFromSubmission(id: Value, product: Value)
    ensures var f := NewFields(id, product);
      && f.title == Submitted(product, "title_en", "title", NewProductTitle)
      && f.price == Submitted(product, "price_en", "price", NewProductPrice)
      && f.badge == Submitted(product, "badge_en", "badge", NewProductBadge)
      && f.description == Submitted(product, "description_en", "description", "")
      && f.titleAr == Or(Get(product, "title_ar"), Str("")) && f.priceAr == Or(Get(product, "price_ar"), Str(""))
      && f.media == NewMedia(product)
      && f.image == FirstImage(UrlsOfImages(f.media), f.media)
      && f.images == ImageList(UrlsOfImages(f.media), f.image)
  {
    NewFieldsText(id, product);
    NewFieldsImages(id, product);
  }

  lemma NewFieldsText(id: Value, product: Value)
    ensures var f := NewFields(id, product);
      && f.title == Submitted(product, "title_en", "title", NewProductTitle)
      && f.price == Submitted(product, "price_en", "price", NewProductPrice)
      && f.badge == Submitted(product, "badge_en", "badge", NewProductBadge)
      && f.description == Submitted(product, "description_en", "description", "")
      && f.titleAr == Or(Get(product, "title_ar"), Str("")) && f.priceAr == Or(Get(product, "price_ar"), Str(""))
  {
  }

  lemma NewFieldsImages(id: Value, product: Value)
    ensures var f := NewFields(id, product);
      && f.media == NewMedia(product)
      && f.image == FirstImage(UrlsOfImages(f.media), f.media)
      && f.images == ImageList(UrlsOfImages(f.media), f.image)
  {
    var media := NewMedia(product);
    assert !HasNullish(media);
    var urls := ImageUrls(media).value;
    assert urls == UrlsOfImages(media);
    var f := NewFields(id, product);
    assert f.media == media;
    assert f.image == FirstImage(urls, media);
    assert f.images == ImageList(urls, f.image);
  }

  /** The product `addProduct` appends. */
  lemma AddedProduct(s: Snapshot, product: Value)
    requires AddProduct(s, product).Ok?
    ensures AddProduct(s, product).value.customProducts == s.customProducts + [NewProduct(NextId(s.customProducts), product)]
  {
  }

  /** The product `addProduct` appends, read back from its position. */
  lemma AddedLast(s: Snapshot, product: Value)
    requires AddProduct(s, product).Ok?
    ensures AddProduct(s, product).value.customProducts[|s.customProducts|] == Record(NewFields(NextId(s.customProducts), product))
  {
    AddedProduct(s, product);
  }

  /** The title and price a new product is stored with are never empty. */
  lemma NewFieldsTruthy(id: Value, product: Value)
    ensures Truthy(NewFields(id, product).title) && Truthy(NewFields(id, product).price)
  {
    var f := NewFields(id, product);
    assert f.title == EitherOr(product, "title_en", "title", Str(NewProductTitle));
    assert f.price == EitherOr(product, "price_en", "price", Str(NewProductPrice));
    FallbackTruthy(product, "title_en", "title", Str(NewProductTitle));
    FallbackTruthy(product, "price_en", "price", Str(NewProductPrice));
  }

  /** A new product's media hold no null entry, and without media its cover
      and image list are empty. */
  lemma NewFieldsMedia(id: Value, product: Value)
    ensures var f := NewFields(id, product);
      && f.media == NewMedia(product)
      && !HasNullish(f.media)
      && (f.media == [] ==> f.image == Str("") && f.images == Arr([]))
  {
    var f := NewFields(id, product);
    if f.media == [] {
      assert ImageUrls(f.media) == Ok([]);
    }
  }

  lemma FallbackTruthy(product: Value, preferred: string, legacy: string, fallback: Value)
    requires Truthy(fallback)
    ensures Truthy(EitherOr(product, preferred, legacy, fallback))
  {
  }

  lemma NewProductId(id: Value, product: Value)
    ensures IdOf(NewProduct(id, product)) == id
  {
    RecordReads(NewFields(id, product));
  }

  /** Adding keeps product ids numeric and pairwise distinct. */
  lemma AddKeepsIdsDistinct(s: Snapshot, product: Value)
    requires !Nullish(product) && !HasNullish(s.customProducts)
    requires NumericIds(s.customProducts) && DistinctIds(s.customProducts)
    ensures AddProduct(s, product).Ok?
    ensures NumericIds(AddProduct(s, product).value.customProducts)
    ensures DistinctIds(AddProduct(s, product).value.customProducts)
  {
    var ps := s.customProducts;
    var after := AddProduct(s, product).value.customProducts;
    AddedIdIsFresh(s, product);
    AppendFreshId(ps, after[|ps|]);
  }

  /** The appended product's id is a number no stored product has. */
  lemma AddedIdIsFresh(s: Snapshot, product: Value)
    requires !Nullish(product) && !HasNullish(s.customProducts) && NumericIds(s.customProducts)
    ensures AddProduct(s, product).Ok?
    ensures var ps := s.customProducts;
      var after := AddProduct(s, product).value.customProducts;
      && after == ps + [after[|ps|]]
      && IdOf(after[|ps|]).Num?
      && forall k :: 0 <= k < |ps| ==> IdOf(ps[k]) != IdOf(after[|ps|])
  {
    var ps := s.customProducts;
    NumericIdsHaveMax(ps);
    var after := AddProduct(s, product).value.customProducts;
    var p := after[|ps|];
    SplitLast(after, |ps|);
    AboveAllIsFresh(ps, IdOf(p));
  }

  lemma SplitLast<T>(xs: seq<T>, n: nat)
    requires |xs| == n + 1
    ensures xs == xs[..n] + [xs[n]]
  {
  }

  lemma NumericIdsHaveMax(ps: seq<Value>)
    requires NumericIds(ps)
    ensures MaxId(ps).Some?
  {
    assert forall k :: 0 <= k < |ps| ==> ToNumber(IdOf(ps[k])).Some?;
  }

  /** A number above every stored numeric id is none of them. */
  lemma AboveAllIsFresh(ps: seq<Value>, id: Value)
    requires NumericIds(ps) && id.Num?
    requires forall k :: 0 <= k < |ps| ==> ToNumber(IdOf(ps[k])).Some? && ToNumber(IdOf(ps[k])).value < id.n
    ensures forall k :: 0 <= k < |ps| ==> IdOf(ps[k]) != id
  {
  }

  /** Appending a product with a numeric id that no stored product has keeps
      the ids numeric and distinct. */
  lemma AppendFreshId(ps: seq<Value>, p: Value)
    requires NumericIds(ps) && DistinctIds(ps) && IdOf(p).Num?
    requires forall k :: 0 <= k < |ps| ==> IdOf(ps[k]) != IdOf(p)
    ensures NumericIds(ps + [p]) && DistinctIds(ps + [p])
  {
    var after := ps + [p];
    forall i, j | 0 <= i < j < |after| ensures IdOf(after[i]) != IdOf(after[j]) {
      assert after[i] == ps[i];
      if j < |ps| {
        assert after[j] == ps[j];
      }
    }
  }

  /** A new product displays exactly the media list it was stored with: the
      cover image and image list written next to it never disagree with it. */
  lemma NewProductShowsItsMedia(s: Snapshot, product: Value)
    requires AddProduct(s, product).Ok?
    ensures var p := AddProduct(s, product).value.customProducts[|s.customProducts|];
      ProductMedia.GetProductMedia(p) == Ok(ProductMedia.FromMediaEntries(NewMedia(product)))
  {
    var f := NewFields(NextId(s.customProducts), product);
    AddedLast(s, product);
    NewFieldsMedia(NextId(s.customProducts), product);
    RecordShowsItsMedia(f);
  }

  lemma RecordShowsItsMedia(f: ProductFields)
    requires !HasNullish(f.media)
    requires f.media == [] ==> f.image == Str("") && f.images == Arr([])
    ensures ProductMedia.GetProductMedia(Record(f)) == Ok(ProductMedia.FromMediaEntries(f.media))
  {
    RecordReads(f);
    if f.media != [] {
      ProductMedia.MediaListShown(Record(f), f.media);
    } else {
      ProductMedia.NothingShown(Record(f));
      assert ProductMedia.FromMediaEntries([]) == [];
    }
  }

  /** A new product shows its stored English title and price on the storefront. */
  lemma NewProductShowsItsText(s: Snapshot, product: Value)
    requires AddProduct(s, product).Ok?
    ensures var p := AddProduct(s, product).value.customProducts[|s.customProducts|];
      && ProductText.GetProductTitle(p, "en") == Get(p, "title_en") == Get(p, "title")
      && ProductText.GetProductPrice(p, "en") == Get(p, "price_en") == Get(p, "price")
  {
    var f := NewFields(NextId(s.customProducts), product);
    AddedLast(s, product);
    NewFieldsTruthy(NextId(s.customProducts), product);
    RecordShowsItsText(f);
  }

  lemma RecordShowsItsText(f: ProductFields)
    requires Truthy(f.title) && Truthy(f.price)
    ensures ProductText.GetProductTitle(Record(f), "en") == Get(Record(f), "title_en") == Get(Record(f), "title")
    ensures ProductText.GetProductPrice(Record(f), "en") == Get(Record(f), "price_en") == Get(Record(f), "price")
  {
    RecordReadsTitleAndPrice(f);
    assert ProductText.Tagged("title", "en") == "title_en";
    assert ProductText.Tagged("price", "en") == "price_en";
  }

  // Removing a product

  /** The products whose id is not `id`, in their order. */
  function OtherIds(products: seq<Value>, id: Value): seq<Value> {
    if products == [] then []
    else (if StrictEquals(IdOf(products[0]), id) then [] else [products[0]]) + OtherIds(products[1..], id)
  }

  /** Filtering works piece by piece, so the kept products keep their order. */
  lemma {:induction false} OtherIdsAppend(a: seq<Value>, b: seq<Value>, id: Value)
    ensures OtherIds(a + b, id) == OtherIds(a, id) + OtherIds(b, id)
    decreases |a|
  {
    if a == [] {
      assert a + b == b;
    } else {
      var ab := a + b;
      assert ab[0] == a[0] && ab[1..] == a[1..] + b;
      OtherIdsAppend(a[1..], b, id);
      var head := if StrictEquals(IdOf(a[0]), id) then [] else [a[0]];
      assert OtherIds(ab, id) == head + OtherIds(a[1..] + b, id);
      Associative(head, OtherIds(a[1..], id), OtherIds(b, id));
    }
  }

  /** `products.filter((p) => p.id !== id)`; reading the id of a null product throws. */
  function WithoutId(products: seq<Value>, id: Value): (r: Outcome<seq<Value>>)
    ensures r.TypeError? <==> HasNullish(products)
    ensures r.Ok? ==> |r.value| <= |products|
    ensures r.Ok? ==> forall p :: p in r.value <==> p in products && !StrictEquals(IdOf(p), id)
    ensures r.Ok? ==> r.value == OtherIds(products, id)
  {
    if products == [] then Ok([])
    else if Nullish(products[0]) then TypeError
    else
      match WithoutId(products[1..], id)
      case TypeError => TypeError
      case Ok(rest) => Ok((if StrictEquals(IdOf(products[0]), id) then [] else [products[0]]) + rest)
  }

  /** `removeProduct(id)`: a seed id is recorded as hidden, at most once;
      any other id deletes the stored products carrying it. */
  function RemoveProduct(s: Snapshot, id: Value): (r: Outcome<Snapshot>)
    ensures IsSeedId(id) ==> r.Ok? && r.value.customProducts == s.customProducts
    ensures IsSeedId(id) ==> forall x :: x in r.value.removedIds <==> x in s.removedIds || x == id
    ensures IsSeedId(id) && Distinct(s.removedIds) ==> Distinct(r.value.removedIds)
    ensures IsSeedId(id) && Includes(s.removedIds, id) ==> r.value.removedIds == s.removedIds
    ensures !IsSeedId(id) ==> (r.TypeError? <==> HasNullish(s.customProducts))
    ensures !IsSeedId(id) && r.Ok? ==> r.value.removedIds == s.removedIds
    ensures !IsSeedId(id) && r.Ok? ==>
      forall p :: p in r.value.customProducts <==> p in s.customProducts && !StrictEquals(IdOf(p), id)
  {
    if IsSeedId(id) then
      Ok(Snapshot(if Includes(s.removedIds, id) then s.removedIds else s.removedIds + [id], s.customProducts))
    else
      match WithoutId(s.customProducts, id)
      case TypeError => TypeError
      case Ok(rest) => Ok(Snapshot(s.removedIds, rest))
  }

  /** Filtering out an id a second time removes nothing more. */
  lemma {:induction false} WithoutIdIdempotent(products: seq<Value>, id: Value)
    requires WithoutId(products, id).Ok?
    ensures WithoutId(WithoutId(products, id).value, id) == WithoutId(products, id)
  {
    if products != [] {
      WithoutIdIdempotent(products[1..], id);
      var rest := WithoutId(products[1..], id).value;
      assert !Nullish(products[0]);
      if !StrictEquals(IdOf(products[0]), id) {
        var kept := [products[0]] + rest;
        assert kept[0] == products[0] && kept[1..] == rest;
        assert WithoutId(kept, id) == Ok([products[0]] + WithoutId(rest, id).value);
      } else {
        assert WithoutId(products, id).value == [] + rest == rest;
      }
    }
  }

  /** Removing the same product twice is the same as removing it once. */
  lemma RemoveIsIdempotent(s: Snapshot, id: Value)
    requires RemoveProduct(s, id).Ok?
    ensures RemoveProduct(RemoveProduct(s, id).value, id) == RemoveProduct(s, id)
  {
    if !IsSeedId(id) {
      WithoutIdIdempotent(s.customProducts, id);
    }
  }

  // Updating a product

  /** `{...p, ...updates}` */
  function Merge(p: Value, updates: Value): (r: Value)
    ensures r.Obj?
    ensures forall key :: key in Spread(updates) ==> Get(r, key) == Spread(updates)[key]
    ensures forall key :: key !in Spread(updates) ==> Get(r, key) == Get(p, key)
  {
    Obj(Spread(p) + Spread(updates))
  }

  /** Whether a value is a non-empty array, the shape that triggers a
      recomputation of the image fields. */
  predicate IsMediaList(v: Value) {
    v.Arr? && |v.items| > 0
  }

  /** When `next` holds a non-empty media list, `after`'s cover is the first
      image url (else the first entry's url, else "") and its image list the
      image urls (else the cover alone, else nothing). */
  predicate ImagesFollowMedia(next: Value, after: Value) {
    IsMediaList(Get(next, "media")) ==>
      var items := Get(next, "media").items;
      var urls := UrlsOfImages(items);
      && Get(after, "image") == FirstImage(urls, items)
      && Get(after, "images") == ImageList(urls, FirstImage(urls, items))
  }

  /** The image fields recomputed from a merged record's media list. With
      `clearStale` (the corrected behaviour), an update that sets `media` to
      anything but a non-empty list also empties the cover image and the image
      list; as written, those keep their old values. */
  function RefreshImages(next: Value, updates: Value, clearStale: bool): (r: Outcome<Value>)
    requires next.Obj?
    ensures !IsMediaList(Get(next, "media")) && !(clearStale && "media" in Spread(updates)) ==> r == Ok(next)
    ensures !IsMediaList(Get(next, "media")) && clearStale && "media" in Spread(updates) ==>
      r.Ok? && Get(r.value, "image") == Str("") && Get(r.value, "images") == Arr([])
    ensures IsMediaList(Get(next, "media")) ==> (r.TypeError? <==> HasNullish(Get(next, "media").items))
    ensures r.Ok? ==> ImagesFollowMedia(next, r.value)
    ensures r.Ok? ==> r.value.Obj? && forall key :: key != "image" && key != "images" ==> Get(r.value, key) == Get(next, key)
  {
    var media := Get(next, "media");
    if !IsMediaList(media) then
      if clearStale && "media" in Spread(updates) then Ok(Obj(next.fields["image" := Str("")]["images" := Arr([])]))
      else Ok(next)
    else
      match ImageUrls(media.items)
      case TypeError => TypeError
      case Ok(imageUrls) =>
        var image := FirstImage(imageUrls, media.items);
        Ok(Obj(next.fields["image" := image]["images" := ImageList(imageUrls, image)]))
  }

  /** One product under `updateProduct(id, updates)`. */
  function UpdateOne(p: Value, id: Value, updates: Value, clearStale: bool): (r: Outcome<Value>)
    ensures Nullish(p) ==> r.TypeError?
    ensures !Nullish(p) && !StrictEquals(IdOf(p), id) ==> r == Ok(p)
    ensures r.Ok? && StrictEquals(IdOf(p), id) ==>
      forall key :: key != "image" && key != "images" ==> Get(r.value, key) == Get(Merge(p, updates), key)
    ensures r.Ok? && StrictEquals(IdOf(p), id) ==> ImagesFollowMedia(Merge(p, updates), r.value)
    ensures !Nullish(p) && StrictEquals(IdOf(p), id) ==>
      (r.TypeError? <==> IsMediaList(Get(Merge(p, updates), "media")) && HasNullish(Get(Merge(p, updates), "media").items))
    ensures (!Nullish(p) && StrictEquals(IdOf(p), id) && !IsMediaList(Get(Merge(p, updates), "media"))
             && !(clearStale && "media" in Spread(updates))) ==> r == Ok(Merge(p, updates))
    ensures (!Nullish(p) && StrictEquals(IdOf(p), id) && !IsMediaList(Get(Merge(p, updates), "media"))
             && clearStale && "media" in Spread(updates)) ==>
      r.Ok? && Get(r.value, "image") == Str("") && Get(r.value, "images") == Arr([])
  {
    if Nullish(p) then TypeError
    else if !StrictEquals(IdOf(p), id) then Ok(p)
    else RefreshImages(Merge(p, updates), updates, clearStale)
  }

  function UpdateAll(products: seq<Value>, id: Value, updates: Value, clearStale: bool): (r: Outcome<seq<Value>>)
    ensures r.Ok? ==> |r.value| == |products|
    ensures r.Ok? ==> forall k :: 0 <= k < |products| ==> UpdateOne(products[k], id, updates, clearStale) == Ok(r.value[k])
    ensures r.TypeError? <==> exists k :: 0 <= k < |products| && UpdateOne(products[k], id, updates, clearStale).TypeError?
  {
    if products == [] then Ok([])
    else
      match (UpdateOne(products[0], id, updates, clearStale), UpdateAll(products[1..], id, updates, clearStale))
      case (Ok(p), Ok(rest)) => Ok([p] + rest)
      case _ => TypeError
  }

  function UpdateWith(s: Snapshot, id: Value, updates: Value, clearStale: bool): (r: Outcome<Snapshot>)
    ensures IsSeedId(id) ==> r == Ok(s)
    ensures r.Ok? ==> r.value.removedIds == s.removedIds
    ensures r.Ok? ==> |r.value.customProducts| == |s.customProducts|
    ensures r.Ok? ==> forall k :: 0 <= k < |s.customProducts| && !StrictEquals(IdOf(s.customProducts[k]), id) ==>
      r.value.customProducts[k] == s.customProducts[k]
    ensures r.Ok? && !IsSeedId(id) ==>
      forall k :: 0 <= k < |s.customProducts| ==> UpdateOne(s.customProducts[k], id, updates, clearStale) == Ok(r.value.customProducts[k])
    ensures !IsSeedId(id) ==>
      (r.TypeError? <==> exists k :: 0 <= k < |s.customProducts| && UpdateOne(s.customProducts[k], id, updates, clearStale).TypeError?)
  {
    if IsSeedId(id) then Ok(s)
    else
      match UpdateAll(s.customProducts, id, updates, clearStale)
      case TypeError => TypeError
      case Ok(products) => Ok(Snapshot(s.removedIds, products))
  }

  /** `updateProduct(id, updates)` as written: seed products cannot be edited;
      otherwise every product with that id is merged with the updates. */
  function UpdateProduct(s: Snapshot, id: Value, updates: Value): (r: Outcome<Snapshot>)
    ensures IsSeedId(id) ==> r == Ok(s)
    ensures r.Ok? ==> r.value.removedIds == s.removedIds
    ensures r.Ok? ==> |r.value.customProducts| == |s.customProducts|
    ensures r.Ok? ==> forall k :: 0 <= k < |s.customProducts| && !StrictEquals(IdOf(s.customProducts[k]), id) ==>
      r.value.customProducts[k] == s.customProducts[k]
    ensures r.Ok? && !IsSeedId(id) ==>
      forall k, key ::
        (0 <= k < |s.customProducts| && StrictEquals(IdOf(s.customProducts[k]), id) && key != "image" && key != "images") ==>
        Get(r.value.customProducts[k], key) == Get(Merge(s.customProducts[k], updates), key)
    ensures r.Ok? && !IsSeedId(id) ==>
      forall k :: 0 <= k < |s.customProducts| && StrictEquals(IdOf(s.customProducts[k]), id) ==>
        ImagesFollowMedia(Merge(s.customProducts[k], updates), r.value.customProducts[k])
    ensures !IsSeedId(id) ==>
      (r.TypeError? <==> exists k :: 0 <= k < |s.customProducts| && UpdateOne(s.customProducts[k], id, updates, false).TypeError?)
    ensures r.Ok? && !IsSeedId(id) ==>
      forall k :: (0 <= k < |s.customProducts| && StrictEquals(IdOf(s.customProducts[k]), id)
                   && !IsMediaList(Get(Merge(s.customProducts[k], updates), "media"))) ==>
        r.value.customProducts[k] == Merge(s.customProducts[k], updates)
  {
    UpdateWith(s, id, updates, false)
  }

  /** After an update that sets a non-empty list of well-formed media, the
      stored cover is the picture the storefront cards show first. */
  lemma UpdatedCoverIsShownFirst(s: Snapshot, id: Value, updates: Value, k: int, items: seq<Value>)
    requires UpdateProduct(s, id, updates).Ok? && !IsSeedId(id)
    requires 0 <= k < |s.customProducts| && StrictEquals(IdOf(s.customProducts[k]), id)
    requires Get(updates, "media") == Arr(items) && items != []
    requires forall j :: 0 <= j < |items| ==> ProductMedia.PlainEntry(items[j])
    ensures var after := UpdateProduct(s, id, updates).value.customProducts[k];
      && ProductMedia.GetProductFirstImageUrl(after).Ok?
      && Get(after, "image") == Str(ProductMedia.GetProductFirstImageUrl(after).value)
  {
    var after := UpdateProduct(s, id, updates).value.customProducts[k];
    var next := Merge(s.customProducts[k], updates);
    assert "media" in Spread(updates);
    assert Get(next, "media") == Arr(items);
    assert Get(after, "media") == Arr(items);
    assert !HasNullish(items) by {
      forall j | 0 <= j < |items| ensures !Nullish(items[j]) {
        assert ProductMedia.PlainEntry(items[j]);
      }
    }
    ProductMedia.MediaListShown(after, items);
    ProductMedia.PlainEntriesKeepUrls(items);
    CoverIsFirstOf(items, ProductMedia.FromMediaEntries(items));
  }

  /** The cover of a media list is the first image url of a reading of it that
      keeps every url and tells images apart the same way. */
  lemma CoverIsFirstOf(items: seq<Value>, ms: seq<ProductMedia.Media>)
    requires items != [] && |ms| == |items|
    requires forall j :: 0 <= j < |items| ==> Get(items[j], "url") == Str(ms[j].url) && ms[j].url != ""
    requires forall j :: 0 <= j < |items| ==> (ms[j].kind == ProductMedia.Image <==> Get(items[j], "type") == Str("image"))
    ensures FirstImage(UrlsOfImages(items), items) == Str(ProductMedia.FirstImageUrl(ms))
  {
    match ProductMedia.FirstImageIndex(ms)
    case Some(i) =>
      FirstImageUrlLeads(items, i);
      ProductMedia.FirstImageUrlAt(ms, i);
    case None =>
      NoImageNoUrls(items);
  }



  /** `updateProduct` with the image fields cleared when an update removes
      every media item; otherwise it behaves as written. */
  function UpdateProductClearingMedia(s: Snapshot, id: Value, updates: Value): (r: Outcome<Snapshot>)
    ensures IsSeedId(id) ==> r == Ok(s)
    ensures r.Ok? ==> r.value.removedIds == s.removedIds
    ensures r.Ok? ==> |r.value.customProducts| == |s.customProducts|
    ensures r.Ok? ==> forall k :: 0 <= k < |s.customProducts| && !StrictEquals(IdOf(s.customProducts[k]), id) ==>
      r.value.customProducts[k] == s.customProducts[k]
    ensures !IsSeedId(id) ==>
      (r.TypeError? <==> exists k :: 0 <= k < |s.customProducts| && UpdateOne(s.customProducts[k], id, updates, true).TypeError?)
    ensures r.Ok? && !IsSeedId(id) ==>
      forall k :: 0 <= k < |s.customProducts| ==> UpdateOne(s.customProducts[k], id, updates, true) == Ok(r.value.customProducts[k])
  {
    UpdateWith(s, id, updates, true)
  }

  /** The correction only changes updates that remove the media list: any
      other update gives the same products as written. */
  lemma {:induction false} ClearingOnlyAffectsMediaRemoval(products: seq<Value>, id: Value, updates: Value)
    requires !("media" in Spread(updates)) || IsMediaList(Get(updates, "media"))
    ensures UpdateAll(products, id, updates, true) == UpdateAll(products, id, updates, false)
  {
    if products != [] {
      ClearingKeepsOne(products[0], id, updates);
      ClearingOnlyAffectsMediaRemoval(products[1..], id, updates);
    }
  }

  lemma ClearingKeepsOne(p: Value, id: Value, updates: Value)
    requires !("media" in Spread(updates)) || IsMediaList(Get(updates, "media"))
    ensures UpdateOne(p, id, updates, true) == UpdateOne(p, id, updates, false)
  {
    var next := Merge(p, updates);
    assert "media" in Spread(updates) ==> Get(next, "media") == Get(updates, "media");
  }

  lemma ClearingMatchesUpdate(s: Snapshot, id: Value, updates: Value)
    requires !("media" in Spread(updates)) || IsMediaList(Get(updates, "media"))
    ensures UpdateProductClearingMedia(s, id, updates) == UpdateProduct(s, id, updates)
  {
    ClearingOnlyAffectsMediaRemoval(s.customProducts, id, updates);
  }

  /** An update that does not touch `id` keeps every product's id. */
  lemma UpdateKeepsIds(s: Snapshot, id: Value, updates: Value)
    requires UpdateProduct(s, id, updates).Ok?
    requires "id" !in Spread(updates)
    ensures forall k :: 0 <= k < |s.customProducts| ==>
      IdOf(UpdateProduct(s, id, updates).value.customProducts[k]) == IdOf(s.customProducts[k])
  {
  }

  /** A product with one image, as `addProduct` stores it. */
  function OneImageProduct(id: int, url: string): Value {
    Obj(map["id" := Num(id), "media" := Arr([ImageEntry(Str(url))]), "image" := Str(url), "images" := Arr([Str(url)])])
  }

  /** What the admin form submits after every media item was removed. */
  const MediaRemoved := Obj(map["media" := Undefined])

  /** As written, removing every media item of a product in the editor does not
      remove its images: the stale image list is shown again. */
  lemma RemovedMediaReappear()
    ensures var s := Snapshot([], [OneImageProduct(10, "a.jpg")]);
      && UpdateProduct(s, Num(10), MediaRemoved).Ok?
      && ProductMedia.GetProductMedia(UpdateProduct(s, Num(10), MediaRemoved).value.customProducts[0])
         == Ok([ProductMedia.Media(ProductMedia.Image, "a.jpg")])
  {
    var s := Snapshot([], [OneImageProduct(10, "a.jpg")]);
    var next := Merge(OneImageProduct(10, "a.jpg"), MediaRemoved);
    StaleUpdateList(s, next);
    StaleImagesShown(next);
  }

  /** The update replaces the one product by its merge with the submission. */
  lemma StaleUpdateList(s: Snapshot, next: Value)
    requires s == Snapshot([], [OneImageProduct(10, "a.jpg")])
    requires next == Merge(OneImageProduct(10, "a.jpg"), MediaRemoved)
    ensures UpdateProduct(s, Num(10), MediaRemoved) == Ok(Snapshot([], [next]))
  {
    StaleUpdateKeepsImages(next);
    assert s.customProducts[0] == OneImageProduct(10, "a.jpg");
    assert s.customProducts[1..] == [];
    assert UpdateAll(s.customProducts[1..], Num(10), MediaRemoved, false) == Ok([]);
    assert [next] + [] == [next];
    assert UpdateAll(s.customProducts, Num(10), MediaRemoved, false) == Ok([next]);
  }

  /** The merged product still shows its stale image. */
  lemma StaleImagesShown(next: Value)
    requires next == Merge(OneImageProduct(10, "a.jpg"), MediaRemoved)
    ensures ProductMedia.GetProductMedia(next) == Ok([ProductMedia.Media(ProductMedia.Image, "a.jpg")])
  {
    StaleUpdateKeepsImages(next);
    ProductMedia.ImagesShownWithoutMedia(next, [Str("a.jpg")]);
    ProductMedia.PlainUrlIsKept("a.jpg", ProductMedia.Image);
    assert ProductMedia.FromImageUrls([Str("a.jpg")]) == [ProductMedia.Media(ProductMedia.Image, "a.jpg")];
  }

  lemma StaleUpdateKeepsImages(next: Value)
    requires next == Merge(OneImageProduct(10, "a.jpg"), MediaRemoved)
    ensures UpdateOne(OneImageProduct(10, "a.jpg"), Num(10), MediaRemoved, false) == Ok(next)
    ensures next.Obj? && Get(next, "media") == Undefined && Get(next, "images") == Arr([Str("a.jpg")])
  {
    var p := OneImageProduct(10, "a.jpg");
    assert "id"[0] != "media"[0] && "id"[1] != "image"[1] && "id"[1] != "images"[1];
    assert IdOf(p) == Num(10);
    assert "images"[0] != "media"[0];
  }

  /** Corrected: once an update removes every media item, the product shows no media. */
  lemma ClearedMediaStayCleared(s: Snapshot, id: Value, updates: Value, k: int)
    requires "media" in Spread(updates) && !IsMediaList(Get(updates, "media"))
    requires UpdateProductClearingMedia(s, id, updates).Ok? && !IsSeedId(id)
    requires 0 <= k < |s.customProducts| && StrictEquals(IdOf(s.customProducts[k]), id)
    ensures ProductMedia.GetProductMedia(UpdateProductClearingMedia(s, id, updates).value.customProducts[k]) == Ok([])
  {
    var next := Merge(s.customProducts[k], updates);
    assert UpdateOne(s.customProducts[k], id, updates, true) == Ok(UpdateProductClearingMedia(s, id, updates).value.customProducts[k]);
    assert Get(next, "media") == Get(updates, "media");
    var cleared := Obj(next.fields["image" := Str("")]["images" := Arr([])]);
    assert Get(cleared, "images") == Arr([]);
    assert |"image"| != |"images"|;
    assert Get(cleared, "image") == Str("");
    assert "media"[0] != "image"[0];
    assert Get(cleared, "media") == Get(updates, "media");
  }

  // Visible products

  /** The seed products not hidden by `removedIds`, then every stored product:
      the list the admin, shop and checkout pages show. */
  function VisibleProducts(defaults: seq<Value>, s: Snapshot): (r: Outcome<seq<Value>>)
    ensures r.TypeError? <==> HasNullish(defaults)
    ensures r.Ok? ==> |r.value| >= |s.customProducts| && r.value[|r.value| - |s.customProducts|..] == s.customProducts
    ensures r.Ok? ==> forall p :: p in r.value[..|r.value| - |s.customProducts|] <==>
      p in defaults && !Includes(s.removedIds, IdOf(p))
  {
    match ShownDefaults(defaults, s.removedIds)
    case TypeError => TypeError
    case Ok(shown) =>
      assert (shown + s.customProducts)[..|shown|] == shown;
      Ok(shown + s.customProducts)
  }

  /** The seed products whose id is not among `removedIds`, in their order. */
  function NotRemoved(defaults: seq<Value>, removedIds: seq<Value>): seq<Value> {
    if defaults == [] then []
    else (if Includes(removedIds, IdOf(defaults[0])) then [] else [defaults[0]]) + NotRemoved(defaults[1..], removedIds)
  }

  /** Hiding works piece by piece, so the shown seed products keep their order. */
  lemma {:induction false} NotRemovedAppend(a: seq<Value>, b: seq<Value>, removedIds: seq<Value>)
    ensures NotRemoved(a + b, removedIds) == NotRemoved(a, removedIds) + NotRemoved(b, removedIds)
    decreases |a|
  {
    if a == [] {
      assert a + b == b;
    } else {
      var ab := a + b;
      assert ab[0] == a[0] && ab[1..] == a[1..] + b;
      NotRemovedAppend(a[1..], b, removedIds);
      var head := if Includes(removedIds, IdOf(a[0])) then [] else [a[0]];
      assert NotRemoved(ab, removedIds) == head + NotRemoved(a[1..] + b, removedIds);
      Associative(head, NotRemoved(a[1..], removedIds), NotRemoved(b, removedIds));
    }
  }

  /** `defaults.filter((p) => !removedIds.includes(p.id))` */
  function ShownDefaults(defaults: seq<Value>, removedIds: seq<Value>): (r: Outcome<seq<Value>>)
    ensures r.TypeError? <==> HasNullish(defaults)
    ensures r.Ok? ==> forall p :: p in r.value <==> p in defaults && !Includes(removedIds, IdOf(p))
    ensures r.Ok? ==> r.value == NotRemoved(defaults, removedIds)
  {
    if defaults == [] then Ok([])
    else if Nullish(defaults[0]) then TypeError
    else
      match ShownDefaults(defaults[1..], removedIds)
      case TypeError => TypeError
      case Ok(rest) => Ok((if Includes(removedIds, IdOf(defaults[0])) then [] else [defaults[0]]) + rest)
  }

  /** Once a seed product is removed no page lists it, and the stored
      products are still listed. */
  lemma RemovedSeedIsHidden(defaults: seq<Value>, s: Snapshot, id: Value)
    requires IsSeedId(id) && !HasNullish(defaults)
    ensures var after := RemoveProduct(s, id).value;
      && VisibleProducts(defaults, after).Ok?
      && (forall p :: p in VisibleProducts(defaults, after).value && p in defaults && p !in s.customProducts ==> IdOf(p) != id)
  {
  }
}

=== FILE: catalog_sync.dfy ===
/**
 Where the catalog snapshot comes from: the copy cached in local storage, read
 defensively on start-up, and the published catalog file, fetched once with a
 bounded number of retries.

 Storage and the network are abstract: the stored text is an input, JSON
 parsing and printing are function parameters, and the fetch is a sequence of
 events (each fetch result, and the admin's edits that can land while a fetch
 is pending). Timers, the cache-busting query and logging are not modelled.
 */
module CatalogSync {
  import opened Wrappers
  import opened Js
  import opened Catalog

  /** `Array.isArray(v) ? v : []` */
  function ArrayOr(v: Value): (r: seq<Value>)
    ensures v.Arr? ==> r == v.items
    ensures !v.Arr? ==> r == []
  {
    if v.Arr? then v.items else []
  }

  /** The snapshot a parsed record describes, with every non-array field read as empty. */
  function Normalised(data: Value): Snapshot {
    Snapshot(ArrayOr(Get(data, "removedIds")), ArrayOr(Get(data, "customProducts")))
  }

  /** `loadSaved()`: the stored text, if any, parsed with `parse` (which gives
      `None` where `JSON.parse` throws). Reading a field of a parsed `null`
      throws too; every failure ends in the empty snapshot. */
  function LoadSaved(raw: Option<string>, parse: string -> Option<Value>): (r: Snapshot)
    ensures raw.None? || raw == Some("") ==> r == EmptySnapshot
    ensures raw.Some? && parse(raw.value).None? ==> r == EmptySnapshot
    ensures raw.Some? && raw.value != "" && parse(raw.value).Some? && !Nullish(parse(raw.value).value) ==>
      r == Normalised(parse(raw.value).value)
    ensures raw.Some? && parse(raw.value).Some? && Nullish(parse(raw.value).value) ==> r == EmptySnapshot
  {
    if raw.None? || raw.value == "" then EmptySnapshot
    else
      match parse(raw.value)
      case None => EmptySnapshot
      case Some(data) => if Nullish(data) then EmptySnapshot else Normalised(data)
  }

  /** The record `safeSaveToStorage` writes. */
  function SavedRecord(s: Snapshot): Value {
    Obj(map["removedIds" := Arr(s.removedIds), "customProducts" := Arr(s.customProducts)])
  }

  /** A snapshot written by `safeSaveToStorage` reads back unchanged, for any
      JSON printer and parser that invert each other on the saved record. */
  lemma SaveThenLoad(s: Snapshot, parse: string -> Option<Value>, stringify: Value -> string)
    requires stringify(SavedRecord(s)) != ""
    requires parse(stringify(SavedRecord(s))) == Some(SavedRecord(s))
    ensures LoadSaved(Some(stringify(SavedRecord(s))), parse) == s
  {
    assert "removedIds"[0] != "customProducts"[0];
  }

  /** A save the browser refuses (over quota) leaves the stored text as it was. */
  function SafeSave(stored: Option<string>, s: Snapshot, stringify: Value -> string, accepted: bool): (r: Option<string>)
    ensures !accepted ==> r == stored
    ensures accepted ==> r == Some(stringify(SavedRecord(s)))
  {
    if accepted then Some(stringify(SavedRecord(s))) else stored
  }

  /** After a save, the cache holds either the saved snapshot or what it held before. */
  lemma LoadAfterSave(stored: Option<string>, s: Snapshot, parse: string -> Option<Value>,
                      stringify: Value -> string, accepted: bool)
    requires stringify(SavedRecord(s)) != ""
    requires parse(stringify(SavedRecord(s))) == Some(SavedRecord(s))
    ensures var after := LoadSaved(SafeSave(stored, s, stringify, accepted), parse);
      after == s || after == LoadSaved(stored, parse)
  {
    if accepted {
      SaveThenLoad(s, parse, stringify);
    }
  }

  // The initial fetch

  const MaxRetries := 3

  /** What one request for the catalog file ends in: a parsed body (possibly
      `null` or another falsy value), or a failure (network error, HTTP error
      status, unparseable body). */
  datatype FetchOutcome = Loaded(data: Value) | Failed

  datatype Event =
    | Fetched(outcome: FetchOutcome)
    /** An admin action that replaced the snapshot while the fetch was pending. */
    | Edited(snapshot: Snapshot)

  /** The provider's state: the snapshot, the loading flag, how many requests
      were issued, and whether the fetch has settled. */
  datatype SyncState = SyncState(snapshot: Snapshot, isLoading: bool, attempts: nat, settled: bool)

  /** Reachable states: between one and `MaxRetries` requests, and no spinner once settled. */
  predicate Valid(st: SyncState) {
    && 1 <= st.attempts <= MaxRetries
    && (st.settled ==> !st.isLoading)
  }

  /** Whether the cache has anything in it: exactly when it is not the empty
      snapshot every failed read yields. */
  function HasCachedData(saved: Snapshot): (r: bool)
    ensures r <==> saved != EmptySnapshot
  {
    |saved.customProducts| > 0 || |saved.removedIds| > 0
  }

  /** The state on mount: the cached snapshot, a spinner only when no products
      are cached, and the first request issued. */
  function Initial(saved: Snapshot): (r: SyncState)
    ensures Valid(r) && !r.settled && r.attempts == 1
    ensures r.snapshot == saved
    ensures r.isLoading <==> saved.customProducts == []
  {
    SyncState(saved, |saved.customProducts| == 0, 1, false)
  }

  /** Falling back after an empty reply or the last failure: the cached
      snapshot is restored when it has data, otherwise the current one stays. */
  function FallBack(saved: Snapshot, st: SyncState): (r: SyncState)
    ensures r.settled && !r.isLoading && r.attempts == st.attempts
    ensures saved != EmptySnapshot ==> r.snapshot == saved
    ensures saved == EmptySnapshot ==> r.snapshot == st.snapshot
  {
    SyncState(if HasCachedData(saved) then saved else st.snapshot, false, st.attempts, true)
  }

  function Step(saved: Snapshot, st: SyncState, e: Event): (r: SyncState)
    requires Valid(st)
    ensures Valid(r)
    ensures e.Edited? ==> r == st.(snapshot := e.snapshot)
    ensures e.Fetched? && st.settled ==> r == st
    ensures e.Fetched? && !st.settled && e.outcome.Loaded? && Truthy(e.outcome.data) ==>
      r == SyncState(Normalised(e.outcome.data), false, st.attempts, true)
    ensures e.Fetched? && !st.settled && !r.settled ==>
      e.outcome.Failed? && r == st.(attempts := st.attempts + 1)
    ensures e.Fetched? && !st.settled && r.settled && !(e.outcome.Loaded? && Truthy(e.outcome.data)) ==>
      (HasCachedData(saved) ==> r.snapshot == saved) && (!HasCachedData(saved) ==> r.snapshot == st.snapshot)
    ensures e.Fetched? && !st.settled && e.outcome.Failed? && st.attempts < MaxRetries ==>
      r == st.(attempts := st.attempts + 1)
    ensures e.Fetched? && !st.settled && e.outcome.Failed? && st.attempts == MaxRetries ==>
      r == FallBack(saved, st)
    ensures e.Fetched? && !st.settled && e.outcome.Loaded? && !Truthy(e.outcome.data) ==>
      r == FallBack(saved, st)
  {
    match e
    case Edited(snapshot) => st.(snapshot := snapshot)
    case Fetched(outcome) =>
      if st.settled then st
      else
        match outcome
        case Loaded(data) =>
          if Truthy(data) then SyncState(Normalised(data), false, st.attempts, true)
          else FallBack(saved, st)
        case Failed =>
          if st.attempts < MaxRetries then st.(attempts := st.attempts + 1)
          else FallBack(saved, st)
  }

  function Run(saved: Snapshot, st: SyncState, events: seq<Event>): (r: SyncState)
    requires Valid(st)
    ensures Valid(r)
    decreases events
  {
    if events == [] then st else Run(saved, Step(saved, st, events[0]), events[1..])
  }

  /** How many fetch results a sequence of events carries. */
  function Fetches(events: seq<Event>): nat {
    if events == [] then 0 else (if events[0].Fetched? then 1 else 0) + Fetches(events[1..])
  }

  /** Bounded retries: whatever the replies, the fetch has settled once
      `MaxRetries` results came in, so no more than `MaxRetries` requests are made. */
  lemma {:induction false} SettlesWithinRetries(saved: Snapshot, st: SyncState, events: seq<Event>)
    requires Valid(st)
    requires st.settled || Fetches(events) >= MaxRetries - st.attempts + 1
    ensures Run(saved, st, events).settled
    ensures Run(saved, st, events).attempts <= MaxRetries
    decreases events
  {
    if events == [] {
      assert st.settled;
    } else {
      SettlesWithinRetries(saved, Step(saved, st, events[0]), events[1..]);
    }
  }

  /** The snapshots a sequence of events can install: every edit's snapshot
      and every reply's normalised record. */
  function Installed(events: seq<Event>): (r: set<Snapshot>)
    ensures forall k :: 0 <= k < |events| && events[k].Edited? ==> events[k].snapshot in r
    ensures forall k :: 0 <= k < |events| && events[k].Fetched? && events[k].outcome.Loaded? ==>
      Normalised(events[k].outcome.data) in r
    decreases events
  {
    if events == [] then {}
    else
      var rest := Installed(events[1..]);
      assert forall k :: 1 <= k < |events| ==> events[k] == events[1..][k - 1];
      match events[0]
      case Edited(snapshot) => {snapshot} + rest
      case Fetched(Loaded(data)) => {Normalised(data)} + rest
      case Fetched(Failed) => rest
  }

  /** Whatever happens, the snapshot shown is the one started from, the cache,
      an edit's snapshot, or a reply's normalised record: nothing else is ever
      displayed. */
  lemma {:induction false} SnapshotComesFrom(saved: Snapshot, st: SyncState, events: seq<Event>)
    requires Valid(st)
    ensures Run(saved, st, events).snapshot in {st.snapshot, saved} + Installed(events)
    decreases events
  {
    if events != [] {
      var next := Step(saved, st, events[0]);
      SnapshotComesFrom(saved, next, events[1..]);
      assert Installed(events) == Installed([events[0]]) + Installed(events[1..]);
    }
  }

  /** Once settled, the state changes only through the admin's edits. */
  lemma {:induction false} SettledIgnoresFetches(saved: Snapshot, st: SyncState, events: seq<Event>)
    requires Valid(st) && st.settled
    requires forall k :: 0 <= k < |events| ==> events[k].Fetched?
    ensures Run(saved, st, events) == st
    decreases events
  {
    if events != [] {
      SettledIgnoresFetches(saved, Step(saved, st, events[0]), events[1..]);
    }
  }

  /** The spinner is never switched back on. */
  lemma {:induction false} LoadingOnlyEnds(saved: Snapshot, st: SyncState, events: seq<Event>)
    requires Valid(st) && !st.isLoading
    ensures !Run(saved, st, events).isLoading
    decreases events
  {
    if events != [] {
      LoadingOnlyEnds(saved, Step(saved, st, events[0]), events[1..]);
    }
  }

  /** A reply with data replaces the snapshot outright, even with an empty one,
      and discards the edits made while the fetch was pending. */
  lemma ReplyOverridesEdits(saved: Snapshot, edit: Snapshot, data: Value)
    requires Truthy(data)
    ensures Run(saved, Initial(saved), [Edited(edit), Fetched(Loaded(data))])
      == SyncState(Normalised(data), false, 1, true)
  {
    var st := Step(saved, Initial(saved), Edited(edit));
    assert Run(saved, Initial(saved), [Edited(edit), Fetched(Loaded(data))])
      == Run(saved, st, [Fetched(Loaded(data))]);
  }

  /** Three failures in a row: with an empty cache the current snapshot
      (including any edit) stays; with a non-empty cache the cache is restored. */
  lemma FailuresFallBackToCache(saved: Snapshot, st: SyncState)
    requires Valid(st) && !st.settled && st.attempts == 1
    ensures var r := Run(saved, st, [Fetched(Failed), Fetched(Failed), Fetched(Failed)]);
      && r.settled && !r.isLoading && r.attempts == MaxRetries
      && r.snapshot == (if HasCachedData(saved) then saved else st.snapshot)
  {
    var s1 := Step(saved, st, Fetched(Failed));
    var s2 := Step(saved, s1, Fetched(Failed));
    assert Run(saved, st, [Fetched(Failed), Fetched(Failed), Fetched(Failed)])
      == Run(saved, s1, [Fetched(Failed), Fetched(Failed)]);
    assert Run(saved, s1, [Fetched(Failed), Fetched(Failed)]) == Run(saved, s2, [Fetched(Failed)]);
  }
}

=== FILE: checkout_page.dfy ===
/**
 The checkout page: the cart lines joined with the current catalog, the
 order subtotal, the contact form's validation, the order e-mail's lines and
 what confirming does to the cart.

 The catalog the lines are joined with is the list of visible products. The
 e-mail service is a function parameter that either delivers the order or
 fails with a message. Line totals are exact rationals; the `toFixed(2)`
 formatting of the e-mail is not modelled.
 */
module CheckoutPage {
  import opened Wrappers
  import opened Js
  import opened Strings
  import opened Prices
  import Cart
  import ProductText
  import CartPage

  // Joining the cart with the catalog

  /** The test `find` applies: `p && p.id === id`. */
  predicate Matches(p: Value, id: Value) {
    Truthy(p) && StrictEquals(Get(p, "id"), id)
  }

  /** `products.find((p) => p && p.id === id)`: the first matching product. */
  function FindProduct(products: seq<Value>, id: Value): (r: Option<nat>)
    ensures r.Some? ==> r.value < |products| && Matches(products[r.value], id)
    ensures r.Some? ==> forall j :: 0 <= j < r.value ==> !Matches(products[j], id)
    ensures r.None? ==> forall j :: 0 <= j < |products| ==> !Matches(products[j], id)
  {
    if products == [] then None
    else if Matches(products[0], id) then Some(0)
    else match FindProduct(products[1..], id)
      case None => None
      case Some(k) => Some(k + 1)
  }

  /** A cart line as the page reads it: `{id, quantity, price}`. */
  function LineRecord(line: Cart.Line): Value {
    Obj(map["id" := line.id, "quantity" := Num(line.quantity), "price" := line.price])
  }

  /** The item the page shows for a line: the catalog product with the line's
      quantity (`quantity || 1`) written over it, or the line itself when the
      product is no longer listed. */
  function Enrich(line: Cart.Line, products: seq<Value>): (r: Value)
    ensures r.Obj?
    ensures Get(r, "id") == line.id
    ensures Get(r, "quantity") == Num(Cart.QuantityOr1(line.quantity))
    ensures FindProduct(products, line.id).None? ==> Get(r, "price") == line.price
  {
    var quantity := Num(Cart.QuantityOr1(line.quantity));
    match FindProduct(products, line.id)
    case Some(k) => Obj(Spread(products[k])["quantity" := quantity])
    case None => Obj(Spread(LineRecord(line))["quantity" := quantity])
  }

  /** Every field of an enriched item other than `quantity` is the listed
      product's field when the line's product is listed, and the line's own
      field otherwise. */
  lemma EnrichKeepsFields(line: Cart.Line, products: seq<Value>, key: string)
    requires key != "quantity"
    ensures FindProduct(products, line.id).Some? ==>
      Get(Enrich(line, products), key) == Get(products[FindProduct(products, line.id).value], key)
    ensures FindProduct(products, line.id).None? ==>
      Get(Enrich(line, products), key) == Get(LineRecord(line), key)
  {
  }

  /** The lines with a truthy id, in cart order. */
  function IdentifiedLines(cart: Cart.Cart): (r: Cart.Cart)
    ensures |r| <= |cart|
    ensures forall k :: 0 <= k < |r| ==> Truthy(r[k].id)
    ensures forall line :: line in r <==> line in cart && Truthy(line.id)
  {
    if cart == [] then []
    else (if Truthy(cart[0].id) then [cart[0]] else []) + IdentifiedLines(cart[1..])
  }

  /** `enrichedCartItems`: every line without an id becomes `null`, the others
      are enriched, and the items without a truthy id are filtered out. The
      final filter removes exactly the lines that had no id: every line with
      an id yields one item, in cart order. */
  function EnrichedItems(cart: Cart.Cart, products: seq<Value>): (r: seq<Value>)
    ensures |r| == |IdentifiedLines(cart)|
    ensures forall k :: 0 <= k < |r| ==> r[k] == Enrich(IdentifiedLines(cart)[k], products)
  {
    if cart == [] then []
    else
      var rest := EnrichedItems(cart[1..], products);
      if !Truthy(cart[0].id) then
        assert IdentifiedLines(cart) == IdentifiedLines(cart[1..]);
        rest
      else
        var head := Enrich(cart[0], products);
        assert Truthy(head) && Truthy(Get(head, "id"));
        assert IdentifiedLines(cart) == [cart[0]] + IdentifiedLines(cart[1..]);
        EnrichedCons(cart[0], IdentifiedLines(cart[1..]), rest, products);
        (if Truthy(head) && Truthy(Get(head, "id")) then [head] else []) + rest
  }

  /** Enriching line by line commutes with putting one more line in front. */
  lemma EnrichedCons(line: Cart.Line, lines: Cart.Cart, items: seq<Value>, products: seq<Value>)
    requires |items| == |lines|
    requires forall k :: 0 <= k < |items| ==> items[k] == Enrich(lines[k], products)
    ensures forall k :: 0 <= k < |items| + 1 ==>
      ([Enrich(line, products)] + items)[k] == Enrich(([line] + lines)[k], products)
  {
  }

  // Amounts

  /** `priceStr.replace(...)`: the price text; a price that is not a string
      has no `replace` method and throws. */
  function PriceText(price: Value): (r: Outcome<string>)
    ensures r.Ok? <==> price.Str?
    ensures price.Str? ==> r.value == price.s
  {
    if price.Str? then Ok(price.s) else TypeError
  }

  /** `item.quantity || 1` as a multiplier. Enriched items always hold a
      non-zero number there. */
  function QuantityOf(item: Value): (r: int)
    ensures Get(item, "quantity").Num? && Get(item, "quantity").n != 0 ==> r == Get(item, "quantity").n
  {
    var q := Or(Get(item, "quantity"), Num(1));
    if q.Num? then q.n else 1
  }

  /** One item's share of the subtotal: price value times quantity. */
  function ItemAmount(item: Value, language: string): (r: Outcome<real>)
    ensures r.Ok? <==> PriceIsText(item, language)
    ensures r.Ok? ==> r.value == Cart.Scaled(PriceValue(ProductText.GetProductPrice(item, language).s), QuantityOf(item))
  {
    match PriceText(ProductText.GetProductPrice(item, language))
    case TypeError => TypeError
    case Ok(s) => Ok(Cart.Scaled(PriceValue(s), QuantityOf(item)))
  }

  /** Whether an item's price is text, so that the page can read it. */
  predicate PriceIsText(item: Value, language: string) {
    ProductText.GetProductPrice(item, language).Str?
  }

  /** Whether the page can price every item, taken item by item. */
  predicate PricedAsText(items: seq<Value>, language: string) {
    items == [] || (PriceIsText(items[0], language) && PricedAsText(items[1..], language))
  }

  /** The page can price its items exactly when every price is text. */
  lemma {:induction false} PricedAsTextEverywhere(items: seq<Value>, language: string)
    ensures PricedAsText(items, language) <==> forall k :: 0 <= k < |items| ==> PriceIsText(items[k], language)
    decreases |items|
  {
    if items != [] {
      PricedAsTextEverywhere(items[1..], language);
      assert forall k :: 1 <= k < |items| ==> items[k] == items[1..][k - 1];
    }
  }

  /** `calculateSubtotal()`: the sum of the item amounts, or a crash of the
      page when some price is not text. */
  function Subtotal(items: seq<Value>, language: string): (r: Outcome<real>)
    ensures r.Ok? <==> PricedAsText(items, language)
  {
    if items == [] then Ok(0.0)
    else
      match ItemAmount(items[0], language)
      case TypeError => TypeError
      case Ok(amount) =>
        match Subtotal(items[1..], language)
        case TypeError => TypeError
        case Ok(rest) => Ok(amount + rest)
  }

  /** No shipping fee is charged at checkout. */
  const Shipping: real := 0.0

  // The order e-mail

  datatype OrderLine = OrderLine(title: Value, quantity: Value, price: string, lineTotal: real)

  /** `orderItems`: one line per item with an id, titled in the page's
      language; items without an id give no line. */
  function OrderLines(items: seq<Value>, language: string): (r: Outcome<seq<OrderLine>>)
    ensures r.Ok? ==> |r.value| <= |items|
    ensures (forall k :: 0 <= k < |items| ==> !Truthy(Get(items[k], "id"))) ==> r == Ok([])
  {
    if items == [] then Ok([])
    else
      var item := items[0];
      if !Truthy(item) || !Truthy(Get(item, "id")) then OrderLines(items[1..], language)
      else
        match PriceText(ProductText.GetProductPrice(item, language))
        case TypeError => TypeError
        case Ok(price) =>
          match OrderLines(items[1..], language)
          case TypeError => TypeError
          case Ok(rest) => Ok([OrderLineOf(item, price, language)] + rest)
  }

  function OrderLineOf(item: Value, price: string, language: string): OrderLine {
    OrderLine(
      Or(ProductText.GetProductTitle(item, language), Str(ProductText.DefaultTitle)),
      Or(Get(item, "quantity"), Num(1)),
      price,
      Cart.Scaled(PriceValue(price), QuantityOf(item)))
  }

  function SumLineTotals(lines: seq<OrderLine>): real {
    if lines == [] then 0.0 else lines[0].lineTotal + SumLineTotals(lines[1..])
  }

  /** Whether every item carries a truthy id, as enriched items do. */
  predicate Identified(items: seq<Value>) {
    forall k :: 0 <= k < |items| ==> Truthy(Get(items[k], "id"))
  }

  /** The e-mail lists every item, and its line totals add up to the subtotal
      it states; both fail together when a price is not text. */
  lemma {:induction false} OrderTotalsAddUp(items: seq<Value>, language: string)
    requires Identified(items)
    ensures OrderLines(items, language).Ok? <==> Subtotal(items, language).Ok?
    ensures OrderLines(items, language).Ok? ==>
      |OrderLines(items, language).value| == |items|
      && SumLineTotals(OrderLines(items, language).value) == Subtotal(items, language).value
  {
    if items != [] {
      assert Identified(items[1..]) by {
        forall k | 0 <= k < |items[1..]| ensures Truthy(Get(items[1..][k], "id")) {
          assert items[1..][k] == items[k + 1];
        }
      }
      OrderTotalsAddUp(items[1..], language);
      var item := items[0];
      assert Truthy(item) by {
        assert Truthy(Get(item, "id"));
      }
      AmountOfOrderLine(item, language);
    }
  }

  /** An item's order line is priced exactly as its share of the subtotal. */
  lemma AmountOfOrderLine(item: Value, language: string)
    ensures var price := PriceText(ProductText.GetProductPrice(item, language));
      ItemAmount(item, language).Ok? <==> price.Ok?
    ensures var price := PriceText(ProductText.GetProductPrice(item, language));
      price.Ok? ==> OrderLineOf(item, price.value, language).lineTotal == ItemAmount(item, language).value
  {
  }

  /** Each line of the e-mail names its product: the title is never blank. */
  lemma OrderLinesAreTitled(items: seq<Value>, language: string, k: int)
    requires OrderLines(items, language).Ok? && 0 <= k < |OrderLines(items, language).value|
    ensures Truthy(OrderLines(items, language).value[k].title)
    decreases items
  {
    if items != [] {
      var item := items[0];
      if !Truthy(item) || !Truthy(Get(item, "id")) {
        OrderLinesAreTitled(items[1..], language, k);
      } else if k > 0 {
        OrderLinesAreTitled(items[1..], language, k - 1);
      }
    }
  }

  /** A line whose product has left the catalog is priced from the price it
      recorded, exactly as the cart's own total prices it. */
  lemma UnlistedLinePricedAsInCart(line: Cart.Line, products: seq<Value>, language: string)
    requires Truthy(line.id) && FindProduct(products, line.id).None?
    requires line.price.Str? && line.price.s != ""
    ensures ItemAmount(Enrich(line, products), language) == Ok(Cart.LineTotal(line))
  {
    var item := Enrich(line, products);
    UnlistedItemPrice(line, products, language);
    assert QuantityOf(item) == Cart.QuantityOr1(line.quantity);
    assert ToJsString(Or(line.price, Str("0"))) == line.price.s;
  }

  /** The item of an unlisted line carries the price the line recorded. */
  lemma UnlistedItemPrice(line: Cart.Line, products: seq<Value>, language: string)
    requires Truthy(line.id) && FindProduct(products, line.id).None?
    requires line.price.Str? && line.price.s != ""
    ensures ProductText.GetProductPrice(Enrich(line, products), language) == line.price
  {
    var item := Enrich(line, products);
    var tagged := ProductText.Tagged("price", language);
    assert tagged[0] == 'p' && |tagged| >= 6;
    assert Get(item, tagged) == Undefined by {
      assert tagged != "id" && tagged != "quantity" && tagged != "price";
    }
    assert Get(item, "price") == line.price;
  }

  // The contact form and confirming the order

  datatype ContactForm = ContactForm(name: string, email: string, phone: string, location: string)

  /** Every field must hold something other than white space. */
  predicate CanConfirm(form: ContactForm) {
    Trim(form.name) != "" && Trim(form.email) != "" && Trim(form.phone) != "" && Trim(form.location) != ""
  }

  datatype Order = Order(
    customerName: string, customerEmail: string, customerPhone: string, customerLocation: string,
    items: seq<OrderLine>, subtotal: real, shipping: real, total: real)

  /** The order handed to the e-mail service: trimmed contact fields, the
      order lines, the subtotal, no shipping, and a total equal to the subtotal. */
  function OrderOf(form: ContactForm, items: seq<Value>, language: string): (r: Outcome<Order>)
    requires Identified(items)
    ensures r.Ok? <==> PricedAsText(items, language)
    ensures r.Ok? ==> r.value.shipping == 0.0 && r.value.total == r.value.subtotal
    ensures r.Ok? ==> r.value.subtotal == Subtotal(items, language).value
    ensures r.Ok? ==> SumLineTotals(r.value.items) == r.value.subtotal && |r.value.items| == |items|
    ensures r.Ok? ==> r.value.customerName == Trim(form.name) && r.value.customerPhone == Trim(form.phone)
  {
    OrderTotalsAddUp(items, language);
    match Subtotal(items, language)
    case TypeError => TypeError
    case Ok(subtotal) =>
      Ok(Order(Trim(form.name), Trim(form.email), Trim(form.phone), Trim(form.location),
        OrderLines(items, language).value, subtotal, Shipping, subtotal + Shipping))
  }

  /** For the same subtotal below the free-shipping threshold, the cart page
      quotes a total one shipping fee above the total the order e-mail states,
      since checkout charges no shipping. */
  lemma CartQuotesFeeCheckoutWaives(form: ContactForm, items: seq<Value>, language: string)
    requires Identified(items)
    requires OrderOf(form, items, language).Ok?
    requires OrderOf(form, items, language).value.subtotal < CartPage.FreeShippingFrom
    ensures var order := OrderOf(form, items, language).value;
      CartPage.OrderTotal(order.subtotal) == order.total + CartPage.ShippingFee
  {
  }

  /** What the e-mail service does with an order. */
  datatype Delivery = Delivered | Refused(message: string)

  const SendFailedText := "Failed to send order. Please try again."

  datatype CheckoutState = CheckoutState(cart: Cart.Cart, orderPlaced: bool, submitError: string)

  /** The message shown after a failed send: the error's own message, else the
      translated one, else a fixed English text. */
  function ErrorText(message: string, translated: string): (r: string)
    ensures r != ""
    ensures message != "" ==> r == message
  {
    if message != "" then message else if translated != "" then translated else SendFailedText
  }

  /** `handleConfirmOrder`: an incomplete form is ignored; otherwise the order
      is sent, and only a delivered order clears the cart and shows the thank
      you page. A page that cannot price its items has crashed while
      rendering, before any order could be confirmed. */
  function Confirm(st: CheckoutState, form: ContactForm, products: seq<Value>, language: string,
                   send: Order -> Delivery, translated: string): (r: Outcome<CheckoutState>)
    ensures var items := EnrichedItems(st.cart, products);
      r.Ok? <==> PricedAsText(items, language)
    ensures r.Ok? && !CanConfirm(form) ==> r.value == st
    ensures r.Ok? && CanConfirm(form) ==>
      var order := OrderOf(form, EnrichedItems(st.cart, products), language).value;
      (send(order).Delivered? ==> r.value == CheckoutState([], true, ""))
      && (send(order).Refused? ==> r.value == st.(submitError := ErrorText(send(order).message, translated)))
  {
    var items := EnrichedItems(st.cart, products);
    IdentifiedItems(st.cart, products);
    match OrderOf(form, items, language)
    case TypeError => TypeError
    case Ok(order) =>
      if !CanConfirm(form) then Ok(st)
      else
        match send(order)
        case Delivered => Ok(CheckoutState(Cart.ClearCart(), true, ""))
        case Refused(message) => Ok(st.(submitError := ErrorText(message, translated)))
  }

  /** Enriched items always carry a truthy id. */
  lemma IdentifiedItems(cart: Cart.Cart, products: seq<Value>)
    ensures Identified(EnrichedItems(cart, products))
  {
    var items := EnrichedItems(cart, products);
    forall k | 0 <= k < |items| ensures Truthy(Get(items[k], "id")) {
      assert Truthy(IdentifiedLines(cart)[k].id);
    }
  }

  /** The cart is emptied exactly when a complete form's order is delivered. */
  lemma CartClearedOnlyOnDelivery(st: CheckoutState, form: ContactForm, products: seq<Value>, language: string,
                                  send: Order -> Delivery, translated: string)
    requires st.cart != []
    requires Confirm(st, form, products, language, send, translated).Ok?
    ensures var r := Confirm(st, form, products, language, send, translated).value;
      r.cart == [] <==>
        CanConfirm(form) && send(OrderOf(form, EnrichedItems(st.cart, products), language).value).Delivered?
  {
    IdentifiedItems(st.cart, products);
  }
}

=== FILE: governorates.dfy ===
/**
 Shipping fees for Egyptian governorates, in Egyptian pounds: Cairo and Giza
 (and a form with no governorate chosen yet) pay 70, every other governorate 80.
 */
module Governorates {
  import opened Js
  import opened Strings

  const ShippingDefault := 70
  const ShippingCairoGiza := 70
  const ShippingOther := 80

  /** The ids with the cheaper fee. */
  const CheapShippingIds: seq<string> := ["cairo", "giza"]

  datatype Governorate = Governorate(id: string, ar: string, en: string)

  const Table: seq<Governorate> := [
    Governorate("cairo", "القاهرة", "Cairo"),
    Governorate("giza", "الجيزة", "Giza"),
    Governorate("alexandria", "الإسكندرية", "Alexandria"),
    Governorate("ismailia", "الإسماعيلية", "Ismailia"),
    Governorate("aswan", "أسوان", "Aswan"),
    Governorate("asyut", "أسيوط", "Asyut"),
    Governorate("suez", "السويس", "Suez"),
    Governorate("monufia", "المنوفية", "Monufia"),
    Governorate("dakahlia", "الدقهلية", "Dakahlia"),
    Governorate("damietta", "دمياط", "Damietta"),
    Governorate("sohag", "سوهاج", "Sohag"),
    Governorate("sharqia", "الشرقية", "Sharqia"),
    Governorate("matrouh", "مطروح", "Matrouh"),
    Governorate("minya", "المنيا", "Minya"),
    Governorate("newvalley", "الوادي الجديد", "New Valley"),
    Governorate("southsinai", "جنوب سيناء", "South Sinai"),
    Governorate("qena", "قنا", "Qena"),
    Governorate("luxor", "الأقصر", "Luxor"),
    Governorate("redsea", "البحر الأحمر", "Red Sea"),
    Governorate("beheira", "البحيرة", "Beheira"),
    Governorate("benisuef", "بني سويف", "Beni Suef"),
    Governorate("portsaid", "بور سعيد", "Port Said"),
    Governorate("gharbia", "الغربية", "Gharbia"),
    Governorate("fayoum", "الفيوم", "Fayoum"),
    Governorate("qalyubia", "القليوبية", "Qalyubia"),
    Governorate("kafrelsheikh", "كفر الشيخ", "Kafr El Sheikh"),
    Governorate("northsinai", "شمال سيناء", "North Sinai")
  ]

  /** `getShippingByGovernorate(governorateId)`: a value that is set but is not
      text has no `toLowerCase` and throws. */
  function ShippingByGovernorate(governorateId: Value): (r: Outcome<int>)
    ensures !Truthy(governorateId) ==> r == Ok(ShippingDefault)
    ensures Truthy(governorateId) && !governorateId.Str? ==> r.TypeError?
    ensures r.Ok? ==> r.value == 70 || r.value == 80
    ensures governorateId.Str? && Truthy(governorateId) ==>
      r == Ok(if Lower(governorateId.s) == "cairo" || Lower(governorateId.s) == "giza" then ShippingCairoGiza else ShippingOther)
  {
    if !Truthy(governorateId) then Ok(ShippingDefault)
    else if !governorateId.Str? then TypeError
    else if Lower(governorateId.s) in CheapShippingIds then Ok(ShippingCairoGiza)
    else Ok(ShippingOther)
  }

  /** The letter case of the id does not matter: any spelling of a table id
      costs what the id itself costs, 70 for Cairo and Giza and 80 elsewhere. */
  lemma ShippingIgnoresCase(id: string, k: int)
    requires 0 <= k < |Table| && Lower(id) == Table[k].id
    ensures ShippingByGovernorate(Str(id)) == Ok(if k < 2 then ShippingCairoGiza else ShippingOther)
    ensures ShippingByGovernorate(Str(id)) == ShippingByGovernorate(Str(Table[k].id))
  {
    TableFees();
    TableIdsAreLower();
    TableIdsAreDistinct();
    assert id != [];
  }

  predicate IsLowerWord(s: string) {
    forall k :: 0 <= k < |s| ==> 'a' <= s[k] <= 'z'
  }

  lemma LowerOfLowerWord(s: string)
    requires IsLowerWord(s)
    ensures Lower(s) == s
  {
  }

  /** The table's ids are lower-case words, so lower-casing leaves them as they are. */
  lemma TableIdsAreLower()
    ensures |Table| == 27
    ensures forall k :: 0 <= k < |Table| ==> Lower(Table[k].id) == Table[k].id
  {
    FirstRowsAreLower();
    MiddleRowsAreLower();
    LastRowsAreLower();
  }

  // The table is checked in three parts of nine rows, each a small proof.
  lemma FirstRowsAreLower()
    ensures forall k :: 0 <= k < 9 ==> Lower(Table[k].id) == Table[k].id
  {
    forall k | 0 <= k < 9 ensures Lower(Table[k].id) == Table[k].id {
      LowerOfLowerWord(Table[k].id);
    }
  }

  lemma MiddleRowsAreLower()
    ensures forall k :: 9 <= k < 18 ==> Lower(Table[k].id) == Table[k].id
  {
    forall k | 9 <= k < 18 ensures Lower(Table[k].id) == Table[k].id {
      LowerOfLowerWord(Table[k].id);
    }
  }

  lemma LastRowsAreLower()
    ensures forall k :: 18 <= k < 27 ==> Lower(Table[k].id) == Table[k].id
  {
    forall k | 18 <= k < 27 ensures Lower(Table[k].id) == Table[k].id {
      LowerOfLowerWord(Table[k].id);
    }
  }

  /** No id appears twice in the table. */
  lemma TableIdsAreDistinct()
    ensures forall i, j :: 0 <= i < j < |Table| ==> Table[i].id != Table[j].id
  {
  }

  /** Only the first two rows, Cairo and Giza, get the cheaper fee. */
  lemma TableFees()
    ensures forall k :: 0 <= k < |Table| ==>
      ShippingByGovernorate(Str(Table[k].id)) == Ok(if k < 2 then ShippingCairoGiza else ShippingOther)
  {
    TableIdsAreLower();
  }
}

=== FILE: js.dfy ===
/**
 JavaScript values as the storefront sees them: the records read from local
 storage and from the published catalog file are parsed JSON, so every product,
 cart entry and snapshot field is one of these.

 Numbers are modelled as integers (`Num`) plus `NaN`; fractional numbers do not
 occur in the fields the model reads. Arrays and objects are values, so object
 identity is approximated by structural equality.
 */
module Js {
  import opened Wrappers
  import opened Strings

  datatype Value =
    | Undefined
    | Null
    | Bool(b: bool)
    | Num(n: int)
    | NaN
    | Str(s: string)
    | Arr(items: seq<Value>)
    | Obj(fields: map<string, Value>)

  /** The result of an expression that either evaluates or throws a TypeError
      (a property read on null or undefined, a method called on a value that lacks it). */
  datatype Outcome<+T> = Ok(value: T) | TypeError

  /** JavaScript truthiness: `false`, `0`, `NaN`, `""`, `null` and `undefined` are falsy. */
  predicate Truthy(v: Value) {
    match v
    case Undefined => false
    case Null => false
    case Bool(b) => b
    case Num(n) => n != 0
    case NaN => false
    case Str(s) => s != ""
    case Arr(_) => true
    case Obj(_) => true
  }

  predicate Nullish(v: Value) {
    v.Undefined? || v.Null?
  }

  /** Whether some element is null or undefined. */
  predicate HasNullish(items: seq<Value>) {
    exists k :: 0 <= k < |items| && Nullish(items[k])
  }

  /** `a || b`: the left operand when it is truthy, else the right one. */
  function Or(a: Value, b: Value): Value {
    if Truthy(a) then a else b
  }

  /** `o.key` on a value that is not null or undefined: missing keys and
      primitives read as `undefined`. */
  function Get(o: Value, key: string): Value {
    if o.Obj? && key in o.fields then o.fields[key] else Undefined
  }

  /** `a === b` (NaN is unequal to itself). */
  predicate StrictEquals(a: Value, b: Value) {
    a == b && !a.NaN?
  }

  /** `items.includes(v)`: SameValueZero, under which NaN equals itself. */
  predicate Includes(items: seq<Value>, v: Value) {
    v in items
  }

  /** The integer a value converts to under `Number(v)` (relational operators,
      `Math.max`); `None` stands for NaN. Strings convert when they are blank or
      a plain run of decimal digits; signs, fractions, exponents and hex
      literals, and the conversion of arrays and objects, read as NaN here. */
  function ToNumber(v: Value): Option<int> {
    match v
    case Undefined => None
    case Null => Some(0)
    case Bool(b) => Some(if b then 1 else 0)
    case Num(n) => Some(n)
    case NaN => None
    case Str(s) =>
      var t := Trim(s);
      if t == "" then Some(0)
      else if forall k :: 0 <= k < |t| ==> IsDigit(t[k]) then Some(RadixValue(t, 10))
      else None
    case Arr(_) => None
    case Obj(_) => None
  }

  /** The own enumerable keys copied by `{...o}`; the index keys of a spread
      string or array are not modelled. */
  function Spread(o: Value): map<string, Value> {
    if o.Obj? then o.fields else map[]
  }

  /** `String(v)` (and template-literal conversion). */
  function ToJsString(v: Value): string {
    match v
    case Undefined => "undefined"
    case Null => "null"
    case Bool(b) => if b then "true" else "false"
    case Num(n) => IntToDecimal(n)
    case NaN => "NaN"
    case Str(s) => s
    case Arr(items) => JoinElements(items)
    case Obj(_) => "[object Object]"
  }

  /** `items.join(",")`: null and undefined elements become empty text. */
  function JoinElements(items: seq<Value>): string
    decreases items
  {
    if items == [] then ""
    else
      var head := if Nullish(items[0]) then "" else ToJsString(items[0]);
      if |items| == 1 then head else head + "," + JoinElements(items[1..])
  }

  function DigitChar(d: nat): char
    requires d < 10
  {
    "0123456789"[d]
  }

  function NatToDecimal(n: nat): (r: string)
    ensures |r| >= 1
  {
    if n < 10 then [DigitChar(n)] else NatToDecimal(n / 10) + [DigitChar(n % 10)]
  }

  function IntToDecimal(n: int): string {
    if n < 0 then "-" + NatToDecimal(-n) else NatToDecimal(n)
  }
}

=== FILE: load_products_json.dfy ===
/**
 The back end's `load_products_json` command: it reads the catalog file the
 storefront publishes and creates one product row, with its media rows, for
 every entry of `customProducts` whose id is not already stored.

 The file is parsed JSON, so its values are Python's `None`, booleans,
 integers, floats, strings, lists and dicts. The database is reduced to the
 set of ids it already holds; `str()` of a float, list or dict is a parameter
 `show`, since its text is Python's own number and container formatting.
 */
module LoadProductsJson {
  import opened Strings
  import Js

  /** A value produced by `json.load`. */
  datatype PyValue =
    | PyNone
    | PyBool(b: bool)
    | PyInt(i: int)
    | PyFloat(x: real)
    | PyStr(s: string)
    | PyList(items: seq<PyValue>)
    | PyDict(entries: map<string, PyValue>)

  /** An evaluation that either returns or raises `AttributeError`, as a
      method call on a value lacking that method does (`.get` on a list,
      `.lower()` on a number). */
  datatype Raised<+T> = Done(value: T) | AttributeError

  /** Python truthiness: `None`, `False`, zero, and empty strings, lists and dicts are falsy. */
  predicate Truthy(v: PyValue) {
    match v
    case PyNone => false
    case PyBool(b) => b
    case PyInt(i) => i != 0
    case PyFloat(x) => x != 0.0
    case PyStr(s) => s != ""
    case PyList(items) => items != []
    case PyDict(entries) => entries != map[]
  }

  /** `a or b` */
  function PyOr(a: PyValue, b: PyValue): PyValue {
    if Truthy(a) then a else b
  }

  /** `d.get(key)` on a dict: `None` when the key is missing. */
  function Field(d: map<string, PyValue>, key: string): PyValue {
    if key in d then d[key] else PyNone
  }

  // The helpers

  /** `as_list(val)`: `None` is no entries, a list is its entries, anything
      else is a list of one. Only `None` and the empty list give no entries. */
  function AsList(v: PyValue): (r: seq<PyValue>)
    ensures r == [] <==> v == PyNone || v == PyList([])
    ensures forall x :: x in r ==> x == v || (v.PyList? && x in v.items)
  {
    if v.PyNone? then []
    else if v.PyList? then v.items
    else [v]
  }

  /** Listing a listed value again changes nothing. */
  lemma AsListIsIdempotent(v: PyValue)
    ensures AsList(PyList(AsList(v))) == AsList(v)
  {
  }

  /** `str(val)` for a truthy value: strings are themselves, integers are
      their decimal digits, `True` is "True"; other values are shown by `show`. */
  function StrOf(v: PyValue, show: PyValue -> string): string {
    match v
    case PyStr(s) => s
    case PyInt(i) => Js.IntToDecimal(i)
    case PyBool(b) => if b then "True" else "False"
    case _ => show(v)
  }

  /** `as_str(val, default)`: the default for `None` and every falsy value,
      otherwise the value's text stripped of surrounding whitespace. */
  function AsStr(v: PyValue, default: string, show: PyValue -> string): (r: string)
    ensures !Truthy(v) ==> r == default
    ensures Truthy(v) ==> PyStrip(r) == r
    ensures v.PyStr? && v.s != "" ==> r == PyStrip(v.s)
  {
    if v.PyNone? then default
    else if Truthy(v) then StripIsIdempotent(StrOf(v, show)); PyStrip(StrOf(v, show))
    else default
  }

  /** Stripping twice strips nothing more. */
  lemma StripIsIdempotent(s: string)
    ensures PyStrip(PyStrip(s)) == PyStrip(s)
  {
    var t := PyStrip(s);
    if t != [] {
      StripUnchanged(t, IsPySpace);
    } else {
      assert Run(t, IsPySpace) == [];
    }
  }

  // One catalog entry

  /** The stored product: the bilingual fields and the legacy single-language ones. */
  datatype ProductRow = ProductRow(
    titleEn: string, titleAr: string,
    descriptionEn: string, descriptionAr: string,
    shortDescriptionEn: string, shortDescriptionAr: string,
    badgeEn: string, badgeAr: string,
    priceEn: string, priceAr: string,
    featuresEn: seq<PyValue>, featuresAr: seq<PyValue>,
    title: string, description: string, shortDescription: string,
    badge: string, price: string, features: seq<PyValue>)

  /** `as_str(item.get(key))` */
  function Text(item: map<string, PyValue>, key: string, show: PyValue -> string): string {
    AsStr(Field(item, key), "", show)
  }

  /** `as_str(item.get(first) or item.get(second))` */
  function TextEither(item: map<string, PyValue>, first: string, second: string, show: PyValue -> string): string {
    AsStr(PyOr(Field(item, first), Field(item, second)), "", show)
  }

  /** Every text of a row is already stripped of surrounding white space. */
  predicate TextsStripped(row: ProductRow) {
    && PyStrip(row.titleEn) == row.titleEn && PyStrip(row.titleAr) == row.titleAr
    && PyStrip(row.descriptionEn) == row.descriptionEn && PyStrip(row.descriptionAr) == row.descriptionAr
    && PyStrip(row.shortDescriptionEn) == row.shortDescriptionEn
    && PyStrip(row.shortDescriptionAr) == row.shortDescriptionAr
    && PyStrip(row.badgeEn) == row.badgeEn && PyStrip(row.badgeAr) == row.badgeAr
    && PyStrip(row.priceEn) == row.priceEn && PyStrip(row.priceAr) == row.priceAr
    && PyStrip(row.title) == row.title && PyStrip(row.description) == row.description
    && PyStrip(row.shortDescription) == row.shortDescription
    && PyStrip(row.badge) == row.badge && PyStrip(row.price) == row.price
  }

  const EmptyRow := ProductRow("", "", "", "", "", "", "", "", "", "", [], [], "", "", "", "", "", [])

  /** The product row built from one catalog entry: every text is stripped,
      and an entry without fields gives empty texts and lists throughout. */
  function RowOf(item: map<string, PyValue>, show: PyValue -> string): (r: ProductRow)
    ensures TextsStripped(r)
    ensures item == map[] ==> r == EmptyRow
  {
    StrippedTexts(item, show);
    ProductRow(
      Text(item, "title_en", show), Text(item, "title_ar", show),
      Text(item, "description_en", show), Text(item, "description_ar", show),
      TextEither(item, "shortDescription_en", "short_description_en", show),
      TextEither(item, "shortDescription_ar", "short_description_ar", show),
      Text(item, "badge_en", show), Text(item, "badge_ar", show),
      Text(item, "price_en", show), Text(item, "price_ar", show),
      AsList(Field(item, "features_en")), AsList(Field(item, "features_ar")),
      TextEither(item, "title_en", "title", show),
      TextEither(item, "description_en", "description", show),
      TextEither(item, "shortDescription_en", "short_description", show),
      TextEither(item, "badge_en", "badge", show),
      TextEither(item, "price_en", "price", show),
      AsList(PyOr(Field(item, "features_en"), Field(item, "features"))))
  }

  /** A text read from an entry, present or not, is stripped. */
  lemma StrippedTexts(item: map<string, PyValue>, show: PyValue -> string)
    ensures forall key :: PyStrip(Text(item, key, show)) == Text(item, key, show)
    ensures forall first, second :: PyStrip(TextEither(item, first, second, show)) == TextEither(item, first, second, show)
  {
    assert PyStrip("") == "";
  }

  /** The legacy fields repeat the English ones when the entry has them, and
      fall back on the entry's legacy values otherwise. */
  lemma LegacyFieldsPreferEnglish(item: map<string, PyValue>, show: PyValue -> string)
    ensures var row := RowOf(item, show);
      && (Truthy(Field(item, "title_en")) ==> row.title == row.titleEn)
      && (!Truthy(Field(item, "title_en")) ==> row.title == Text(item, "title", show))
      && (Truthy(Field(item, "description_en")) ==> row.description == row.descriptionEn)
      && (!Truthy(Field(item, "description_en")) ==> row.description == Text(item, "description", show))
      && (Truthy(Field(item, "badge_en")) ==> row.badge == row.badgeEn)
      && (!Truthy(Field(item, "badge_en")) ==> row.badge == Text(item, "badge", show))
      && (Truthy(Field(item, "price_en")) ==> row.price == row.priceEn)
      && (!Truthy(Field(item, "price_en")) ==> row.price == Text(item, "price", show))
      && (Truthy(Field(item, "features_en")) ==> row.features == row.featuresEn)
      && (!Truthy(Field(item, "features_en")) ==> row.features == AsList(Field(item, "features")))
      && (Truthy(Field(item, "shortDescription_en")) ==> row.shortDescription == row.shortDescriptionEn)
      && (!Truthy(Field(item, "shortDescription_en")) ==> row.shortDescription == Text(item, "short_description", show))
  {
  }

  // The media of an entry

  const Image := "image"
  const Video := "video"

  /** A stored media entry: its kind, its address and its position. */
  datatype MediaRow = MediaRow(mediaType: string, url: string, order: nat)

  /** `(m.get('type') or 'image').lower()`, with anything but "image" and
      "video" stored as "image"; a truthy type that is not text has no
      `lower()` and raises. */
  function MediaType(m: map<string, PyValue>): (r: Raised<string>)
    ensures r.AttributeError? <==> Truthy(Field(m, "type")) && !Field(m, "type").PyStr?
    ensures r.Done? ==> r.value == Image || r.value == Video
    ensures r == Done(Video) <==> Field(m, "type").PyStr? && Lower(Field(m, "type").s) == Video
  {
    var given := PyOr(Field(m, "type"), PyStr(Image));
    if !given.PyStr? then AttributeError
    else
      var lowered := Lower(given.s);
      Done(if lowered == Image || lowered == Video then lowered else Image)
  }

  /** The media row for the dict at position `order` of the media list. */
  function MediaEntry(m: map<string, PyValue>, order: nat, show: PyValue -> string): Raised<MediaRow> {
    match MediaType(m)
    case AttributeError => AttributeError
    case Done(t) => Done(MediaRow(t, AsStr(Field(m, "url"), "", show), order))
  }

  /** A media entry that makes the command raise. */
  predicate BadMedia(m: PyValue) {
    m.PyDict? && MediaType(m.entries).AttributeError?
  }

  /** The positions, from `i` on, of the entries that are dicts. */
  function DictPositions(media: seq<PyValue>, i: nat): seq<nat>
    requires i <= |media|
    decreases |media| - i
  {
    if i == |media| then []
    else if media[i].PyDict? then [i] + DictPositions(media, i + 1)
    else DictPositions(media, i + 1)
  }

  /** The positions listed are exactly those of the dict entries, in increasing order. */
  lemma DictPositionsAreDicts(media: seq<PyValue>, i: nat)
    requires i <= |media|
    ensures var r := DictPositions(media, i);
      && (forall k :: 0 <= k < |r| ==> i <= r[k] < |media| && media[r[k]].PyDict?)
      && (forall k, l :: 0 <= k < l < |r| ==> r[k] < r[l])
      && (forall j :: i <= j < |media| && media[j].PyDict? ==> j in r)
  {
    DictPositionsInRange(media, i);
    DictPositionsIncrease(media, i);
    DictPositionsComplete(media, i);
  }

  lemma {:induction false} DictPositionsInRange(media: seq<PyValue>, i: nat)
    requires i <= |media|
    ensures forall k :: 0 <= k < |DictPositions(media, i)| ==>
      i <= DictPositions(media, i)[k] < |media| && media[DictPositions(media, i)[k]].PyDict?
    decreases |media| - i
  {
    if i < |media| {
      DictPositionsInRange(media, i + 1);
      var r := DictPositions(media, i);
      var rest := DictPositions(media, i + 1);
      if media[i].PyDict? {
        assert r == [i] + rest;
        forall k | 0 <= k < |r|
          ensures i <= r[k] < |media| && media[r[k]].PyDict?
        {
          if k > 0 { assert r[k] == rest[k - 1]; }
        }
      }
    }
  }

  lemma {:induction false} DictPositionsIncrease(media: seq<PyValue>, i: nat)
    requires i <= |media|
    ensures forall k, l :: 0 <= k < l < |DictPositions(media, i)| ==>
      DictPositions(media, i)[k] < DictPositions(media, i)[l]
    decreases |media| - i
  {
    if i < |media| {
      DictPositionsIncrease(media, i + 1);
      DictPositionsInRange(media, i + 1);
      var r := DictPositions(media, i);
      var rest := DictPositions(media, i + 1);
      if media[i].PyDict? {
        assert r == [i] + rest;
        forall k, l | 0 <= k < l < |r|
          ensures r[k] < r[l]
        {
          assert r[l] == rest[l - 1];
          if k > 0 { assert r[k] == rest[k - 1]; }
        }
      }
    }
  }

  lemma {:induction false} DictPositionsComplete(media: seq<PyValue>, i: nat)
    requires i <= |media|
    ensures forall j :: i <= j < |media| && media[j].PyDict? ==> j in DictPositions(media, i)
    decreases |media| - i
  {
    if i < |media| {
      DictPositionsComplete(media, i + 1);
      var r := DictPositions(media, i);
      var rest := DictPositions(media, i + 1);
      if media[i].PyDict? {
        assert r == [i] + rest;
      }
    }
  }

  /** The loop over `enumerate(media_list)` from position `i`: entries that are
      not dicts are skipped, each dict becomes a row ordered by its position. */
  function MediaRowsFrom(media: seq<PyValue>, i: nat, show: PyValue -> string): Raised<seq<MediaRow>>
    requires i <= |media|
    decreases |media| - i
  {
    if i == |media| then Done([])
    else
      var rest := MediaRowsFrom(media, i + 1, show);
      if !media[i].PyDict? then rest
      else match MediaEntry(media[i].entries, i, show)
        case AttributeError => AttributeError
        case Done(row) =>
          match rest
          case AttributeError => AttributeError
          case Done(rows) => Done([row] + rows)
  }

  /** The media loop raises exactly when some dict entry has a type that is not text. */
  lemma {:induction false} MediaRowsRaise(media: seq<PyValue>, i: nat, show: PyValue -> string)
    requires i <= |media|
    ensures MediaRowsFrom(media, i, show).AttributeError? <==> exists j :: i <= j < |media| && BadMedia(media[j])
    decreases |media| - i
  {
    if i < |media| {
      MediaRowsRaise(media, i + 1, show);
      if BadMedia(media[i]) {
        assert MediaRowsFrom(media, i, show).AttributeError?;
      } else {
        assert (exists j :: i <= j < |media| && BadMedia(media[j])) <==>
          (exists j :: i + 1 <= j < |media| && BadMedia(media[j]));
      }
    }
  }

  /** A completed media loop stores one row per dict entry, in order, each the
      row of the entry at that position. */
  lemma {:induction false} MediaRowsFollowPositions(media: seq<PyValue>, i: nat, show: PyValue -> string)
    requires i <= |media| && MediaRowsFrom(media, i, show).Done?
    ensures var rows := MediaRowsFrom(media, i, show).value;
      && |rows| == |DictPositions(media, i)|
      && forall k :: 0 <= k < |rows| ==>
        var j := DictPositions(media, i)[k];
        j < |media| && media[j].PyDict? && MediaEntry(media[j].entries, j, show) == Done(rows[k])
    decreases |media| - i
  {
    if i < |media| {
      MediaRowsFollowPositions(media, i + 1, show);
      if media[i].PyDict? {
        var rows := MediaRowsFrom(media, i, show).value;
        var rest := MediaRowsFrom(media, i + 1, show).value;
        var positions := DictPositions(media, i);
        assert positions == [i] + DictPositions(media, i + 1);
        assert rows == [rows[0]] + rest;
        forall k | 1 <= k < |rows|
          ensures rows[k] == rest[k - 1] && positions[k] == DictPositions(media, i + 1)[k - 1]
        {
        }
      }
    }
  }

  /** The media rows of an entry: its `media` value listed and walked from the start. */
  function MediaRows(item: map<string, PyValue>, show: PyValue -> string): Raised<seq<MediaRow>> {
    MediaRowsFrom(AsList(Field(item, "media")), 0, show)
  }

  /** Every stored media row is an image or a video, orders rise strictly, and
      each order is the position in the original list of a dict entry, so
      skipped entries leave gaps; every dict entry is stored. */
  lemma MediaRowsKeepPositions(media: seq<PyValue>, show: PyValue -> string)
    requires MediaRowsFrom(media, 0, show).Done?
    ensures var rows := MediaRowsFrom(media, 0, show).value;
      && (forall k :: 0 <= k < |rows| ==> rows[k].mediaType == Image || rows[k].mediaType == Video)
      && (forall k :: 0 <= k < |rows| ==> rows[k].order < |media| && media[rows[k].order].PyDict?)
      && (forall k, l :: 0 <= k < l < |rows| ==> rows[k].order < rows[l].order)
      && (forall j :: 0 <= j < |media| && media[j].PyDict? ==> exists k :: 0 <= k < |rows| && rows[k].order == j)
  {
    var rows := MediaRowsFrom(media, 0, show).value;
    var positions := DictPositions(media, 0);
    DictPositionsAreDicts(media, 0);
    MediaRowsFollowPositions(media, 0, show);
    forall k | 0 <= k < |rows|
      ensures rows[k].order == positions[k]
      ensures rows[k].mediaType == Image || rows[k].mediaType == Video
    {
      var j := positions[k];
      assert MediaEntry(media[j].entries, j, show) == Done(rows[k]);
      assert MediaType(media[j].entries).Done?;
    }
    forall j | 0 <= j < |media| && media[j].PyDict?
      ensures exists k :: 0 <= k < |rows| && rows[k].order == j
    {
      var k :| 0 <= k < |positions| && positions[k] == j;
      assert rows[k].order == j;
    }
  }

  // The import loop

  /** What one entry stores: its product row and its media rows. */
  datatype Imported = Imported(row: ProductRow, media: seq<MediaRow>)

  /** An entry whose id is already stored is skipped. */
  predicate Skipped(item: map<string, PyValue>, existing: set<PyValue>) {
    Field(item, "id") != PyNone && Field(item, "id") in existing
  }

  /** Saving one entry: the row and then its media; the media loop can raise. */
  function ImportOne(item: map<string, PyValue>, show: PyValue -> string): (r: Raised<Imported>)
    ensures r.Done? ==> r.value.row == RowOf(item, show)
    ensures r.AttributeError? <==> MediaRows(item, show).AttributeError?
  {
    match MediaRows(item, show)
    case AttributeError => AttributeError
    case Done(media) => Done(Imported(RowOf(item, show), media))
  }

  /** The entries that are dicts and are not skipped, in file order. */
  function KeptItems(items: seq<PyValue>, existing: set<PyValue>): (r: seq<map<string, PyValue>>)
    ensures forall x :: x in r <==> PyDict(x) in items && !Skipped(x, existing)
  {
    if items == [] then []
    else
      var rest := KeptItems(items[1..], existing);
      assert forall v :: v in items <==> v == items[0] || v in items[1..];
      if items[0].PyDict? && !Skipped(items[0].entries, existing) then [items[0].entries] + rest else rest
  }

  /** An entry that makes the command raise: not a dict (it has no `get`), or
      kept with a media entry whose type is not text. */
  predicate Raises(item: PyValue, existing: set<PyValue>, show: PyValue -> string) {
    !item.PyDict? || (!Skipped(item.entries, existing) && ImportOne(item.entries, show).AttributeError?)
  }

  /** `for item in custom_products`: each entry is skipped or saved, so no
      more products are saved than there are entries. */
  function ImportItems(items: seq<PyValue>, existing: set<PyValue>, show: PyValue -> string): (r: Raised<seq<Imported>>)
    ensures r.Done? ==> |r.value| <= |items|
  {
    if items == [] then Done([])
    else if !items[0].PyDict? then AttributeError
    else if Skipped(items[0].entries, existing) then ImportItems(items[1..], existing, show)
    else
      match ImportOne(items[0].entries, show)
      case AttributeError => AttributeError
      case Done(one) =>
        match ImportItems(items[1..], existing, show)
        case AttributeError => AttributeError
        case Done(saved) => Done([one] + saved)
  }

  /** The loop raises exactly when some entry raises. */
  lemma {:induction false} ImportItemsRaise(items: seq<PyValue>, existing: set<PyValue>, show: PyValue -> string)
    ensures ImportItems(items, existing, show).AttributeError? <==> exists k :: 0 <= k < |items| && Raises(items[k], existing, show)
    decreases |items|
  {
    if items != [] {
      ImportItemsRaise(items[1..], existing, show);
      if Raises(items[0], existing, show) {
        assert ImportItems(items, existing, show).AttributeError?;
      } else {
        if exists k :: 0 <= k < |items| && Raises(items[k], existing, show) {
          var k :| 0 <= k < |items| && Raises(items[k], existing, show);
          assert items[1..][k - 1] == items[k];
        }
        if exists k :: 0 <= k < |items[1..]| && Raises(items[1..][k], existing, show) {
          var k :| 0 <= k < |items[1..]| && Raises(items[1..][k], existing, show);
          assert items[1..][k] == items[k + 1];
        }
      }
    }
  }

  /** A completed loop saves one product per kept entry, in file order. */
  lemma {:induction false} ImportItemsSaveKept(items: seq<PyValue>, existing: set<PyValue>, show: PyValue -> string)
    requires ImportItems(items, existing, show).Done?
    ensures var saved := ImportItems(items, existing, show).value;
      && |saved| == |KeptItems(items, existing)|
      && forall k :: 0 <= k < |saved| ==> ImportOne(KeptItems(items, existing)[k], show) == Done(saved[k])
    decreases |items|
  {
    if items != [] {
      ImportItemsSaveKept(items[1..], existing, show);
      var saved := ImportItems(items, existing, show).value;
      var rest := ImportItems(items[1..], existing, show).value;
      var kept := KeptItems(items, existing);
      var keptRest := KeptItems(items[1..], existing);
      if !Skipped(items[0].entries, existing) {
        var one := ImportOne(items[0].entries, show);
        assert saved == [one.value] + rest;
        assert kept == [items[0].entries] + keptRest;
        forall k | 0 <= k < |saved|
          ensures ImportOne(kept[k], show) == Done(saved[k])
        {
          if k > 0 {
            assert saved[k] == rest[k - 1] && kept[k] == keptRest[k - 1];
          }
        }
      } else {
        assert saved == rest && kept == keptRest;
      }
    }
  }

  /** The number of entries skipped for their id. */
  function SkippedCount(items: seq<PyValue>, existing: set<PyValue>): nat {
    if items == [] then 0
    else (if items[0].PyDict? && Skipped(items[0].entries, existing) then 1 else 0) + SkippedCount(items[1..], existing)
  }

  /** A completed loop saves exactly the entries it does not skip. */
  lemma {:induction false} SavedAreNotSkipped(items: seq<PyValue>, existing: set<PyValue>, show: PyValue -> string)
    requires ImportItems(items, existing, show).Done?
    ensures |ImportItems(items, existing, show).value| + SkippedCount(items, existing) == |items|
    decreases |items|
  {
    if items != [] {
      assert ImportItems(items[1..], existing, show).Done?;
      SavedAreNotSkipped(items[1..], existing, show);
    }
  }

  // The command

  /** How the command ends: with the "No customProducts" warning, with the
      count of imported products, or with an uncaught `AttributeError`. */
  datatype Ending = NoCustomProducts | ImportedCount(created: nat) | Crashed

  /** The command's effect: whether it deleted the stored products, the rows
      it committed, and how it ended. The loop runs in one transaction, so a
      raise inside it commits nothing; the deletion comes before it and stays. */
  datatype Effect = Effect(cleared: bool, saved: seq<Imported>, ending: Ending)

  /** `handle` once the file is parsed into `data`; `existing` is the set of
      ids stored before the command and `clear` the `--clear` flag. */
  function Handle(data: PyValue, existing: set<PyValue>, clear: bool, show: PyValue -> string): (r: Effect)
    ensures r.ending == NoCustomProducts <==>
      data.PyDict? && (Field(data.entries, "customProducts") == PyNone || Field(data.entries, "customProducts") == PyList([]))
    ensures r.ending == NoCustomProducts || !data.PyDict? ==> !r.cleared && r.saved == []
    ensures r.cleared ==> clear
    ensures r.ending.Crashed? ==> r.saved == []
    ensures r.ending.ImportedCount? ==> r.ending.created == |r.saved|
  {
    if !data.PyDict? then Effect(false, [], Crashed)
    else
      var products := AsList(Field(data.entries, "customProducts"));
      if products == [] then Effect(false, [], NoCustomProducts)
      else
        var stored := if clear then {} else existing;
        match ImportItems(products, stored, show)
        case AttributeError => Effect(clear, [], Crashed)
        case Done(saved) => Effect(clear, saved, ImportedCount(|saved|))
  }

  /** The reported count is the number of entries whose id was not already
      stored; with `--clear` nothing is stored, so every entry is imported. */
  lemma CreatedCountsNewEntries(data: PyValue, existing: set<PyValue>, clear: bool, show: PyValue -> string)
    requires Handle(data, existing, clear, show).ending.ImportedCount?
    ensures var products := AsList(Field(data.entries, "customProducts"));
      Handle(data, existing, clear, show).ending.created
        == |products| - SkippedCount(products, if clear then {} else existing)
    ensures clear ==> Handle(data, existing, clear, show).ending.created == |AsList(Field(data.entries, "customProducts"))|
  {
    var products := AsList(Field(data.entries, "customProducts"));
    var stored := if clear then {} else existing;
    SavedAreNotSkipped(products, stored, show);
    if clear {
      NothingSkippedWhenEmpty(products);
    }
  }

  lemma {:induction false} NothingSkippedWhenEmpty(items: seq<PyValue>)
    ensures SkippedCount(items, {}) == 0
    decreases |items|
  {
    if items != [] {
      NothingSkippedWhenEmpty(items[1..]);
    }
  }
}

=== FILE: prices.dfy ===
/**
 Price strings are free text with the currency embedded ("$85", "600 جنيه").
 Totals read them with `parseFloat(text.replace(/[^0-9.]/g, "")) || 0`: every
 character other than a digit or a dot is dropped and the longest decimal prefix
 of what remains is read. Values are exact rationals here; the binary floating
 point rounding of the source is not modelled.
 */
module Prices {
  import opened Wrappers
  import opened Strings

  predicate IsPriceChar(c: char) {
    IsDigit(c) || c == '.'
  }

  /** `s.replace(/[^0-9.]/g, "")` */
  function KeepDigitsAndDots(s: string): (r: string)
    ensures |r| <= |s|
    ensures forall k :: 0 <= k < |r| ==> IsPriceChar(r[k])
    ensures forall k :: 0 <= k < |s| && IsPriceChar(s[k]) ==> s[k] in r
    ensures |s| == 1 ==> r == if IsPriceChar(s[0]) then s else []
  {
    if s == [] then []
    else (if IsPriceChar(s[0]) then [s[0]] else []) + KeepDigitsAndDots(s[1..])
  }

  /** Filtering works piece by piece, so the kept characters stay in their
      order and every repeat of a digit or dot is kept. */
  lemma {:induction false} KeepDigitsAndDotsAppend(a: string, b: string)
    ensures KeepDigitsAndDots(a + b) == KeepDigitsAndDots(a) + KeepDigitsAndDots(b)
    decreases |a|
  {
    if a == [] {
      assert a + b == b;
    } else {
      var ab := a + b;
      assert ab[0] == a[0] && ab[1..] == a[1..] + b;
      KeepDigitsAndDotsAppend(a[1..], b);
      var head := if IsPriceChar(a[0]) then [a[0]] else [];
      assert KeepDigitsAndDots(ab) == head + KeepDigitsAndDots(a[1..] + b);
      assert head + (KeepDigitsAndDots(a[1..]) + KeepDigitsAndDots(b))
        == (head + KeepDigitsAndDots(a[1..])) + KeepDigitsAndDots(b);
    }
  }

  /** Text without a digit or a dot contributes nothing to a price. */
  lemma {:induction false} KeepNoPriceChars(s: string)
    requires forall k :: 0 <= k < |s| ==> !IsPriceChar(s[k])
    ensures KeepDigitsAndDots(s) == []
  {
    if s != [] {
      assert forall k :: 0 <= k < |s[1..]| ==> s[1..][k] == s[k + 1];
      KeepNoPriceChars(s[1..]);
    }
  }

  /** `parseFloat(s.replace(/[^0-9.]/g, "")) || 0`: the numeric value of a price. */
  function PriceValue(s: string): (r: real)
    ensures r >= 0.0
  {
    var digits := KeepDigitsAndDots(s);
    DigitsParseNonNegative(digits);
    match ParseFloat(digits)
    case Some(x) => x
    case None => 0.0
  }

  /** A string of digits and dots has no sign, so it never reads as negative. */
  lemma DigitsParseNonNegative(s: string)
    requires forall k :: 0 <= k < |s| ==> IsPriceChar(s[k])
    ensures ParseFloat(s).Some? ==> ParseFloat(s).value >= 0.0
  {
    assert Run(s, IsSpace) == [] by {
      if s != [] {
        assert !IsSpace(s[0]);
      }
    }
    assert !IsNegative(SkipSpace(s));
  }

  /** The value of a plain run of decimal digits. */
  lemma PriceOfDigits(s: string)
    requires s != []
    requires forall k :: 0 <= k < |s| ==> IsDigit(s[k])
    ensures PriceValue(s) == RadixValue(s, 10) as real
  {
    KeepAllPriceChars(s);
    ParseFloatOfDigits(s);
  }

  lemma ParseFloatOfDigits(s: string)
    requires s != []
    requires forall k :: 0 <= k < |s| ==> IsDigit(s[k])
    ensures ParseFloat(s) == Some(RadixValue(s, 10) as real)
  {
    NoSpaceToSkip(s);
    NoSignOnDigit(s);
    DecimalOfDigits(s);
    ParseFloatPlain(s);
  }

  lemma NoSignOnDigit(s: string)
    requires s != [] && IsDigit(s[0])
    ensures Unsigned(s) == s && !IsNegative(s)
  {
  }

  /** Without leading space or sign, `parseFloat` reads the decimal literal. */
  lemma ParseFloatPlain(s: string)
    requires SkipSpace(s) == s && Unsigned(s) == s && !IsNegative(s)
    ensures ParseFloat(s) == UnsignedDecimal(s)
  {
  }

  lemma NoSpaceToSkip(s: string)
    requires s != [] && IsDigit(s[0])
    ensures SkipSpace(s) == s
  {
    assert !IsSpace(s[0]);
  }

  lemma KeepAllPriceChars(s: string)
    requires forall k :: 0 <= k < |s| ==> IsPriceChar(s[k])
    ensures KeepDigitsAndDots(s) == s
  {
    if s != [] {
      KeepAllPriceChars(s[1..]);
    }
  }
}

=== FILE: product_detail_page.dfy ===
/**
 The product detail page: the product named by the address, the quantity
 picker, and "Add to cart", which adds the product once per unit.

 The page's product table is data and is taken as a parameter; its records
 are typed. The confirmation alert is left out.
 */
module ProductDetailPage {
  import opened Wrappers
  import opened Js
  import opened Strings
  import Cart

  datatype DetailProduct = DetailProduct(id: int, title: string, price: string, badge: string, images: seq<string>)

  const ProductPrefix := "/product/"

  /** `path.split("/product/")[1]`: the text between the first "/product/" and
      the next one (or the end), if the path has one. */
  function IdText(path: string): (r: Option<string>)
    ensures r.None? <==> !Contains(path, ProductPrefix)
  {
    match IndexOf(path, ProductPrefix)
    case None => None
    case Some(i) =>
      var rest := path[i + |ProductPrefix|..];
      match IndexOf(rest, ProductPrefix)
      case None => Some(rest)
      case Some(j) => Some(rest[..j])
  }

  /** `parseInt(path.split("/product/")[1])`; `None` is NaN, including the
      `parseInt(undefined)` of a path without "/product/". */
  function PathId(path: string): Option<int> {
    match IdText(path)
    case None => None
    case Some(text) => ParseInt(text)
  }

  /** `products.find((p) => p.id === id)`: NaN matches nothing. */
  function FindById(products: seq<DetailProduct>, id: Option<int>): (r: Option<DetailProduct>)
    ensures r.Some? ==> id.Some? && r.value in products && r.value.id == id.value
    ensures r.None? ==> id.None? || forall p :: p in products ==> p.id != id.value
  {
    if id.None? || products == [] then None
    else if products[0].id == id.value then Some(products[0])
    else FindById(products[1..], id)
  }

  /** A path of the form "/product/<digits>" names the product with that number. */
  lemma PathOfDigits(digits: string)
    requires digits != [] && forall k :: 0 <= k < |digits| ==> IsDigit(digits[k])
    ensures PathId(ProductPrefix + digits) == Some(RadixValue(digits, 10))
  {
    var path := ProductPrefix + digits;
    assert path[0..|ProductPrefix|] == ProductPrefix;
    assert IndexOf(path, ProductPrefix) == Some(0);
    assert path[|ProductPrefix|..] == digits;
    NoPrefixInDigits(digits);
    assert IndexOf(digits, ProductPrefix).None?;
    assert IdText(path) == Some(digits);
    ParseDigits(digits);
  }

  /** Digits never contain "/product/". */
  lemma NoPrefixInDigits(digits: string)
    requires forall k :: 0 <= k < |digits| ==> IsDigit(digits[k])
    ensures !Contains(digits, ProductPrefix)
  {
    forall i | 0 <= i <= |digits| ensures !OccursAt(digits, ProductPrefix, i) {
      if i + |ProductPrefix| <= |digits| {
        assert digits[i..i + |ProductPrefix|][0] == digits[i];
        assert IsDigit(digits[i]);
      }
    }
  }

  /** `parseInt` of a run of decimal digits is its value. */
  lemma ParseDigits(digits: string)
    requires digits != [] && forall k :: 0 <= k < |digits| ==> IsDigit(digits[k])
    ensures ParseInt(digits) == Some(RadixValue(digits, 10))
  {
    DigitsAreBare(digits);
    RunOfAll(digits, IsDigit);
  }

  /** A run of digits has no leading space, no sign and no hexadecimal prefix. */
  lemma DigitsAreBare(digits: string)
    requires digits != [] && forall k :: 0 <= k < |digits| ==> IsDigit(digits[k])
    ensures SkipSpace(digits) == digits && Unsigned(digits) == digits && !IsNegative(digits)
    ensures |digits| < 2 || (digits[1] != 'x' && digits[1] != 'X')
  {
    assert !IsSpace(digits[0]);
    assert Run(digits, IsSpace) == [];
  }

  // The page state

  /** The product shown (if any), the selected picture and the quantity picker. */
  datatype DetailState = DetailState(product: Option<DetailProduct>, selectedImage: int, quantity: int)

  const InitialState := DetailState(None, 0, 1)

  /** The quantity picker never shows less than one. */
  predicate Valid(st: DetailState) {
    st.quantity >= 1
  }

  /** The effect run when the address changes: look the product up, and show
      its first picture when there is one. */
  function OnPath(st: DetailState, path: string, products: seq<DetailProduct>): (r: DetailState)
    ensures r.product == FindById(products, PathId(path))
    ensures r.product.Some? ==> r.selectedImage == 0
    ensures r.product.None? ==> r.selectedImage == st.selectedImage
    ensures r.quantity == st.quantity
  {
    var found := FindById(products, PathId(path));
    if found.Some? then DetailState(found, 0, st.quantity) else st.(product := None)
  }

  function Max(a: int, b: int): int {
    if a >= b then a else b
  }

  /** The "-" button: `Math.max(1, quantity - 1)`. */
  function Decrement(st: DetailState): (r: DetailState)
    ensures r.quantity >= 1
    ensures st.quantity > 1 ==> r.quantity == st.quantity - 1
    ensures st.quantity <= 1 ==> r.quantity == 1
  {
    st.(quantity := Max(1, st.quantity - 1))
  }

  /** The "+" button. */
  function Increment(st: DetailState): (r: DetailState)
    ensures r.quantity == st.quantity + 1
  {
    st.(quantity := st.quantity + 1)
  }

  /** Typing a quantity: `Math.max(1, parseInt(text) || 1)`. */
  function TypeQuantity(st: DetailState, text: string): (r: DetailState)
    ensures r.quantity >= 1
    ensures ParseInt(text).Some? && ParseInt(text).value >= 1 ==> r.quantity == ParseInt(text).value
    ensures ParseInt(text).None? || ParseInt(text).value < 1 ==> r.quantity == 1
  {
    var parsed := ParseInt(text);
    var n := if parsed.None? || parsed.value == 0 then 1 else parsed.value;
    st.(quantity := Max(1, n))
  }

  /** Every change the page makes keeps the quantity at one or more. */
  lemma QuantityStaysPositive(st: DetailState, path: string, products: seq<DetailProduct>, text: string)
    requires Valid(st)
    ensures Valid(OnPath(st, path, products)) && Valid(Decrement(st)) && Valid(Increment(st))
    ensures Valid(TypeQuantity(st, text))
  {
  }

  // Adding to the cart

  /** The record handed to the cart. */
  function AsValue(p: DetailProduct): Value {
    Obj(map["id" := Num(p.id), "title" := Str(p.title), "price" := Str(p.price), "badge" := Str(p.badge)])
  }

  /** `addToCart(product)` called `quantity` times. A product already in the
      cart gains `quantity` units on its line; a new one gets a line holding
      `quantity` units at the end; the count grows by `quantity`. */
  method AddRepeatedly(cart: Cart.Cart, product: Value, quantity: int) returns (r: Cart.Cart)
    requires !Nullish(product)
    ensures quantity <= 0 ==> r == cart
    ensures quantity > 0 && Cart.InCart(cart, Cart.IdOf(product)) ==> Bumped(cart, r, Cart.IdOf(product), quantity)
    ensures quantity > 0 && !Cart.InCart(cart, Cart.IdOf(product)) && !Cart.IdOf(product).NaN? ==>
      r == cart + [Cart.Line(Cart.IdOf(product), quantity, Cart.PriceOf(product))]
    ensures Cart.DistinctLines(cart) && Cart.PositiveQuantities(cart) && quantity >= 0 ==>
      Cart.DistinctLines(r) && Cart.PositiveQuantities(r) && Cart.Count(r) == Cart.Count(cart) + quantity
  {
    r := cart;
    var i := 0;
    while i < quantity
      invariant quantity <= 0 ==> i == 0
      invariant quantity > 0 ==> 0 <= i <= quantity
      invariant AddedTimes(cart, r, product, i)
    {
      AddOnceMore(cart, r, product, i);
      r := Cart.AddToCart(r, product);
      i := i + 1;
    }
  }

  /** `r` is `cart` after `i` adds of `product`: unchanged when `i` is zero,
      its lines bumped when the product was there, one new line at the end
      otherwise, and a well-formed cart stays well formed with `i` more units. */
  predicate AddedTimes(cart: Cart.Cart, r: Cart.Cart, product: Value, i: int)
    requires !Nullish(product)
  {
    var id := Cart.IdOf(product);
    && i >= 0
    && (i == 0 ==> r == cart)
    && (Cart.InCart(cart, id) && i > 0 ==> Bumped(cart, r, id, i))
    && (!Cart.InCart(cart, id) && !id.NaN? && i > 0 ==> r == cart + [Cart.Line(id, i, Cart.PriceOf(product))])
    && (Cart.DistinctLines(cart) && Cart.PositiveQuantities(cart) ==>
          Cart.DistinctLines(r) && Cart.PositiveQuantities(r) && Cart.Count(r) == Cart.Count(cart) + i)
  }

  /** One more add keeps the description true for one more unit. */
  lemma AddOnceMore(cart: Cart.Cart, r: Cart.Cart, product: Value, i: int)
    requires !Nullish(product) && AddedTimes(cart, r, product, i)
    ensures AddedTimes(cart, Cart.AddToCart(r, product), product, i + 1)
  {
    var id := Cart.IdOf(product);
    if Cart.DistinctLines(cart) && Cart.PositiveQuantities(cart) {
      Cart.AddKeepsCartWellFormed(r, product);
      Cart.AddCountsOneMore(r, product);
    }
    if Cart.InCart(cart, id) {
      BumpAgain(cart, r, product, i);
    } else if !id.NaN? {
      AppendAgain(cart, r, product, i);
    }
  }

  /** `r` is `cart` with `n` more units on the lines carrying `id`. */
  predicate Bumped(cart: Cart.Cart, r: Cart.Cart, id: Value, n: int) {
    |r| == |cart| && forall k :: 0 <= k < |cart| ==>
      (Cart.HasId(cart[k], id) ==> r[k] == cart[k].(quantity := cart[k].quantity + n))
      && (!Cart.HasId(cart[k], id) ==> r[k] == cart[k])
  }

  /** One more add to a cart that already held the product bumps the same lines again. */
  lemma BumpAgain(cart: Cart.Cart, r: Cart.Cart, product: Value, i: int)
    requires !Nullish(product) && Cart.InCart(cart, Cart.IdOf(product))
    requires i >= 0 && (i == 0 ==> r == cart)
    requires i > 0 ==> Bumped(cart, r, Cart.IdOf(product), i)
    ensures Bumped(cart, Cart.AddToCart(r, product), Cart.IdOf(product), i + 1)
  {
    var id := Cart.IdOf(product);
    var k :| 0 <= k < |cart| && Cart.HasId(cart[k], id);
    assert Cart.HasId(r[k], id);
  }

  /** After the first add of a new product, each further add bumps its new last line. */
  lemma AppendAgain(cart: Cart.Cart, r: Cart.Cart, product: Value, i: int)
    requires !Nullish(product) && !Cart.InCart(cart, Cart.IdOf(product)) && !Cart.IdOf(product).NaN?
    requires i >= 0 && (i == 0 ==> r == cart)
    requires i > 0 ==> r == cart + [Cart.Line(Cart.IdOf(product), i, Cart.PriceOf(product))]
    ensures Cart.AddToCart(r, product) == cart + [Cart.Line(Cart.IdOf(product), i + 1, Cart.PriceOf(product))]
  {
    var id := Cart.IdOf(product);
    if i > 0 {
      assert Cart.HasId(r[|cart|], id);
      assert Cart.InCart(r, id);
    }
  }

  /** `handleAddToCart`: nothing without a product; otherwise the product is
      added once per unit of the picker. */
  method HandleAddToCart(st: DetailState, cart: Cart.Cart) returns (r: Cart.Cart)
    requires Valid(st)
    ensures st.product.None? ==> r == cart
    ensures st.product.Some? && !Cart.InCart(cart, Num(st.product.value.id)) ==>
      r == cart + [Cart.Line(Num(st.product.value.id), st.quantity, Cart.PriceOf(AsValue(st.product.value)))]
    ensures st.product.Some? && Cart.DistinctLines(cart) && Cart.PositiveQuantities(cart) ==>
      Cart.DistinctLines(r) && Cart.Count(r) == Cart.Count(cart) + st.quantity
  {
    if st.product.None? {
      return cart;
    }
    var product := AsValue(st.product.value);
    assert Cart.IdOf(product) == Num(st.product.value.id);
    r := AddRepeatedly(cart, product, st.quantity);
  }
}

=== FILE: product_media.dfy ===
/**
 Media handling for product records: recognising Google Drive links, rewriting
 them to URLs a browser can display, building the ordered media list of a
 product from its `media`, `images` or `image` field, and classifying video URLs.

 The regular expressions of the source are modelled as searches for the
 leftmost position where the pattern matches, with the greedy captures they
 make.
 */
module ProductMedia {
  import opened Js
  import opened Wrappers
  import opened Strings

  datatype MediaKind = Image | Video

  /** One displayable item; the source's `{type: "image" | "video", url}`. */
  datatype Media = Media(kind: MediaKind, url: string)

  /** The character class `[a-zA-Z0-9_-]` of a Drive file id. */
  predicate IsIdChar(c: char) {
    'a' <= c <= 'z' || 'A' <= c <= 'Z' || IsDigit(c) || c == '_' || c == '-'
  }

  predicate IsDriveId(id: string) {
    id != [] && forall k :: 0 <= k < |id| ==> IsIdChar(id[k])
  }

  const DriveHost := "drive.google.com/"
  const FileMarker := DriveHost + "file/d/"
  const OpenMarker := DriveHost + "open?id="
  const UcMarker := DriveHost + "uc?"
  const ThumbnailMarker := DriveHost + "thumbnail?id="
  const IdParam := "id="

  /** The regular expressions of this module, by what they look for. */
  datatype Pattern =
    | DriveMarker(marker: string)  // `marker([a-zA-Z0-9_-]+)`
    | DriveUc                      // `drive.google.com/uc?[^&]*id=([a-zA-Z0-9_-]+)`
    | YouTubeLink                  // `(?:youtube.com/watch?v=|youtu.be/)([^&\s?]+)`
    | VimeoLink                    // `vimeo.com/(?:video/)?(\d+)`

  /** The capture of `pattern` for a match starting at position `i` of `u`. */
  function MatchAt(pattern: Pattern, u: string, i: nat): Option<string> {
    match pattern
    case DriveMarker(marker) => MarkerMatch(u, marker, i)
    case DriveUc => UcMatch(u, i)
    case YouTubeLink => YouTubeMatch(u, i)
    case VimeoLink => VimeoMatch(u, i)
  }

  /** The capture at the first position at or after `from` where `pattern`
      matches: how a regular expression search reports its leftmost match. */
  function Search(pattern: Pattern, u: string, from: nat): Option<string>
    decreases |u| + 1 - from
  {
    if from > |u| then None
    else if MatchAt(pattern, u, from).Some? then MatchAt(pattern, u, from)
    else Search(pattern, u, from + 1)
  }

  /** A search reports a capture made at some position at or after `from`, and
      nothing only when no such position matches. */
  lemma {:induction false} SearchSound(pattern: Pattern, u: string, from: nat)
    ensures Search(pattern, u, from).Some? ==>
      exists i :: from <= i <= |u| && MatchAt(pattern, u, i) == Search(pattern, u, from)
    ensures Search(pattern, u, from).None? ==> forall i :: from <= i <= |u| ==> MatchAt(pattern, u, i).None?
    decreases |u| + 1 - from
  {
    if from <= |u| && MatchAt(pattern, u, from).None? {
      SearchSound(pattern, u, from + 1);
    }
  }

  /** The maximal run of id characters starting at `at`. */
  function IdAt(u: string, at: nat): (id: string)
    requires at <= |u|
    ensures id == [] || IsDriveId(id)
  {
    Run(u[at..], IsIdChar)
  }

  /** The capture of `marker([a-zA-Z0-9_-]+)` for a match starting at `i`. */
  function MarkerMatch(u: string, marker: string, i: nat): (r: Option<string>)
    ensures r.Some? ==> IsDriveId(r.value) && OccursAt(u, marker, i)
  {
    if OccursAt(u, marker, i) && IdAt(u, i + |marker|) != [] then Some(IdAt(u, i + |marker|)) else None
  }

  /** The capture of `drive.google.com/uc?[^&]*id=([a-zA-Z0-9_-]+)` for a match
      starting at `i`: the greedy `[^&]*` backs off from the first `&`, so the
      last `id=` before it wins. */
  function UcMatch(u: string, i: nat): (r: Option<string>)
    ensures r.Some? ==> IsDriveId(r.value) && OccursAt(u, UcMarker, i)
  {
    if !OccursAt(u, UcMarker, i) then None
    else
      var start := i + |UcMarker|;
      var stop := match IndexOfFrom(u, "&", start) case Some(a) => a case None => |u|;
      LastIdParam(u, start, stop)
  }

  /** The capture after the last `id=` at a position in `lo..j`. */
  function LastIdParam(u: string, lo: nat, j: int): (r: Option<string>)
    ensures r.Some? ==> IsDriveId(r.value)
    decreases j - lo + 1
  {
    if j < lo then None
    else if OccursAt(u, IdParam, j) && IdAt(u, j + |IdParam|) != [] then Some(IdAt(u, j + |IdParam|))
    else LastIdParam(u, lo, j - 1)
  }

  /** `extractGoogleDriveFileId(url)`: the four Drive link shapes, tried in order. */
  function ExtractDriveId(url: Value): (r: Option<string>)
    ensures !url.Str? ==> r.None?
    ensures r.Some? ==> IsDriveId(r.value)
  {
    if !Truthy(url) || !url.Str? then None
    else
      DriveIdOf(Trim(url.s))
  }

  /** The id of a trimmed link: the first of the four shapes that matches. */
  function DriveIdOf(u: string): (r: Option<string>)
    ensures r.Some? ==> IsDriveId(r.value)
  {
    SearchSound(DriveMarker(FileMarker), u, 0);
    SearchSound(DriveMarker(OpenMarker), u, 0);
    SearchSound(DriveUc, u, 0);
    SearchSound(DriveMarker(ThumbnailMarker), u, 0);
    var file := Search(DriveMarker(FileMarker), u, 0);
    if file.Some? then file
    else
      var open := Search(DriveMarker(OpenMarker), u, 0);
      if open.Some? then open
      else
        var uc := Search(DriveUc, u, 0);
        if uc.Some? then uc else Search(DriveMarker(ThumbnailMarker), u, 0)
  }

  /** Only a link through the Drive host yields a file id. */
  lemma DriveIdNeedsHost(url: Value)
    requires ExtractDriveId(url).Some?
    ensures url.Str? && Contains(Trim(url.s), DriveHost)
  {
    DriveIdOfHasHost(Trim(url.s));
  }

  lemma HostStartsEveryMarker(u: string, i: int)
    requires OccursAt(u, FileMarker, i) || OccursAt(u, OpenMarker, i) || OccursAt(u, UcMarker, i) || OccursAt(u, ThumbnailMarker, i)
    ensures Contains(u, DriveHost)
  {
    if OccursAt(u, FileMarker, i) {
      OccursAtPrefix(u, FileMarker, DriveHost, i);
    } else if OccursAt(u, OpenMarker, i) {
      OccursAtPrefix(u, OpenMarker, DriveHost, i);
    } else if OccursAt(u, UcMarker, i) {
      OccursAtPrefix(u, UcMarker, DriveHost, i);
    } else {
      OccursAtPrefix(u, ThumbnailMarker, DriveHost, i);
    }
  }

  /** An occurrence of a pattern is also an occurrence of each of its prefixes. */
  lemma OccursAtPrefix(u: string, m: string, p: string, i: int)
    requires OccursAt(u, m, i) && p <= m
    ensures OccursAt(u, p, i)
  {
    assert u[i..i + |p|] == u[i..i + |m|][..|p|];
  }

  /** `isGoogleDriveUrl(url)`: the truthiness of the extracted id. Ids are
      never empty, so this holds exactly when an id is found, and then the
      link mentions the Drive host. */
  function IsGoogleDriveUrl(url: Value): (r: bool)
    ensures r <==> ExtractDriveId(url).Some?
    ensures r ==> url.Str? && Contains(Trim(url.s), DriveHost)
  {
    match ExtractDriveId(url)
    case None => false
    case Some(id) =>
      DriveIdNeedsHost(url);
      Truthy(Str(id))
  }

  const DrivePrefix := "https://" + DriveHost

  /** The link a video id is displayed with. */
  function ViewUrl(id: string): string {
    DrivePrefix + ("file/d/" + id + "/view")
  }

  /** The link an image id is displayed with. */
  function ThumbnailUrl(id: string): string {
    DrivePrefix + ("thumbnail?id=" + id + "&sz=w1200")
  }

  /** The link a Drive video is embedded with. */
  function PreviewUrl(id: string): string {
    DrivePrefix + ("file/d/" + id + "/preview")
  }

  /** `toDisplayableDriveUrl(url, type)` */
  function ToDisplayableDriveUrl(url: string, kind: MediaKind): (r: string)
    ensures !IsGoogleDriveUrl(Str(url)) ==> r == url
    ensures IsGoogleDriveUrl(Str(url)) && kind == Video ==> r == ViewUrl(ExtractDriveId(Str(url)).value)
    ensures IsGoogleDriveUrl(Str(url)) && kind == Image ==> r == ThumbnailUrl(ExtractDriveId(Str(url)).value)
    ensures url != "" ==> r != ""
  {
    match ExtractDriveId(Str(url))
    case None => url
    case Some(id) => if kind == Video then ViewUrl(id) else ThumbnailUrl(id)
  }

  /** The displayable rewrite is idempotent: a Drive link, once rewritten, is
      a Drive link for the same file and rewrites to itself. */
  lemma DisplayableIsIdempotent(url: string, kind: MediaKind)
    ensures ToDisplayableDriveUrl(ToDisplayableDriveUrl(url, kind), kind) == ToDisplayableDriveUrl(url, kind)
  {
    match ExtractDriveId(Str(url))
    case None =>
    case Some(id) =>
      if kind == Video {
        ViewUrlRoundTrip(id);
      } else {
        ThumbnailUrlRoundTrip(id);
      }
  }

  /** The video link of a file id names that file. */
  lemma ViewUrlRoundTrip(id: string)
    requires IsDriveId(id)
    ensures ExtractDriveId(Str(ViewUrl(id))) == Some(id)
  {
    var rest := "file/d/" + id + "/view";
    var u := ViewUrl(id);
    NoDotInId(id);
    assert '.' !in rest;
    StripUnchanged(u, IsSpace);
    forall i | 0 <= i <= |u| && OccursAt(u, FileMarker, i) ensures i == 8 {
      MarkerOnlyAtHost(rest, FileMarker, i);
    }
    ViewUrlMatch(id);
    SearchFindsFirst(DriveMarker(FileMarker), u, 0, 8);
    FileLinkWins(u);
    ExtractOfText(u);
  }

  lemma ViewUrlMatch(id: string)
    requires IsDriveId(id)
    ensures MarkerMatch(ViewUrl(id), FileMarker, 8) == Some(id)
  {
    ConcatShape("https://", DriveHost, "file/d/", id, "/view");
    MatchAfterPrefix("https://", FileMarker, id, "/view");
  }

  /** Regrouping the pieces of a Drive link around its marker. */
  lemma ConcatShape(scheme: string, host: string, path: string, id: string, tail: string)
    ensures (scheme + host) + (path + id + tail) == scheme + (host + path) + id + tail
  {
  }

  /** A marker followed by an id and a character outside the id class captures that id. */
  lemma MatchAfterPrefix(pre: string, m: string, id: string, tail: string)
    requires IsDriveId(id) && tail != [] && !IsIdChar(tail[0])
    ensures MarkerMatch(pre + m + id + tail, m, |pre|) == Some(id)
  {
    var u := pre + m + id + tail;
    assert u[|pre|..|pre| + |m|] == m;
    assert u[|pre| + |m|..] == id + tail;
    RunStops(id, tail, IsIdChar);
  }

  /** A link with a `file/d/` match reads its id from there. */
  lemma FileLinkWins(u: string)
    requires Search(DriveMarker(FileMarker), u, 0).Some?
    ensures DriveIdOf(u) == Search(DriveMarker(FileMarker), u, 0)
  {
  }

  lemma ExtractOfText(u: string)
    requires u != []
    ensures ExtractDriveId(Str(u)) == DriveIdOf(Trim(u))
  {
  }

  /** The image link of a file id names that file. */
  lemma ThumbnailUrlRoundTrip(id: string)
    requires IsDriveId(id)
    ensures ExtractDriveId(Str(ThumbnailUrl(id))) == Some(id)
  {
    var u := ThumbnailUrl(id);
    StripUnchanged(u, IsSpace);
    ThumbnailHasNoOtherShape(id);
    ThumbnailUrlMatch(id);
    ThumbnailMarkerOnlyAtHost(id);
    SearchFindsFirst(DriveMarker(ThumbnailMarker), u, 0, 8);
    ThumbnailLinkLast(u);
    ExtractOfText(u);
  }

  lemma ThumbnailUrlMatch(id: string)
    requires IsDriveId(id)
    ensures MarkerMatch(ThumbnailUrl(id), ThumbnailMarker, 8) == Some(id)
  {
    ConcatShape("https://", DriveHost, "thumbnail?id=", id, "&sz=w1200");
    MatchAfterPrefix("https://", ThumbnailMarker, id, "&sz=w1200");
  }

  lemma ThumbnailMarkerOnlyAtHost(id: string)
    requires IsDriveId(id)
    ensures forall i :: 0 <= i < 8 ==> !OccursAt(ThumbnailUrl(id), ThumbnailMarker, i)
  {
    NoDotInId(id);
    forall i | 0 <= i < 8 && OccursAt(ThumbnailUrl(id), ThumbnailMarker, i) ensures false {
      MarkerOnlyAtHost("thumbnail?id=" + id + "&sz=w1200", ThumbnailMarker, i);
    }
  }

  /** The image link has none of the first three shapes. */
  lemma ThumbnailHasNoOtherShape(id: string)
    requires IsDriveId(id)
    ensures Search(DriveMarker(FileMarker), ThumbnailUrl(id), 0).None?
    ensures Search(DriveMarker(OpenMarker), ThumbnailUrl(id), 0).None?
    ensures Search(DriveUc, ThumbnailUrl(id), 0).None?
  {
    var rest := "thumbnail?id=" + id + "&sz=w1200";
    var u := ThumbnailUrl(id);
    NoDotInId(id);
    assert u[25] == 't';
    NotAtHost(u, FileMarker);
    NotAtHost(u, OpenMarker);
    NotAtHost(u, UcMarker);
    MarkerNowhere(rest, FileMarker);
    MarkerNowhere(rest, OpenMarker);
    MarkerNowhere(rest, UcMarker);
    SearchSound(DriveMarker(FileMarker), u, 0);
    SearchSound(DriveMarker(OpenMarker), u, 0);
    SearchSound(DriveUc, u, 0);
  }

  /** A marker whose character after the host differs from the link's does not occur at the host. */
  lemma NotAtHost(u: string, m: string)
    requires |u| > 25 && |m| > 17 && u[25] != m[17]
    ensures !OccursAt(u, m, 8)
  {
    if 8 + |m| <= |u| {
      assert u[8..8 + |m|][17] == u[25];
    }
  }

  /** In a canonical Drive link, a marker absent at the host is absent everywhere. */
  lemma MarkerNowhere(rest: string, m: string)
    requires '.' !in rest && DriveHost <= m
    requires !OccursAt(DrivePrefix + rest, m, 8)
    ensures forall i :: !OccursAt(DrivePrefix + rest, m, i)
  {
    forall i | OccursAt(DrivePrefix + rest, m, i) ensures false {
      MarkerOnlyAtHost(rest, m, i);
    }
  }

  /** A link with none of the first three shapes reads its id from the thumbnail shape. */
  lemma ThumbnailLinkLast(u: string)
    requires Search(DriveMarker(FileMarker), u, 0).None?
    requires Search(DriveMarker(OpenMarker), u, 0).None?
    requires Search(DriveUc, u, 0).None?
    ensures DriveIdOf(u) == Search(DriveMarker(ThumbnailMarker), u, 0)
  {
  }

  lemma NoDotInId(id: string)
    requires IsDriveId(id)
    ensures '.' !in id
  {
  }

  /** In a canonical Drive link the only dots are the two of the host name. */
  lemma DotsOfDriveUrl(rest: string, i: int)
    requires '.' !in rest
    requires 0 <= i < |DrivePrefix + rest| && (DrivePrefix + rest)[i] == '.'
    ensures i == 13 || i == 20
  {
  }

  /** A pattern with a dot at offset `d` can only occur where that dot lands
      on one of the host name's dots. */
  lemma DotPinsOccurrence(rest: string, m: string, d: nat, i: int)
    requires '.' !in rest && d < |m| && m[d] == '.'
    requires OccursAt(DrivePrefix + rest, m, i)
    ensures i + d == 13 || i + d == 20
    ensures (DrivePrefix + rest)[i] == m[0]
  {
    var u := DrivePrefix + rest;
    assert u[i..i + |m|][d] == m[d];
    DotsOfDriveUrl(rest, i + d);
    assert u[i..i + |m|][0] == m[0];
  }

  /** In a canonical Drive link the Drive markers can only start at the host. */
  lemma MarkerOnlyAtHost(rest: string, m: string, i: int)
    requires '.' !in rest && DriveHost <= m
    requires OccursAt(DrivePrefix + rest, m, i)
    ensures i == 8
  {
    OccursAtPrefix(DrivePrefix + rest, m, DriveHost, i);
    DotPinsOccurrence(rest, DriveHost, 5, i);
  }

  /** The run of `p` characters stops where the first character outside `p` sits. */
  lemma RunStops(s: string, tail: string, p: char -> bool)
    requires forall k :: 0 <= k < |s| ==> p(s[k])
    requires tail != [] && !p(tail[0])
    ensures Run(s + tail, p) == s
  {
    if s != [] {
      assert (s + tail)[1..] == s[1..] + tail;
      RunStops(s[1..], tail, p);
    }
  }

  /** A search finds the first position where the pattern matches. */
  lemma {:induction false} SearchFindsFirst(pattern: Pattern, u: string, from: nat, i: nat)
    requires from <= i <= |u| && MatchAt(pattern, u, i).Some?
    requires forall j :: from <= j < i ==> MatchAt(pattern, u, j).None?
    ensures Search(pattern, u, from) == MatchAt(pattern, u, i)
    decreases i - from
  {
    if from < i {
      SearchFindsFirst(pattern, u, from + 1, i);
    }
  }

  /** A link too short to hold the Drive host names no Drive file. */
  lemma ShortTextHasNoDriveId(u: string)
    requires |u| < |DriveHost|
    ensures DriveIdOf(u).None?
  {
    DriveIdOfHasHost(u);
    assert !Contains(u, DriveHost);
  }

  /** A trimmed link with a file id holds the Drive host. */
  lemma DriveIdOfHasHost(u: string)
    ensures DriveIdOf(u).Some? ==> Contains(u, DriveHost)
  {
    if DriveIdOf(u).Some? {
      SearchSound(DriveMarker(FileMarker), u, 0);
      SearchSound(DriveMarker(OpenMarker), u, 0);
      SearchSound(DriveUc, u, 0);
      SearchSound(DriveMarker(ThumbnailMarker), u, 0);
      var i :| 0 <= i <= |u| && (OccursAt(u, FileMarker, i) || OccursAt(u, OpenMarker, i)
                                  || OccursAt(u, UcMarker, i) || OccursAt(u, ThumbnailMarker, i));
      HostStartsEveryMarker(u, i);
    }
  }

  /** A short plain link is displayed as it is. */
  lemma PlainUrlIsKept(url: string, kind: MediaKind)
    requires url != [] && |url| < |DriveHost|
    requires !IsSpace(url[0]) && !IsSpace(url[|url| - 1])
    ensures ToDisplayableDriveUrl(url, kind) == url
  {
    StripUnchanged(url, IsSpace);
    ShortTextHasNoDriveId(url);
    ExtractOfText(url);
  }

  /** A media entry's kind: anything other than "video" reads as an image. */
  function EntryKind(m: Value): MediaKind {
    if Get(m, "type") == Str("video") then Video else Image
  }

  /** A media entry's url: a url that is not a string reads as "". */
  function EntryUrl(m: Value): string {
    var u := Get(m, "url");
    if u.Str? then u.s else ""
  }

  /** The displayable items of a `media` array, entries without a url dropped. */
  function FromMediaEntries(entries: seq<Value>): (r: seq<Media>)
    ensures |r| <= |entries|
    ensures forall k :: 0 <= k < |r| ==> r[k].url != ""
  {
    if entries == [] then []
    else
      var m := entries[0];
      var url := EntryUrl(m);
      var kind := EntryKind(m);
      (if url != "" then [Media(kind, ToDisplayableDriveUrl(url, kind))] else []) + FromMediaEntries(entries[1..])
  }

  /** The displayable items of an `images` list, non-strings and "" dropped. */
  function FromImageUrls(urls: seq<Value>): (r: seq<Media>)
    ensures |r| <= |urls|
    ensures forall k :: 0 <= k < |r| ==> r[k].kind == Image && r[k].url != ""
  {
    if urls == [] then []
    else
      var u := urls[0];
      (if u.Str? && u.s != "" then [Media(Image, ToDisplayableDriveUrl(u.s, Image))] else []) + FromImageUrls(urls[1..])
  }

  /** `v?.length` on a value that is not null or undefined. */
  function LengthOf(v: Value): Value {
    match v
    case Arr(items) => Num(|items|)
    case Str(s) => Num(|s|)
    case Obj(_) => Get(v, "length")
    case _ => Undefined
  }

  /** Whether the product's `media` field is a non-empty array, the shape that wins. */
  predicate HasMediaList(product: Value) {
    var media := Get(product, "media");
    media.Arr? && |media.items| > 0
  }

  /** `getProductMedia(product)`: a non-empty `media` array wins, then `images`
      (when its length is truthy), then the single `image`. Reading `type` of a
      null entry, or calling `filter` on an `images` value that has a length but
      is not an array, throws. */
  function GetProductMedia(product: Value): (r: Outcome<seq<Media>>)
    ensures !Truthy(product) ==> r == Ok([])
    ensures r.Ok? ==> forall k :: 0 <= k < |r.value| ==> r.value[k].url != ""
    ensures Truthy(product) && HasMediaList(product) ==>
      (r.TypeError? <==> HasNullish(Get(product, "media").items))
    ensures r.Ok? && Truthy(product) && !HasMediaList(product) ==>
      forall k :: 0 <= k < |r.value| ==> r.value[k].kind == Image
  {
    if !Truthy(product) then Ok([])
    else
      var media := Get(product, "media");
      if media.Arr? && |media.items| > 0 then
        if HasNullish(media.items) then TypeError
        else Ok(FromMediaEntries(media.items))
      else
        var images := Get(product, "images");
        var length := if Nullish(images) then Undefined else LengthOf(images);
        if Truthy(length) then
          if images.Arr? then Ok(FromImageUrls(images.items)) else TypeError
        else
          var image := Get(product, "image");
          Ok(FromImageUrls(if Truthy(image) then [image] else []))
  }

  /** Without a media list, a product with a non-empty image list shows those images. */
  lemma ImagesShownWithoutMedia(product: Value, urls: seq<Value>)
    requires product.Obj? && !HasMediaList(product)
    requires Get(product, "images") == Arr(urls) && urls != []
    ensures GetProductMedia(product) == Ok(FromImageUrls(urls))
  {
  }

  /** A product with a non-empty media list shows that list. */
  lemma MediaListShown(product: Value, entries: seq<Value>)
    requires product.Obj? && Get(product, "media") == Arr(entries)
    requires entries != [] && !HasNullish(entries)
    ensures GetProductMedia(product) == Ok(FromMediaEntries(entries))
  {
  }

  /** A product with no media, no image list and an empty cover shows nothing. */
  lemma NothingShown(product: Value)
    requires product.Obj? && Get(product, "media") == Arr([])
    requires Get(product, "images") == Arr([]) && Get(product, "image") == Str("")
    ensures GetProductMedia(product) == Ok([])
  {
  }

  /** A well-formed entry: an object whose type is "image" or "video" and
      whose url is a non-empty string that is not a Drive link. */
  predicate PlainEntry(m: Value) {
    && m.Obj?
    && (Get(m, "type") == Str("image") || Get(m, "type") == Str("video"))
    && Get(m, "url").Str? && Get(m, "url").s != ""
    && !IsGoogleDriveUrl(Get(m, "url"))
  }

  /** How a well-formed entry reads: its own kind and url. */
  function Reading(m: Value): Media {
    Media(EntryKind(m), EntryUrl(m))
  }

  /** Well-formed entries are read back one for one, in order, with their own
      type and url. */
  lemma {:induction false} PlainEntriesReadBack(entries: seq<Value>)
    requires forall k :: 0 <= k < |entries| ==> PlainEntry(entries[k])
    ensures |FromMediaEntries(entries)| == |entries|
    ensures forall k :: 0 <= k < |entries| ==> FromMediaEntries(entries)[k] == Reading(entries[k])
  {
    if entries != [] {
      PlainEntryItem(entries[0]);
      PlainEntriesReadBack(entries[1..]);
      assert FromMediaEntries(entries) == [Reading(entries[0])] + FromMediaEntries(entries[1..]);
    }
  }

  /** Read back from well-formed entries, each item keeps its entry's url and is
      an image exactly when the entry's type says "image". */
  lemma PlainEntriesKeepUrls(entries: seq<Value>)
    requires forall k :: 0 <= k < |entries| ==> PlainEntry(entries[k])
    ensures |FromMediaEntries(entries)| == |entries|
    ensures forall k :: 0 <= k < |entries| ==>
      Get(entries[k], "url") == Str(FromMediaEntries(entries)[k].url) && FromMediaEntries(entries)[k].url != ""
    ensures forall k :: 0 <= k < |entries| ==>
      (FromMediaEntries(entries)[k].kind == Image <==> Get(entries[k], "type") == Str("image"))
  {
    PlainEntriesReadBack(entries);
  }

  lemma PlainEntryItem(m: Value)
    requires PlainEntry(m)
    ensures EntryUrl(m) != ""
    ensures ToDisplayableDriveUrl(EntryUrl(m), EntryKind(m)) == EntryUrl(m)
  {
  }

  function FirstImageIndex(ms: seq<Media>): (r: Option<nat>)
    ensures r.Some? ==> r.value < |ms| && ms[r.value].kind == Image
    ensures r.Some? ==> forall j :: 0 <= j < r.value ==> ms[j].kind != Image
    ensures r.None? ==> forall j :: 0 <= j < |ms| ==> ms[j].kind != Image
  {
    if ms == [] then None
    else if ms[0].kind == Image then Some(0)
    else match FirstImageIndex(ms[1..])
      case None => None
      case Some(k) => Some(k + 1)
  }

  /** The first image's url, else the first item's url, else "". */
  function FirstImageUrl(ms: seq<Media>): (r: string)
    ensures (exists k :: 0 <= k < |ms| && ms[k].kind == Image) ==>
      exists k :: 0 <= k < |ms| && ms[k].kind == Image && r == ms[k].url
        && forall j :: 0 <= j < k ==> ms[j].kind != Image
    ensures (forall k :: 0 <= k < |ms| ==> ms[k].kind != Image) && ms != [] ==> r == ms[0].url
    ensures ms == [] ==> r == ""
  {
    match FirstImageIndex(ms)
    case Some(k) => ms[k].url
    case None => if ms != [] then ms[0].url else ""
  }

  /** `getProductFirstImageUrl(product)`: the url of the first displayed image,
      else of the first displayed item, else "". */
  function GetProductFirstImageUrl(product: Value): (r: Outcome<string>)
    ensures r.TypeError? <==> GetProductMedia(product).TypeError?
    ensures r.Ok? ==> var ms := GetProductMedia(product).value;
      forall k :: 0 <= k < |ms| && ms[k].kind == Image && (forall j :: 0 <= j < k ==> ms[j].kind != Image) ==>
        r.value == ms[k].url
    ensures r.Ok? ==> var ms := GetProductMedia(product).value;
      (forall k :: 0 <= k < |ms| ==> ms[k].kind != Image) && ms != [] ==> r.value == ms[0].url
    ensures r.Ok? && r.value == "" <==> r.Ok? && GetProductMedia(product).value == []
  {
    FirstImageIsUnique(GetProductMedia(product));
    match GetProductMedia(product)
    case TypeError => TypeError
    case Ok(ms) => Ok(FirstImageUrl(ms))
  }

  /** The first image's url is the url at the first image position. */
  lemma FirstImageUrlAt(ms: seq<Media>, k: nat)
    requires k < |ms| && ms[k].kind == Image && forall j :: 0 <= j < k ==> ms[j].kind != Image
    ensures FirstImageUrl(ms) == ms[k].url
  {
    var i := FirstImageIndex(ms).value;
    assert !(i < k) && !(k < i);
  }

  /** Only one position holds the first image. */
  lemma FirstImageIsUnique(media: Outcome<seq<Media>>)
    ensures media.Ok? ==> var ms := media.value;
      forall k :: 0 <= k < |ms| && ms[k].kind == Image && (forall j :: 0 <= j < k ==> ms[j].kind != Image) ==>
        FirstImageUrl(ms) == ms[k].url
  {
    if media.Ok? {
      var ms := media.value;
      forall k | 0 <= k < |ms| && ms[k].kind == Image && (forall j :: 0 <= j < k ==> ms[j].kind != Image)
        ensures FirstImageUrl(ms) == ms[k].url
      {
        var i := FirstImageIndex(ms).value;
        assert !(i < k) && !(k < i);
      }
    }
  }

  // Video URLs

  const VideoExtensions := ["mp4", "webm", "ogg"]

  /** `.ext` at `i`, letters in any case, followed by `?` or the end of the text. */
  predicate ExtensionAt(s: string, i: int, ext: string) {
    && 0 <= i && i + 1 + |ext| <= |s|
    && s[i] == '.'
    && Lower(s[i + 1..i + 1 + |ext|]) == ext
    && (i + 1 + |ext| == |s| || s[i + 1 + |ext|] == '?')
  }

  /** What `/\.(mp4|webm|ogg)(\?|$)/i` finds somewhere in `s`. */
  predicate HasVideoExtension(s: string) {
    exists i :: 0 <= i < |s| && (ExtensionAt(s, i, "mp4") || ExtensionAt(s, i, "webm") || ExtensionAt(s, i, "ogg"))
  }

  function ScanVideoExtension(s: string, from: nat): (r: bool)
    ensures r <==>
      (exists i :: from <= i < |s| && (ExtensionAt(s, i, "mp4") || ExtensionAt(s, i, "webm") || ExtensionAt(s, i, "ogg")))
    decreases |s| - from
  {
    if from >= |s| then false
    else if ExtensionAt(s, from, "mp4") || ExtensionAt(s, from, "webm") || ExtensionAt(s, from, "ogg") then true
    else ScanVideoExtension(s, from + 1)
  }

  /** `isDirectVideoUrl(url)`: a file extension a `<video>` tag plays, or an inline video data URL. */
  function IsDirectVideoUrl(url: Value): (r: bool)
    ensures r <==> url.Str? && url.s != "" && (HasVideoExtension(url.s) || "data:video/" <= url.s)
  {
    if !Truthy(url) || !url.Str? then false
    else ScanVideoExtension(url.s, 0) || "data:video/" <= url.s
  }

  const YouTubeWatch := "youtube.com/watch?v="
  const YouTubeShort := "youtu.be/"
  const VimeoHost := "vimeo.com/"
  const VimeoVideo := "video/"

  /** The class `[^&\s?]` of a YouTube video id. */
  predicate IsYouTubeIdChar(c: char) {
    c != '&' && c != '?' && !IsSpace(c)
  }

  function RunAt(u: string, at: nat, p: char -> bool): string
    requires at <= |u|
  {
    Run(u[at..], p)
  }

  /** The capture of `(?:youtube\.com\/watch\?v=|youtu\.be\/)([^&\s?]+)` at `i`. */
  function YouTubeMatch(u: string, i: nat): (r: Option<string>)
    ensures r.Some? ==> r.value != []
    ensures r.Some? ==> OccursAt(u, YouTubeWatch, i) || OccursAt(u, YouTubeShort, i)
  {
    if OccursAt(u, YouTubeWatch, i) && RunAt(u, i + |YouTubeWatch|, IsYouTubeIdChar) != [] then
      Some(RunAt(u, i + |YouTubeWatch|, IsYouTubeIdChar))
    else if OccursAt(u, YouTubeShort, i) && RunAt(u, i + |YouTubeShort|, IsYouTubeIdChar) != [] then
      Some(RunAt(u, i + |YouTubeShort|, IsYouTubeIdChar))
    else None
  }

  /** The capture of `vimeo\.com\/(?:video\/)?(\d+)` at `i`. */
  function VimeoMatch(u: string, i: nat): (r: Option<string>)
    ensures r.Some? ==> r.value != [] && forall k :: 0 <= k < |r.value| ==> IsDigit(r.value[k])
    ensures r.Some? ==> OccursAt(u, VimeoHost, i)
  {
    if !OccursAt(u, VimeoHost, i) then None
    else
      var at := i + |VimeoHost|;
      if OccursAt(u, VimeoVideo, at) && RunAt(u, at + |VimeoVideo|, IsDigit) != [] then
        Some(RunAt(u, at + |VimeoVideo|, IsDigit))
      else if RunAt(u, at, IsDigit) != [] then Some(RunAt(u, at, IsDigit))
      else None
  }

  function YouTubeEmbed(id: string): string {
    "https://www.youtube.com/embed/" + id + "?autoplay=0"
  }

  function VimeoEmbed(id: string): string {
    "https://player.vimeo.com/video/" + id
  }

  /** `getVideoEmbedUrl(url)`: YouTube, then Vimeo, then Google Drive. */
  function GetVideoEmbedUrl(url: Value): (r: Option<string>)
    ensures !url.Str? ==> r.None?
    ensures r.Some? <==>
      (&& url.Str? && Truthy(url)
       && (|| Search(YouTubeLink, Trim(url.s), 0).Some?
           || Search(VimeoLink, Trim(url.s), 0).Some?
           || IsGoogleDriveUrl(Str(Trim(url.s)))))
    ensures url.Str? ==> var u := Trim(url.s);
      Search(YouTubeLink, u, 0).Some? ==> r == Some(YouTubeEmbed(Search(YouTubeLink, u, 0).value))
    ensures url.Str? ==> var u := Trim(url.s);
      Search(YouTubeLink, u, 0).None? && Search(VimeoLink, u, 0).Some? ==>
        r == Some(VimeoEmbed(Search(VimeoLink, u, 0).value))
    ensures url.Str? ==> var u := Trim(url.s);
      Search(YouTubeLink, u, 0).None? && Search(VimeoLink, u, 0).None? && ExtractDriveId(Str(u)).Some? ==>
        r == Some(PreviewUrl(ExtractDriveId(Str(u)).value))
  {
    SearchNeedsText(YouTubeLink, url);
    SearchNeedsText(VimeoLink, url);
    DriveIdNeedsText(url);
    if !Truthy(url) || !url.Str? then None
    else
      var u := Trim(url.s);
      var youTube := Search(YouTubeLink, u, 0);
      var vimeo := Search(VimeoLink, u, 0);
      if youTube.Some? then Some(YouTubeEmbed(youTube.value))
      else if vimeo.Some? then Some(VimeoEmbed(vimeo.value))
      else match ExtractDriveId(Str(u))
        case Some(id) => Some(PreviewUrl(id))
        case None => None
  }

  /** A pattern matches nowhere in the trim of "". */
  lemma SearchNeedsText(pattern: Pattern, url: Value)
    ensures url.Str? && Search(pattern, Trim(url.s), 0).Some? ==> Truthy(url)
  {
    if url.Str? && !Truthy(url) {
      SearchSound(pattern, Trim(url.s), 0);
      assert Trim(url.s) == [];
      assert MatchAt(pattern, Trim(url.s), 0).None?;
    }
  }

  lemma DriveIdNeedsText(url: Value)
    ensures url.Str? && ExtractDriveId(Str(Trim(url.s))).Some? ==> Truthy(url)
  {
    if url.Str? && !Truthy(url) {
      assert Trim(url.s) == [];
    }
  }

  /** The embed link names the leftmost YouTube video of the link, whatever else
      the link holds. */
  lemma EmbedPrefersYouTube(url: string, i: nat)
    requires i <= |Trim(url)| && YouTubeMatch(Trim(url), i).Some?
    requires forall j :: 0 <= j < i ==> YouTubeMatch(Trim(url), j).None?
    ensures GetVideoEmbedUrl(Str(url)) == Some(YouTubeEmbed(YouTubeMatch(Trim(url), i).value))
  {
    SearchFindsFirst(YouTubeLink, Trim(url), 0, i);
  }

  /** Without a YouTube video, the embed link names the leftmost Vimeo video. */
  lemma EmbedVimeoWithoutYouTube(url: string, i: nat)
    requires forall j :: 0 <= j <= |Trim(url)| ==> YouTubeMatch(Trim(url), j).None?
    requires i <= |Trim(url)| && VimeoMatch(Trim(url), i).Some?
    requires forall j :: 0 <= j < i ==> VimeoMatch(Trim(url), j).None?
    ensures GetVideoEmbedUrl(Str(url)) == Some(VimeoEmbed(VimeoMatch(Trim(url), i).value))
  {
    SearchSound(YouTubeLink, Trim(url), 0);
    SearchFindsFirst(VimeoLink, Trim(url), 0, i);
  }

  /** A link naming no YouTube or Vimeo video is embedded through the Drive
      preview of its file, when it names one, and not at all otherwise. */
  lemma EmbedDriveWithoutVideoHost(url: string)
    requires forall j :: 0 <= j <= |Trim(url)| ==> YouTubeMatch(Trim(url), j).None? && VimeoMatch(Trim(url), j).None?
    ensures ExtractDriveId(Str(Trim(url))).Some? ==>
      GetVideoEmbedUrl(Str(url)) == Some(PreviewUrl(ExtractDriveId(Str(Trim(url))).value))
    ensures ExtractDriveId(Str(Trim(url))).None? ==> GetVideoEmbedUrl(Str(url)).None?
  {
    SearchSound(YouTubeLink, Trim(url), 0);
    SearchSound(VimeoLink, Trim(url), 0);
  }

  /** A Drive video stored under its display link is embedded through the
      Drive preview player for the same file. */
  lemma DriveVideoEmbedsPreview(id: string)
    requires IsDriveId(id)
    ensures GetVideoEmbedUrl(Str(ViewUrl(id))) == Some(PreviewUrl(id))
  {
    var u := ViewUrl(id);
    StripUnchanged(u, IsSpace);
    ViewHasNoVideoHost(id);
    ViewUrlRoundTrip(id);
    EmbedFallsBackToDrive(u, id);
  }

  lemma EmbedFallsBackToDrive(u: string, id: string)
    requires u != []
    requires Search(YouTubeLink, Trim(u), 0).None? && Search(VimeoLink, Trim(u), 0).None?
    requires ExtractDriveId(Str(Trim(u))) == Some(id)
    ensures GetVideoEmbedUrl(Str(u)) == Some(PreviewUrl(id))
  {
  }

  /** The Drive display link names neither YouTube nor Vimeo. */
  lemma ViewHasNoVideoHost(id: string)
    requires IsDriveId(id)
    ensures Search(YouTubeLink, ViewUrl(id), 0).None? && Search(VimeoLink, ViewUrl(id), 0).None?
  {
    var rest := "file/d/" + id + "/view";
    var u := ViewUrl(id);
    NoDotInId(id);
    assert '.' !in rest;
    assert u[6] == '/' && u[8] == 'd' && u[13] == '.' && u[15] == 'o';
    forall i | 0 <= i <= |u|
      ensures !OccursAt(u, YouTubeWatch, i) && !OccursAt(u, YouTubeShort, i) && !OccursAt(u, VimeoHost, i)
    {
      if OccursAt(u, YouTubeWatch, i) {
        DotPinsOccurrence(rest, YouTubeWatch, 7, i);
      }
      if OccursAt(u, YouTubeShort, i) {
        DotPinsOccurrence(rest, YouTubeShort, 5, i);
      }
      if OccursAt(u, VimeoHost, i) {
        DotPinsOccurrence(rest, VimeoHost, 5, i);
      }
    }
    SearchSound(YouTubeLink, u, 0);
    SearchSound(VimeoLink, u, 0);
  }
}

=== FILE: product_text.dfy ===
/**
 Bilingual text resolution for product records. A product may carry a field in
 three shapes: the language-tagged `title_en` / `title_ar`, and the untagged
 legacy `title`. The requested language wins, then the legacy field, then the
 other language, then a fixed default.

 The language is the string the page passes ("en" or "ar"); any language other
 than "en" has "en" as its other language.
 */
module ProductText {
  import opened Wrappers
  import opened Js
  import opened Strings
  import opened Prices

  const DefaultTitle := "Product"
  const DefaultPrice := "$0"
  const NewArrivalEn := "NEW ARRIVAL"
  const NewArrivalAr := "وصل حديثاً"

  /** A field counts as set unless it is undefined, null or the empty string
      (unlike `||`, so `0` and `false` count as set). */
  predicate Present(v: Value) {
    !Nullish(v) && v != Str("")
  }

  function OtherLanguage(language: string): string {
    if language == "en" then "ar" else "en"
  }

  function Tagged(field: string, language: string): string {
    field + "_" + language
  }

  /** The first set value of the chain, or `fallback`. */
  function FirstPresent(preferred: Value, legacy: Value, other: Value, fallback: Value): Value {
    if Present(preferred) then preferred
    else if Present(legacy) then legacy
    else if Present(other) then other
    else fallback
  }

  /** `getProductText(product, field, language)` */
  function GetProductText(product: Value, field: string, language: string): (r: Value)
    ensures !Truthy(product) ==> r == Str("")
    ensures Truthy(product) ==>
      var preferred := Get(product, Tagged(field, language));
      var legacy := Get(product, field);
      var other := Get(product, Tagged(field, OtherLanguage(language)));
      && (Present(preferred) ==> r == preferred)
      && (!Present(preferred) && Present(legacy) ==> r == legacy)
      && (!Present(preferred) && !Present(legacy) && Present(other) ==> r == other)
      && (!Present(preferred) && !Present(legacy) && !Present(other) ==> r == Str(""))
  {
    if !Truthy(product) then Str("")
    else
      FirstPresent(
        Get(product, Tagged(field, language)),
        Get(product, field),
        Get(product, Tagged(field, OtherLanguage(language))),
        Str(""))
  }

  /** Resolution only ever reports "nothing set" when none of the three shapes is set. */
  lemma TextEmptyOnlyWhenUnset(product: Value, field: string, language: string)
    requires Truthy(product)
    ensures Present(GetProductText(product, field, language)) <==>
      || Present(Get(product, Tagged(field, language)))
      || Present(Get(product, field))
      || Present(Get(product, Tagged(field, OtherLanguage(language))))
  {
  }

  /** When both languages carry their own text, each language reads its own. */
  lemma TextIsLanguageSpecific(product: Value, field: string)
    requires Truthy(product)
    requires Present(Get(product, Tagged(field, "en"))) && Present(Get(product, Tagged(field, "ar")))
    ensures GetProductText(product, field, "en") == Get(product, Tagged(field, "en"))
    ensures GetProductText(product, field, "ar") == Get(product, Tagged(field, "ar"))
  {
  }

  /** A product that only carries one language shows that text in both languages. */
  lemma SingleLanguageShownInBoth(product: Value, field: string, value: Value)
    requires product.Obj? && Present(value)
    requires Tagged(field, "ar") !in product.fields && field !in product.fields
    requires Get(product, Tagged(field, "en")) == value
    ensures GetProductText(product, field, "en") == value
    ensures GetProductText(product, field, "ar") == value
  {
    assert Tagged(field, OtherLanguage("ar")) == Tagged(field, "en");
  }

  /** `getProductTitle(product, language)` */
  function GetProductTitle(product: Value, language: string): (r: Value)
    ensures Truthy(r)
    ensures Truthy(GetProductText(product, "title", language)) ==> r == GetProductText(product, "title", language)
    ensures !Truthy(GetProductText(product, "title", language)) ==> r == Str(DefaultTitle)
  {
    Or(GetProductText(product, "title", language), Str(DefaultTitle))
  }

  /** `getProductDescription(product, language)`: the description text, "" when none is set. */
  function GetProductDescription(product: Value, language: string): (r: Value)
    ensures !Truthy(product) ==> r == Str("")
    ensures Truthy(product) && Present(Get(product, Tagged("description", language))) ==>
      r == Get(product, Tagged("description", language))
    ensures Truthy(product) ==> (Present(r) <==>
      || Present(Get(product, Tagged("description", language)))
      || Present(Get(product, "description"))
      || Present(Get(product, Tagged("description", OtherLanguage(language)))))
  {
    GetProductText(product, "description", language)
  }

  /** `getProductShortDescription(product, language)` */
  function GetProductShortDescription(product: Value, language: string): (r: Value)
    ensures Truthy(GetProductText(product, "shortDescription", language)) ==>
      r == GetProductText(product, "shortDescription", language)
    ensures !Truthy(GetProductText(product, "shortDescription", language)) ==>
      r == GetProductText(product, "description", language)
  {
    Or(GetProductText(product, "shortDescription", language), GetProductDescription(product, language))
  }

  /** `getProductBadge(product, language)` */
  function GetProductBadge(product: Value, language: string): (r: Value)
    ensures Truthy(r)
    ensures Truthy(GetProductText(product, "badge", language)) ==> r == GetProductText(product, "badge", language)
    ensures !Truthy(GetProductText(product, "badge", language)) && language == "ar" ==> r == Str(NewArrivalAr)
    ensures !Truthy(GetProductText(product, "badge", language)) && language != "ar" ==> r == Str(NewArrivalEn)
  {
    Or(GetProductText(product, "badge", language), Str(if language == "ar" then NewArrivalAr else NewArrivalEn))
  }

  /** `getProductFeatures(product, language)`: the first of the three shapes
      that is an array, even an empty one. */
  function GetProductFeatures(product: Value, language: string): (r: Value)
    ensures r.Arr?
    ensures !Truthy(product) ==> r == Arr([])
    ensures Truthy(product) && Get(product, Tagged("features", language)).Arr? ==>
      r == Get(product, Tagged("features", language))
    ensures Truthy(product) && !Get(product, Tagged("features", language)).Arr? && Get(product, "features").Arr? ==>
      r == Get(product, "features")
    ensures var other := Get(product, Tagged("features", OtherLanguage(language)));
      (Truthy(product) && !Get(product, Tagged("features", language)).Arr? && !Get(product, "features").Arr? && other.Arr?)
      ==> r == other
    ensures var other := Get(product, Tagged("features", OtherLanguage(language)));
      (!Get(product, Tagged("features", language)).Arr? && !Get(product, "features").Arr? && !other.Arr?)
      ==> r == Arr([])
    ensures r != Arr([]) ==>
      r in {Get(product, Tagged("features", language)), Get(product, "features"),
            Get(product, Tagged("features", OtherLanguage(language)))}
  {
    if !Truthy(product) then Arr([])
    else
      var preferred := Get(product, Tagged("features", language));
      var legacy := Get(product, "features");
      var other := Get(product, Tagged("features", OtherLanguage(language)));
      if preferred.Arr? then preferred
      else if legacy.Arr? then legacy
      else if other.Arr? then other
      else Arr([])
  }

  /** The keys the features are looked up under, in the order they are tried. */
  function FeatureKeys(language: string): seq<string> {
    [Tagged("features", language), "features", Tagged("features", OtherLanguage(language))]
  }

  /** The value of the first key whose value is an array, else an empty array. */
  function FirstArray(product: Value, keys: seq<string>): (r: Value)
    ensures r.Arr?
  {
    if keys == [] then Arr([])
    else if Get(product, keys[0]).Arr? then Get(product, keys[0])
    else FirstArray(product, keys[1..])
  }

  /** The features of a product are its first array-valued features field, in
      lookup order; a field that holds anything but an array is passed over. */
  lemma FeaturesAreFirstArray(product: Value, language: string)
    requires Truthy(product)
    ensures GetProductFeatures(product, language) == FirstArray(product, FeatureKeys(language))
  {
    var keys := FeatureKeys(language);
    assert FirstArray(product, keys[2..]) ==
      if Get(product, keys[2]).Arr? then Get(product, keys[2]) else FirstArray(product, []);
    assert FirstArray(product, keys[1..]) ==
      if Get(product, keys[1]).Arr? then Get(product, keys[1]) else FirstArray(product, keys[2..]);
  }

  /** `getProductPrice(product, language)`: the same chain as the text fields,
      with "$0" as the default, so a price is always set. */
  function GetProductPrice(product: Value, language: string): (r: Value)
    ensures Present(r)
    ensures !Truthy(product) ==> r == Str(DefaultPrice)
    ensures Truthy(product) ==>
      var preferred := Get(product, Tagged("price", language));
      var legacy := Get(product, "price");
      var other := Get(product, Tagged("price", OtherLanguage(language)));
      && (Present(preferred) ==> r == preferred)
      && (!Present(preferred) && Present(legacy) ==> r == legacy)
      && (!Present(preferred) && !Present(legacy) && Present(other) ==> r == other)
      && (!Present(preferred) && !Present(legacy) && !Present(other) ==> r == Str(DefaultPrice))
  {
    if !Truthy(product) then Str(DefaultPrice)
    else
      FirstPresent(
        Get(product, Tagged("price", language)),
        Get(product, "price"),
        Get(product, Tagged("price", OtherLanguage(language))),
        Str(DefaultPrice))
  }

  /** Price and text resolution walk the same chain: wherever a price is set
      the price reads exactly what the text resolver reads for "price". */
  lemma PriceFollowsTextChain(product: Value, language: string)
    requires Present(GetProductText(product, "price", language))
    ensures GetProductPrice(product, language) == GetProductText(product, "price", language)
  {
  }

  /** `getDiscountPercentage()`: the percentage shown as the discount, which is
      the markup `getOriginalPrice` adds back. */
  function GetDiscountPercentage(): (r: int)
    ensures 0 < r < 100
    ensures (100 + r) as real / 100.0 == 1.2
  {
    20
  }

  /** How the marked-up price is displayed: the number is printed with two
      decimals (`toFixed(2)`, not modelled) in one of three layouts. */
  datatype PriceLayout = DollarPrefix | CurrencySuffix(currency: string) | Bare

  /** The "original" (pre-discount) price shown struck through next to a price. */
  datatype OriginalPrice =
    | Unchanged(text: Value)
    | MarkedUp(amount: real, layout: PriceLayout)

  const Pound := "جنيه"
  const PoundLatin := "EG"
  const PoundShort := "ج.م"

  predicate HasPoundCurrency(s: string) {
    Contains(s, Pound) || Contains(s, PoundLatin) || Contains(s, PoundShort)
  }

  /** The alternative of `(جنيه|EG|ج\.م)` that matches at position `i`, trying
      them in the order they are written. */
  function CurrencyAt(s: string, i: int): Option<string> {
    if OccursAt(s, Pound, i) then Some(Pound)
    else if OccursAt(s, PoundLatin, i) then Some(PoundLatin)
    else if OccursAt(s, PoundShort, i) then Some(PoundShort)
    else None
  }

  /** The currency the regular expression `(جنيه|EG|ج\.م)` matches first: the
      leftmost occurrence, trying the alternatives in order at each position;
      "جنيه" when there is none. */
  function CurrencyFrom(s: string, from: nat): (r: string)
    ensures r in {Pound, PoundLatin, PoundShort}
    decreases |s| - from
  {
    if from >= |s| then Pound
    else if CurrencyAt(s, from).Some? then CurrencyAt(s, from).value
    else CurrencyFrom(s, from + 1)
  }

  /** When a currency matches at `i` and none matches between `from` and `i`,
      that is the currency found. */
  lemma {:induction false} CurrencyFromLeftmost(s: string, from: nat, i: int)
    requires from <= i && CurrencyAt(s, i).Some?
    requires forall j :: from <= j < i ==> CurrencyAt(s, j).None?
    ensures CurrencyFrom(s, from) == CurrencyAt(s, i).value
    decreases i - from
  {
    if from < i {
      assert CurrencyAt(s, from).None?;
      CurrencyFromLeftmost(s, from + 1, i);
    }
  }

  /** When no currency matches from `from` on, "جنيه" is assumed. */
  lemma {:induction false} CurrencyFromNone(s: string, from: nat)
    requires forall j :: from <= j < |s| ==> CurrencyAt(s, j).None?
    ensures CurrencyFrom(s, from) == Pound
    decreases |s| - from
  {
    if from < |s| {
      assert CurrencyAt(s, from).None?;
      CurrencyFromNone(s, from + 1);
    }
  }

  /** In "EG 600 جنيه" the leftmost currency wins, although "جنيه" is the first
      alternative. */
  lemma LeftmostCurrencyWins()
    ensures CurrencyFrom("EG 600 " + Pound, 0) == PoundLatin
  {
    var s := "EG 600 " + Pound;
    OccurrenceStartsWith(s, Pound, 0);
    assert s[0..2] == PoundLatin;
    CurrencyFromLeftmost(s, 0, 0);
  }

  /** `getOriginalPrice(priceStr)`: the price with the 20% discount added back.
      A value that is not a string makes `replace` throw. */
  function GetOriginalPrice(priceStr: Value): (r: Outcome<OriginalPrice>)
    ensures !Truthy(priceStr) ==> r == Ok(Unchanged(Str(DefaultPrice)))
    ensures Truthy(priceStr) && !priceStr.Str? ==> r == TypeError
    ensures priceStr.Str? && PriceValue(priceStr.s) == 0.0 && Truthy(priceStr) ==> r == Ok(Unchanged(priceStr))
    ensures r.Ok? && r.value.MarkedUp? ==>
      && priceStr.Str?
      && r.value.amount == MarkUp(PriceValue(priceStr.s))
      && r.value.amount > PriceValue(priceStr.s)
      && (r.value.layout.DollarPrefix? <==> Contains(priceStr.s, "$"))
      && (r.value.layout.CurrencySuffix? ==> HasPoundCurrency(priceStr.s))
    ensures priceStr.Str? && Truthy(priceStr) && PriceValue(priceStr.s) != 0.0 ==> r.Ok? && r.value.MarkedUp?
    ensures r.Ok? && r.value.MarkedUp? && !Contains(priceStr.s, "$") ==>
      r.value.layout == (if HasPoundCurrency(priceStr.s) then CurrencySuffix(CurrencyFrom(priceStr.s, 0)) else Bare)
  {
    if !Truthy(priceStr) then Ok(Unchanged(Str(DefaultPrice)))
    else if !priceStr.Str? then TypeError
    else
      var s := priceStr.s;
      var amount := PriceValue(s);
      if amount == 0.0 then Ok(Unchanged(priceStr))
      else
        var layout :=
          if Contains(s, "$") then DollarPrefix
          else if HasPoundCurrency(s) then CurrencySuffix(CurrencyFrom(s, 0))
          else Bare;
        Ok(MarkedUp(MarkUp(amount), layout))
  }

  /** "$" followed by the digits of a positive whole number is marked up to 1.2
      times that number and keeps its dollar sign in front. */
  lemma DollarPriceMarkedUp(digits: string, whole: int)
    requires digits != [] && forall k :: 0 <= k < |digits| ==> IsDigit(digits[k])
    requires whole == RadixValue(digits, 10) && whole > 0
    ensures GetOriginalPrice(Str("$" + digits)) == Ok(MarkedUp(MarkUp(whole as real), DollarPrefix))
  {
    DigitsAfter("$", digits);
    assert OccursAt("$" + digits, "$", 0);
    MarkedUpAs("$" + digits, whole as real, DollarPrefix);
  }

  /** The digits of a positive whole number followed by a space and "جنيه" or
      "EG" are marked up to 1.2 times that number and keep that currency after
      them. */
  lemma PoundPriceMarkedUp(digits: string, whole: int, currency: string)
    requires digits != [] && forall k :: 0 <= k < |digits| ==> IsDigit(digits[k])
    requires whole == RadixValue(digits, 10) && whole > 0
    requires currency == Pound || currency == PoundLatin
    ensures GetOriginalPrice(Str(digits + " " + currency))
      == Ok(MarkedUp(MarkUp(whole as real), CurrencySuffix(currency)))
  {
    PoundPriceValue(digits, currency);
    CurrencyAfterDigits(digits, currency);
    MarkedUpAs(digits + " " + currency, whole as real, CurrencySuffix(currency));
  }

  /** A text whose price reads as a non-zero `amount` is marked up to 1.2 times
      `amount`, with "$" in front when it holds one and otherwise the layout its
      currency gives. */
  lemma MarkedUpAs(s: string, amount: real, layout: PriceLayout)
    requires PriceValue(s) == amount && amount != 0.0
    requires layout == (if Contains(s, "$") then DollarPrefix
                        else if HasPoundCurrency(s) then CurrencySuffix(CurrencyFrom(s, 0)) else Bare)
    ensures GetOriginalPrice(Str(s)) == Ok(MarkedUp(MarkUp(amount), layout))
  {
    MarkedUpAmount(s, amount);
    MarkedUpLayout(s, layout);
    MarkedUpParts(GetOriginalPrice(Str(s)), MarkUp(amount), layout);
  }

  lemma MarkedUpAmount(s: string, amount: real)
    requires PriceValue(s) == amount && amount != 0.0
    ensures GetOriginalPrice(Str(s)).Ok? && GetOriginalPrice(Str(s)).value.MarkedUp?
    ensures GetOriginalPrice(Str(s)).value.amount == MarkUp(amount)
  {
    EmptyPriceIsZero();
    assert Truthy(Str(s));
  }

  lemma MarkedUpLayout(s: string, layout: PriceLayout)
    requires GetOriginalPrice(Str(s)).Ok? && GetOriginalPrice(Str(s)).value.MarkedUp?
    requires layout == (if Contains(s, "$") then DollarPrefix
                        else if HasPoundCurrency(s) then CurrencySuffix(CurrencyFrom(s, 0)) else Bare)
    ensures GetOriginalPrice(Str(s)).value.layout == layout
  {
  }

  /** A whole number behind a tag with no digit or dot reads as that number. */
  lemma DigitsAfter(tag: string, digits: string)
    requires digits != [] && forall k :: 0 <= k < |digits| ==> IsDigit(digits[k])
    requires forall k :: 0 <= k < |tag| ==> !IsPriceChar(tag[k])
    ensures PriceValue(tag + digits) == RadixValue(digits, 10) as real
  {
    KeepDigitsAndDotsAppend(tag, digits);
    KeepNoPriceChars(tag);
    KeepAllPriceChars(digits);
    assert KeepDigitsAndDots(tag + digits) == KeepDigitsAndDots(digits);
    PriceOfDigits(digits);
  }

  /** A whole number followed by a space and a currency reads as that number. */
  lemma PoundPriceValue(digits: string, currency: string)
    requires digits != [] && forall k :: 0 <= k < |digits| ==> IsDigit(digits[k])
    requires currency == Pound || currency == PoundLatin
    ensures PriceValue(digits + " " + currency) == RadixValue(digits, 10) as real
  {
    CurrencyHasNoPriceChars(currency);
    KeepDigitsBeforeTail(digits, currency);
    KeepAllPriceChars(digits);
    SamePriceDigits(digits + " " + currency, digits);
    PriceOfDigits(digits);
  }

  /** Neither "جنيه" nor "EG" holds a digit or a dot. */
  lemma CurrencyHasNoPriceChars(currency: string)
    requires currency == Pound || currency == PoundLatin
    ensures forall k :: 0 <= k < |currency| ==> !IsPriceChar(currency[k])
  {
  }

  /** Keeping the digits and dots of a whole number followed by a space and a
      text without digits or dots leaves the number. */
  lemma KeepDigitsBeforeTail(digits: string, tail: string)
    requires forall k :: 0 <= k < |digits| ==> IsDigit(digits[k])
    requires forall k :: 0 <= k < |tail| ==> !IsPriceChar(tail[k])
    ensures KeepDigitsAndDots(digits + " " + tail) == digits
  {
    KeepDigitsAndDotsAppend(digits, " ");
    KeepAllPriceChars(digits);
    assert KeepDigitsAndDots(" ") == [];
    assert KeepDigitsAndDots(digits + " ") == digits;
    KeepDigitsAndDotsAppend(digits + " ", tail);
    KeepNoPriceChars(tail);
    assert digits + [] == digits;
  }

  /** Texts with the same digits and dots read as the same price. */
  lemma SamePriceDigits(x: string, y: string)
    requires KeepDigitsAndDots(x) == KeepDigitsAndDots(y)
    ensures PriceValue(x) == PriceValue(y)
  {
  }

  /** In a whole number followed by a space and a currency, that currency is the
      first one found and there is no dollar sign. */
  lemma CurrencyAfterDigits(digits: string, currency: string)
    requires forall k :: 0 <= k < |digits| ==> IsDigit(digits[k])
    requires currency == Pound || currency == PoundLatin
    ensures !Contains(digits + " " + currency, "$")
    ensures HasPoundCurrency(digits + " " + currency)
    ensures CurrencyFrom(digits + " " + currency, 0) == currency
  {
    var s := digits + " " + currency;
    var at := |digits| + 1;
    forall k | 0 <= k < |s| ensures s[k] != '$' && (k < at ==> IsDigit(s[k]) || s[k] == ' ') {
      if k < |digits| {
        assert s[k] == digits[k];
      } else if k > |digits| {
        assert s[k] == currency[k - at];
      }
    }
    forall i | 0 <= i <= |s| ensures !OccursAt(s, "$", i) {
      OccurrenceStartsWith(s, "$", i);
    }
    assert s[at..] == currency;
    assert OccursAt(s, currency, at);
    forall j | 0 <= j < at ensures CurrencyAt(s, j).None? {
      assert IsDigit(s[j]) || s[j] == ' ';
      OccurrenceStartsWith(s, Pound, j);
      OccurrenceStartsWith(s, PoundLatin, j);
      OccurrenceStartsWith(s, PoundShort, j);
    }
    assert CurrencyAt(s, at) == Some(currency);
    CurrencyFromLeftmost(s, 0, at);
  }

  /** An empty text reads as price zero. */
  lemma EmptyPriceIsZero()
    ensures PriceValue([]) == 0.0
  {
    assert KeepDigitsAndDots([]) == [];
  }

  /** A marked-up outcome is determined by its amount and layout. */
  lemma MarkedUpParts(r: Outcome<OriginalPrice>, amount: real, layout: PriceLayout)
    requires r.Ok? && r.value.MarkedUp?
    requires r.value.amount == amount && r.value.layout == layout
    ensures r == Ok(MarkedUp(amount, layout))
  {
  }

  /** An occurrence of `sub` begins with the first character of `sub`. */
  lemma OccurrenceStartsWith(s: string, sub: string, i: int)
    requires sub != []
    ensures OccursAt(s, sub, i) ==> s[i] == sub[0]
  {
    if OccursAt(s, sub, i) {
      assert s[i..i + |sub|][0] == s[i];
    }
  }

  /** The crossed-out price: `amount` with the advertised discount added back. */
  function MarkUp(amount: real): (r: real)
    ensures amount > 0.0 ==> r > amount
  {
    amount * 1.2
  }

  /** The mark-up is exactly the advertised discount percentage. */
  lemma MarkUpIsDiscount(amount: real)
    ensures MarkUp(amount) == amount * (100 + GetDiscountPercentage()) as real / 100.0
  {
    var factor := (100 + GetDiscountPercentage()) as real / 100.0;
    assert factor == 1.2;
    assert amount * (100 + GetDiscountPercentage()) as real / 100.0 == amount * factor;
  }
}

=== FILE: remove_product_media.dfy ===
/**
 The maintenance script `remove-product-media`: it deletes the `media`,
 `images` and `image` keys from every product of the published catalog
 file's `customProducts` list, counts the keys it deleted, and writes the
 file back.

 The file's text is parsed JSON, so the model works on the parsed value; the
 read, the write and the closing log line are left out. The script mutates
 the parsed value in place and only writes once the loop is done, so a
 throw leaves the file as it was.
 */
module RemoveProductMedia {
  import opened Js

  /** The keys the script deletes. */
  const MediaKeys: set<string> := {"media", "images", "image"}

  /** A value and the number of keys deleted from it. */
  datatype Stripped<+T> = Stripped(value: T, removed: nat)

  /** `key in product` followed by `delete`: 1 when the key was there. */
  function Present(fields: map<string, Value>, key: string): nat {
    if key in fields then 1 else 0
  }

  /** `key in product` needs an object; arrays are objects without these keys. */
  predicate CanStrip(product: Value) {
    product.Obj? || product.Arr?
  }

  /** A product without the media keys. */
  function Cleaned(product: Value): (r: Value)
    ensures CanStrip(product) ==> CanStrip(r)
    ensures r.Obj? ==> product.Obj? && forall key :: key in r.fields <==> key in product.fields && key !in MediaKeys
    ensures r.Obj? ==> forall key :: key in r.fields ==> r.fields[key] == product.fields[key]
  {
    if product.Obj? then Obj(product.fields - MediaKeys) else product
  }

  /** The inner `forEach` over the three keys for one product; a value that is
      not an object makes `in` throw. */
  function StripProduct(product: Value): (r: Outcome<Stripped<Value>>)
    ensures r.Ok? <==> CanStrip(product)
    ensures r.Ok? ==> r.value.value == Cleaned(product)
    ensures r.Ok? ==> r.value.removed == |MediaKeysOf(product)|
  {
    if product.Obj? then
      PresentCountsKeys(product.fields);
      var fields := product.fields;
      Ok(Stripped(Obj(fields - MediaKeys), Present(fields, "media") + Present(fields, "images") + Present(fields, "image")))
    else if product.Arr? then Ok(Stripped(product, 0))
    else TypeError
  }

  /** The media keys a product holds. */
  function MediaKeysOf(product: Value): set<string> {
    if product.Obj? then product.fields.Keys * MediaKeys else {}
  }

  /** Counting the three keys one by one counts the media keys present. */
  lemma PresentCountsKeys(fields: map<string, Value>)
    ensures Present(fields, "media") + Present(fields, "images") + Present(fields, "image")
      == |fields.Keys * MediaKeys|
  {
    var a, b, c := KeySet(fields, "media"), KeySet(fields, "images"), KeySet(fields, "image");
    MediaKeysSplit(fields);
    DisjointUnionSize(a, b);
    DisjointUnionSize(a + b, c);
    KeySetSize(fields, "media");
    KeySetSize(fields, "images");
    KeySetSize(fields, "image");
  }

  /** The key, when the record holds it. */
  function KeySet(fields: map<string, Value>, key: string): set<string> {
    if key in fields then {key} else {}
  }

  lemma KeySetSize(fields: map<string, Value>, key: string)
    ensures |KeySet(fields, key)| == Present(fields, key)
  {
  }

  /** The media keys a record holds, one key at a time. */
  lemma MediaKeysSplit(fields: map<string, Value>)
    ensures var a, b, c := KeySet(fields, "media"), KeySet(fields, "images"), KeySet(fields, "image");
      && fields.Keys * MediaKeys == a + b + c
      && a !! b && (a + b) !! c
  {
    assert "media"[0] != "image"[0] && |"images"| != |"media"| && |"images"| != |"image"|;
  }

  lemma DisjointUnionSize<T>(a: set<T>, b: set<T>)
    requires a !! b
    ensures |a + b| == |a| + |b|
  {
  }

  /** The outer `forEach` over the products. */
  function StripProducts(products: seq<Value>): (r: Outcome<Stripped<seq<Value>>>)
    ensures r.TypeError? <==> exists k :: 0 <= k < |products| && !CanStrip(products[k])
    ensures r.Ok? ==> |r.value.value| == |products|
    ensures r.Ok? ==> forall k :: 0 <= k < |products| ==> r.value.value[k] == Cleaned(products[k])
  {
    if products == [] then Ok(Stripped([], 0))
    else
      assert forall k :: 1 <= k < |products| ==> products[k] == products[1..][k - 1];
      match StripProduct(products[0])
      case TypeError => TypeError
      case Ok(first) =>
        match StripProducts(products[1..])
        case TypeError => TypeError
        case Ok(rest) => Ok(Stripped([first.value] + rest.value, first.removed + rest.removed))
  }

  /** The number of media keys held by a list of products. */
  function MediaKeyCount(products: seq<Value>): nat {
    if products == [] then 0 else |MediaKeysOf(products[0])| + MediaKeyCount(products[1..])
  }

  /** `removedCount` is the number of media keys the products held. */
  lemma {:induction false} RemovedCountsKeys(products: seq<Value>)
    requires StripProducts(products).Ok?
    ensures StripProducts(products).value.removed == MediaKeyCount(products)
    decreases |products|
  {
    if products != [] {
      RemovedCountsKeys(products[1..]);
    }
  }

  /** `data.customProducts || []` */
  function ProductsOf(data: Value): Value {
    Or(Get(data, "customProducts"), Arr([]))
  }

  /** The script once the file is parsed: the data to write back and
      `removedCount`. Reading `customProducts` of null throws; so do a
      `customProducts` without `forEach` and a product that is not an object. */
  function RemoveMedia(data: Value): (r: Outcome<Stripped<Value>>)
    ensures r.TypeError? <==>
      (Nullish(data) || !ProductsOf(data).Arr? || exists k :: 0 <= k < |ProductsOf(data).items| && !CanStrip(ProductsOf(data).items[k]))
    ensures r.Ok? && !Truthy(Get(data, "customProducts")) ==> r.value == Stripped(data, 0)
    ensures r.Ok? ==> forall key :: key != "customProducts" ==> Get(r.value.value, key) == Get(data, key)
    ensures r.Ok? && Truthy(Get(data, "customProducts")) ==>
      var after := Get(r.value.value, "customProducts");
      && after.Arr? && |after.items| == |ProductsOf(data).items|
      && forall k :: 0 <= k < |after.items| ==> after.items[k] == Cleaned(ProductsOf(data).items[k])
  {
    if Nullish(data) then TypeError
    else
      var products := ProductsOf(data);
      if !products.Arr? then TypeError
      else
        match StripProducts(products.items)
        case TypeError => TypeError
        case Ok(stripped) =>
          if Truthy(Get(data, "customProducts")) then
            Ok(Stripped(Obj(data.fields["customProducts" := Arr(stripped.value)]), stripped.removed))
          else Ok(Stripped(data, 0))
  }

  /** Afterwards no product holds a media key. */
  lemma NoMediaRemains(data: Value)
    requires RemoveMedia(data).Ok?
    ensures forall p :: p in ProductsOf(RemoveMedia(data).value.value).items ==> MediaKeysOf(p) == {}
  {
    var after := RemoveMedia(data).value.value;
    if !Truthy(Get(data, "customProducts")) {
      assert ProductsOf(after) == Arr([]);
    }
  }

  /** `removedCount` is the number of media keys the file's products held. */
  lemma RemovedCountIsKeysHeld(data: Value)
    requires RemoveMedia(data).Ok?
    ensures RemoveMedia(data).value.removed == MediaKeyCount(ProductsOf(data).items)
  {
    RemovedCountsKeys(ProductsOf(data).items);
  }

  /** Running the script a second time changes nothing and deletes nothing. */
  lemma RemovingIsIdempotent(data: Value)
    requires RemoveMedia(data).Ok?
    ensures RemoveMedia(RemoveMedia(data).value.value) == Ok(Stripped(RemoveMedia(data).value.value, 0))
  {
    var after := RemoveMedia(data).value.value;
    if Truthy(Get(data, "customProducts")) {
      var items := ProductsOf(after).items;
      CleanedTwice(ProductsOf(data).items, items);
      assert StripProducts(items).value == Stripped(items, StripProducts(items).value.removed);
      NoMediaRemains(data);
      NoKeysCountZero(items);
      RemovedCountsKeys(items);
      assert after.fields["customProducts" := Arr(items)] == after.fields;
    }
  }

  /** The products after cleaning are their own cleaning. */
  lemma CleanedTwice(before: seq<Value>, after: seq<Value>)
    requires |after| == |before|
    requires forall k :: 0 <= k < |before| ==> after[k] == Cleaned(before[k])
    requires forall k :: 0 <= k < |before| ==> CanStrip(before[k])
    ensures StripProducts(after).Ok? && StripProducts(after).value.value == after
  {
    forall k | 0 <= k < |after|
      ensures CanStrip(after[k]) && Cleaned(after[k]) == after[k]
    {
      CleanedIsClean(before[k]);
    }
    StripClean(after);
  }

  /** A cleaned product has nothing left to clean. */
  lemma CleanedIsClean(product: Value)
    requires CanStrip(product)
    ensures CanStrip(Cleaned(product)) && Cleaned(Cleaned(product)) == Cleaned(product)
  {
    if product.Obj? {
      var fields := product.fields - MediaKeys;
      assert fields - MediaKeys == fields;
    }
  }

  /** Stripping products that are their own cleaning gives them back. */
  lemma {:induction false} StripClean(products: seq<Value>)
    requires forall k :: 0 <= k < |products| ==> CanStrip(products[k]) && Cleaned(products[k]) == products[k]
    ensures StripProducts(products).Ok? && StripProducts(products).value.value == products
    decreases |products|
  {
    if products != [] {
      StripClean(products[1..]);
      assert products == [products[0]] + products[1..];
    }
  }

  /** Products without media keys hold none to count. */
  lemma {:induction false} NoKeysCountZero(products: seq<Value>)
    requires forall p :: p in products ==> MediaKeysOf(p) == {}
    ensures MediaKeyCount(products) == 0
    decreases |products|
  {
    if products != [] {
      assert products[0] in products;
      NoKeysCountZero(products[1..]);
    }
  }
}

=== FILE: router.dfy ===
/**
 Client-side route matching. A route whose path contains ":id" becomes the
 anchored pattern `^prefix([^/]+)suffix$`, where prefix and suffix are the text
 around the first ":id"; every route also matches its own path exactly.

 Route paths are plain text without regular-expression metacharacters, so the
 prefix and suffix match literally.
 */
module Router {
  import opened Wrappers
  import opened Strings

  const Placeholder := ":id"

  /** The segment that `[^/]+` accepts. */
  predicate IsSegment(seg: string) {
    seg != [] && '/' !in seg
  }

  /** Whether the current path has the shape prefix + segment + suffix. */
  predicate FillsPlaceholder(path: string, at: nat, current: string)
    requires at + |Placeholder| <= |path|
  {
    var prefix := path[..at];
    var suffix := path[at + |Placeholder|..];
    && |current| > |prefix| + |suffix|
    && current[..|prefix|] == prefix
    && current[|current| - |suffix|..] == suffix
    && IsSegment(current[|prefix|..|current| - |suffix|])
  }

  /** `<Route path=… />` renders its element for the current path. Every route
      renders for its own path; a route without ":id" for nothing else; and a
      route with ":id" only for paths at least as long as the route with the
      placeholder replaced by one character. */
  function RouteMatches(path: string, current: string): (r: bool)
    ensures current == path ==> r
    ensures !Contains(path, Placeholder) ==> (r <==> current == path)
    ensures r && current != path ==> Contains(path, Placeholder) && |current| >= |path| - |Placeholder| + 1
  {
    match IndexOf(path, Placeholder)
    case Some(at) => FillsPlaceholder(path, at, current) || current == path
    case None => current == path
  }

  /** The pattern reading: a dynamic route matches exactly the paths obtained
      by putting a non-empty segment without "/" in place of the first ":id". */
  lemma DynamicRouteShape(path: string, at: nat, current: string)
    requires IndexOf(path, Placeholder) == Some(at)
    ensures FillsPlaceholder(path, at, current) <==>
      exists seg :: IsSegment(seg) && current == path[..at] + seg + path[at + |Placeholder|..]
  {
    var prefix := path[..at];
    var suffix := path[at + |Placeholder|..];
    if FillsPlaceholder(path, at, current) {
      var seg := current[|prefix|..|current| - |suffix|];
      assert current == prefix + seg + suffix;
    }
    if exists seg :: IsSegment(seg) && current == prefix + seg + suffix {
      var seg :| IsSegment(seg) && current == prefix + seg + suffix;
      assert current[..|prefix|] == prefix;
      assert current[|current| - |suffix|..] == suffix;
      assert current[|prefix|..|current| - |suffix|] == seg;
    }
  }

  const ProductPath := "/product/:id"

  const ProductPrefix := "/product/"

  /** The product route renders for "/product/" followed by exactly one
      non-empty segment without "/", and for its own path. */
  lemma ProductRoute(current: string)
    ensures RouteMatches(ProductPath, current) <==>
      current == ProductPath || exists seg :: IsSegment(seg) && current == ProductPrefix + seg
  {
    ProductPlaceholder();
    DynamicRouteShape(ProductPath, 9, current);
    assert ProductPath[..9] == ProductPrefix;
    assert ProductPath[9 + |Placeholder|..] == "";
    forall seg: string ensures ProductPrefix + seg + "" == ProductPrefix + seg {
    }
  }

  /** The ":id" of the product route starts after "/product/". */
  lemma ProductPlaceholder()
    ensures IndexOf(ProductPath, Placeholder) == Some(9)
  {
    forall k | 0 <= k < 9
      ensures !OccursAt(ProductPath, Placeholder, k)
    {
      assert ProductPath[k..k + 3][0] == ProductPath[k] != ':';
    }
    assert OccursAt(ProductPath, Placeholder, 9);
  }

  /** A route without ":id" is static: two different static routes never both
      match the same path. */
  lemma StaticRoutesExclusive(a: string, b: string, current: string)
    requires !Contains(a, Placeholder) && !Contains(b, Placeholder) && a != b
    ensures !(RouteMatches(a, current) && RouteMatches(b, current))
  {
  }
}

=== FILE: shop_page.dfy ===
/**
 The shop page: its fixed product list filtered by a category tab and a
 search text, where both can be set from the address's query string.

 The listed products are fixed records, so they are a typed datatype here;
 their table is data and is taken as a parameter. Letter case is folded for
 ASCII letters only.
 */
module ShopPage {
  import opened Wrappers
  import opened Strings

  datatype ShopProduct = ShopProduct(id: int, title: string, description: string, price: string, badge: string)

  const All := "ALL"

  /** The category tabs, in display order. */
  const Categories := [All, "BEST SELLER", "NEW ARRIVAL", "POPULAR", "LIMITED", "ONLY TWO LEFT"]

  /** `text.toLowerCase().includes(query.toLowerCase())` */
  predicate MentionsIgnoringCase(text: string, query: string) {
    Contains(Lower(text), Lower(query))
  }

  predicate MatchesCategory(p: ShopProduct, category: string) {
    category == All || p.badge == category
  }

  predicate MatchesSearch(p: ShopProduct, search: string) {
    search == "" || MentionsIgnoringCase(p.title, search) || MentionsIgnoringCase(p.description, search)
  }

  /** The filter's test: the category and the search must both match. */
  predicate Shown(p: ShopProduct, category: string, search: string) {
    MatchesCategory(p, category) && MatchesSearch(p, search)
  }

  /** `filteredProducts` */
  function Filter(products: seq<ShopProduct>, category: string, search: string): (r: seq<ShopProduct>)
    ensures |r| <= |products|
    ensures forall p :: p in r <==> p in products && Shown(p, category, search)
  {
    if products == [] then []
    else (if Shown(products[0], category, search) then [products[0]] else []) + Filter(products[1..], category, search)
  }

  /** Filtering works piece by piece, so it keeps the products' relative order. */
  lemma {:induction false} FilterKeepsOrder(xs: seq<ShopProduct>, ys: seq<ShopProduct>, category: string, search: string)
    ensures Filter(xs + ys, category, search) == Filter(xs, category, search) + Filter(ys, category, search)
    decreases |xs|
  {
    if xs != [] {
      assert (xs + ys)[1..] == xs[1..] + ys;
      FilterKeepsOrder(xs[1..], ys, category, search);
    } else {
      assert xs + ys == ys;
    }
  }

  /** Filtering a filtered list again changes nothing. */
  lemma {:induction false} FilterIsIdempotent(products: seq<ShopProduct>, category: string, search: string)
    ensures Filter(Filter(products, category, search), category, search) == Filter(products, category, search)
    decreases |products|
  {
    if products != [] {
      var head := if Shown(products[0], category, search) then [products[0]] else [];
      FilterKeepsOrder(head, Filter(products[1..], category, search), category, search);
      FilterIsIdempotent(products[1..], category, search);
      if head != [] {
        assert Filter(head, category, search) == head by {
          assert head[1..] == [];
        }
      }
    }
  }

  /** The "ALL" tab with no search shows every product. */
  lemma {:induction false} NoFilterShowsAll(products: seq<ShopProduct>)
    ensures Filter(products, All, "") == products
    decreases |products|
  {
    if products != [] {
      NoFilterShowsAll(products[1..]);
    }
  }

  lemma LowerIsIdempotent(s: string)
    ensures Lower(Lower(s)) == Lower(s)
  {
  }

  /** The search ignores letter case: typing the query in lower case shows the same products. */
  lemma SearchIgnoresCase(p: ShopProduct, category: string, search: string)
    ensures Shown(p, category, search) <==> Shown(p, category, Lower(search))
  {
    LowerIsIdempotent(search);
    assert search == "" <==> Lower(search) == "";
  }

  // The query string

  /** The page's filter settings. */
  datatype ShopState = ShopState(category: string, search: string)

  const InitialState := ShopState(All, "")

  /** The `category` and `search` query parameters, each possibly absent. */
  datatype QueryParams = QueryParams(category: Option<string>, search: Option<string>)

  predicate Given(param: Option<string>) {
    param.Some? && param.value != ""
  }

  /** Reading the query string when the address changes: a category wins and
      clears the search; a search alone resets the category to all products;
      with neither, nothing changes. */
  function ApplyQuery(st: ShopState, params: QueryParams): (r: ShopState)
    ensures Given(params.category) ==> r == ShopState(params.category.value, "")
    ensures !Given(params.category) && Given(params.search) ==> r == ShopState(All, params.search.value)
    ensures !Given(params.category) && !Given(params.search) ==> r == st
  {
    if Given(params.category) then ShopState(params.category.value, "")
    else if Given(params.search) then ShopState(All, params.search.value)
    else st
  }

  /** A query with a category never leaves a search active, so its products
      are exactly that category's. */
  lemma CategoryLinkShowsCategory(st: ShopState, params: QueryParams, products: seq<ShopProduct>)
    requires Given(params.category)
    ensures var r := ApplyQuery(st, params);
      forall p :: p in Filter(products, r.category, r.search) <==> p in products && MatchesCategory(p, params.category.value)
  {
  }

  /** Choosing a tab keeps the search. */
  function SelectCategory(st: ShopState, category: string): (r: ShopState)
    ensures r.search == st.search && r.category == category
  {
    st.(category := category)
  }

  /** The search banner's "Clear" button. */
  function ClearSearch(st: ShopState): (r: ShopState)
    ensures r.category == st.category && r.search == ""
  {
    st.(search := "")
  }

  /** Clearing the search widens the list: every product shown before is still shown. */
  lemma ClearingWidens(st: ShopState, products: seq<ShopProduct>)
    ensures var after := ClearSearch(st);
      forall p :: p in Filter(products, st.category, st.search) ==> p in Filter(products, after.category, after.search)
  {
  }
}

=== FILE: strings.dfy ===
/**
 String primitives of the JavaScript and Python runtimes that the storefront
 relies on: whitespace trimming, ASCII case folding, searching, splitting and
 the number prefixes read by `parseInt` and `parseFloat`.

 Strings are sequences of Unicode scalar values; JavaScript's UTF-16 code units
 differ only for characters outside the Basic Multilingual Plane.
 */
module Strings {
  import opened Wrappers

  /** ECMAScript WhiteSpace and LineTerminator code points: what `trim`,
      `parseInt`, `parseFloat` and the regular-expression class `\s` treat as space. */
  predicate IsSpace(c: char) {
    || c == '\t' || c == '\n' || c == '\U{000B}' || c == '\U{000C}' || c == '\r' || c == ' '
    || c == '\U{00A0}' || c == '\U{1680}' || ('\U{2000}' <= c <= '\U{200A}')
    || c == '\U{2028}' || c == '\U{2029}' || c == '\U{202F}' || c == '\U{205F}'
    || c == '\U{3000}' || c == '\U{FEFF}'
  }

  /** Python's `str.isspace` (what `str.strip()` removes). */
  predicate IsPySpace(c: char) {
    || c == '\t' || c == '\n' || c == '\U{000B}' || c == '\U{000C}' || c == '\r'
    || ('\U{001C}' <= c <= '\U{001F}') || c == ' ' || c == '\U{0085}' || c == '\U{00A0}'
    || c == '\U{1680}' || ('\U{2000}' <= c <= '\U{200A}') || c == '\U{2028}' || c == '\U{2029}'
    || c == '\U{202F}' || c == '\U{205F}' || c == '\U{3000}'
  }

  predicate IsDigit(c: char) {
    '0' <= c <= '9'
  }

  predicate IsHexDigit(c: char) {
    IsDigit(c) || 'a' <= c <= 'f' || 'A' <= c <= 'F'
  }

  /** The longest prefix of `s` whose characters all satisfy `p`. */
  function Run(s: string, p: char -> bool): (r: string)
    ensures r <= s
    ensures forall k :: 0 <= k < |r| ==> p(r[k])
    ensures |r| < |s| ==> !p(s[|r|])
  {
    if s == [] || !p(s[0]) then [] else [s[0]] + Run(s[1..], p)
  }

  /** The number of trailing characters of `s` that satisfy `p`. */
  function TrailingCount(s: string, p: char -> bool): (n: nat)
    ensures n <= |s|
    ensures forall k :: |s| - n <= k < |s| ==> p(s[k])
    ensures n < |s| ==> !p(s[|s| - n - 1])
  {
    if s == [] || !p(s[|s| - 1]) then 0 else 1 + TrailingCount(s[..|s| - 1], p)
  }

  /** `s` without leading and trailing characters satisfying `p`. */
  function StripBy(s: string, p: char -> bool): (r: string)
    ensures r == [] || (!p(r[0]) && !p(r[|r| - 1]))
    ensures r <= s[|Run(s, p)|..]
  {
    var t := s[|Run(s, p)|..];
    t[..|t| - TrailingCount(t, p)]
  }

  /** A string that neither starts nor ends with a stripped character is its own strip. */
  lemma StripUnchanged(s: string, p: char -> bool)
    requires s != [] && !p(s[0]) && !p(s[|s| - 1])
    ensures StripBy(s, p) == s
  {
    assert |Run(s, p)| == 0;
    assert s[0..] == s;
  }

  /** `s.trim()` */
  function Trim(s: string): string {
    StripBy(s, IsSpace)
  }

  /** Python `s.strip()` */
  function PyStrip(s: string): string {
    StripBy(s, IsPySpace)
  }

  function LowerChar(c: char): char {
    if 'A' <= c <= 'Z' then (c as int + 32) as char else c
  }

  /** `s.toLowerCase()` restricted to ASCII letters. */
  function Lower(s: string): (r: string)
    ensures |r| == |s|
  {
    seq(|s|, i requires 0 <= i < |s| => LowerChar(s[i]))
  }

  predicate EndsWith(s: string, suffix: string) {
    |suffix| <= |s| && s[|s| - |suffix|..] == suffix
  }

  /** Whether `sub` occurs in `s` at position `i`. */
  predicate OccursAt(s: string, sub: string, i: int) {
    0 <= i <= |s| - |sub| && s[i..i + |sub|] == sub
  }

  /** `s.includes(sub)` */
  predicate Contains(s: string, sub: string) {
    exists i :: 0 <= i <= |s| && OccursAt(s, sub, i)
  }

  /** `s.indexOf(sub, from)`: the first occurrence at or after `from`. */
  function IndexOfFrom(s: string, sub: string, from: nat): (r: Option<nat>)
    ensures r.Some? ==> from <= r.value && OccursAt(s, sub, r.value)
    ensures r.Some? ==> forall k :: from <= k < r.value ==> !OccursAt(s, sub, k)
    ensures r.None? ==> forall k :: from <= k ==> !OccursAt(s, sub, k)
    decreases |s| - from
  {
    if from + |sub| > |s| then None
    else if s[from..from + |sub|] == sub then Some(from)
    else IndexOfFrom(s, sub, from + 1)
  }

  function IndexOf(s: string, sub: string): (r: Option<nat>)
    ensures r.Some? <==> Contains(s, sub)
    ensures r.Some? ==> OccursAt(s, sub, r.value)
  {
    IndexOfFrom(s, sub, 0)
  }

  /** `s.split(sep)` for a one-character separator. */
  function SplitOn(s: string, sep: char): (parts: seq<string>)
    ensures |parts| >= 1
    ensures forall i :: 0 <= i < |parts| ==> sep !in parts[i]
    decreases |s|
  {
    var at := IndexOf(s, [sep]);
    if at.None? then
      assert forall k :: 0 <= k < |s| ==> s[k] != sep by {
        forall k | 0 <= k < |s| ensures s[k] != sep {
          assert !OccursAt(s, [sep], k);
        }
      }
      [s]
    else
      var i := at.value;
      assert sep !in s[..i] by {
        forall k | 0 <= k < i ensures s[k] != sep {
          assert !OccursAt(s, [sep], k);
        }
      }
      [s[..i]] + SplitOn(s[i + 1..], sep)
  }

  /** `parts.join(sep)` */
  function Join(parts: seq<string>, sep: string): string {
    if parts == [] then ""
    else if |parts| == 1 then parts[0]
    else parts[0] + sep + Join(parts[1..], sep)
  }

  function DigitValue(c: char): nat
    requires IsHexDigit(c)
  {
    if IsDigit(c) then c as int - '0' as int
    else if 'a' <= c <= 'f' then c as int - 'a' as int + 10
    else c as int - 'A' as int + 10
  }

  /** The value of a run of digits in base `radix`, most significant first. */
  function RadixValue(digits: string, radix: nat): nat
    requires forall k :: 0 <= k < |digits| ==> IsHexDigit(digits[k])
  {
    if digits == [] then 0
    else RadixValue(digits[..|digits| - 1], radix) * radix + DigitValue(digits[|digits| - 1])
  }

  function Pow10(k: nat): (r: nat)
    ensures r >= 1
  {
    if k == 0 then 1 else 10 * Pow10(k - 1)
  }

  /** `s` without its leading space. */
  function SkipSpace(s: string): (r: string)
    ensures |r| <= |s| && r == s[|s| - |r|..]
  {
    s[|Run(s, IsSpace)|..]
  }

  /** Whether `t` starts with a minus sign. */
  predicate IsNegative(t: string) {
    t != [] && t[0] == '-'
  }

  /** `t` without a leading sign character. */
  function Unsigned(t: string): string {
    if t != [] && (t[0] == '-' || t[0] == '+') then t[1..] else t
  }

  function Signed(negative: bool, m: real): real {
    if negative then -m else m
  }

  /** `parseInt(s)` with no radix: leading space and a sign are skipped, a `0x`
      prefix selects base 16, and the longest digit run is read. `None` is NaN. */
  function ParseInt(s: string): Option<int> {
    var t := SkipSpace(s);
    var u := Unsigned(t);
    var hex := |u| >= 2 && u[0] == '0' && (u[1] == 'x' || u[1] == 'X');
    var digits := if hex then Run(u[2..], IsHexDigit) else Run(u, IsDigit);
    if digits == [] then None
    else
      var magnitude: int := RadixValue(digits, if hex then 16 else 10);
      Some(if IsNegative(t) then -magnitude else magnitude)
  }

  /** `parseFloat(s)`: leading space, a sign, then digits with an optional
      fraction and an optional exponent. `None` is NaN. */
  function ParseFloat(s: string): Option<real> {
    var t := SkipSpace(s);
    match UnsignedDecimal(Unsigned(t))
    case None => None
    case Some(m) => Some(Signed(IsNegative(t), m))
  }

  /** The longest unsigned decimal literal at the start of `u`. */
  function UnsignedDecimal(u: string): (r: Option<real>)
    ensures r.Some? ==> r.value >= 0.0
  {
    var whole := Run(u, IsDigit);
    var rest := u[|whole|..];
    var dotted := rest != [] && rest[0] == '.';
    var fraction := if dotted then Run(rest[1..], IsDigit) else [];
    if whole == [] && fraction == [] then None
    else
      var after := if dotted then rest[1 + |fraction|..] else rest;
      var m := Mantissa(RadixValue(whole, 10), RadixValue(fraction, 10), |fraction|);
      Some(Scale(m, ExponentScale(after)))
  }

  /** The value of a literal whose integer digits read `whole` and whose
      `places` fraction digits read `fraction`. */
  function Mantissa(whole: nat, fraction: nat, places: nat): (r: real)
    ensures r >= 0.0
  {
    var f := fraction as real / Pow10(places) as real;
    assert f >= 0.0;
    whole as real + f
  }

  function Scale(m: real, factor: real): (r: real)
    requires m >= 0.0 && factor > 0.0
    ensures r >= 0.0
  {
    m * factor
  }

  /** The factor an exponent suffix (`e7`, `E-2`) contributes; 1 when there is none. */
  function ExponentScale(s: string): (r: real)
    ensures r > 0.0
  {
    if s == [] || (s[0] != 'e' && s[0] != 'E') then 1.0
    else
      var t := s[1..];
      var digits := Run(Unsigned(t), IsDigit);
      if digits == [] then 1.0
      else if IsNegative(t) then 1.0 / Pow10(RadixValue(digits, 10)) as real
      else Pow10(RadixValue(digits, 10)) as real
  }

  /** A plain run of decimal digits reads as its integer value. */
  lemma DecimalOfDigits(s: string)
    requires s != []
    requires forall k :: 0 <= k < |s| ==> IsDigit(s[k])
    ensures UnsignedDecimal(s) == Some(RadixValue(s, 10) as real)
  {
    DecimalOfDigitsShape(s);
    MantissaOfInteger(RadixValue(s, 10));
    UnitScale(RadixValue(s, 10) as real);
  }

  lemma DecimalOfDigitsShape(s: string)
    requires s != []
    requires forall k :: 0 <= k < |s| ==> IsDigit(s[k])
    ensures UnsignedDecimal(s) == Some(Scale(Mantissa(RadixValue(s, 10), 0, 0), ExponentScale([])))
  {
    RunOfAll(s, IsDigit);
    assert Run(s, IsDigit) == s;
    assert s[|s|..] == [];
  }

  lemma MantissaOfInteger(w: nat)
    ensures Mantissa(w, 0, 0) == w as real
  {
  }

  lemma UnitScale(m: real)
    requires m >= 0.0
    ensures Scale(m, ExponentScale([])) == m
  {
  }

  lemma RunOfAll(s: string, p: char -> bool)
    requires forall k :: 0 <= k < |s| ==> p(s[k])
    ensures Run(s, p) == s
  {
    if s != [] {
      RunOfAll(s[1..], p);
    }
  }

  /** Stripping only removes characters, so a character absent from `s` is absent from the result. */
  lemma StripKeepsOut(s: string, p: char -> bool, c: char)
    requires c !in s
    ensures c !in StripBy(s, p)
  {
    var t := s[|Run(s, p)|..];
    assert forall k :: 0 <= k < |t| ==> t[k] == s[|Run(s, p)| + k];
  }

  /** Splitting a joined list gives the list back when no part holds the separator. */
  lemma {:induction false} SplitJoin(parts: seq<string>, sep: char)
    requires parts != []
    requires forall k :: 0 <= k < |parts| ==> sep !in parts[k]
    ensures SplitOn(Join(parts, [sep]), sep) == parts
    decreases |parts|
  {
    var s := Join(parts, [sep]);
    if |parts| == 1 {
      forall i | 0 <= i < |s|
        ensures !OccursAt(s, [sep], i)
      {
        assert s[i..i + 1] == [s[i]];
      }
    } else {
      var p0 := parts[0];
      var rest := Join(parts[1..], [sep]);
      assert s == p0 + [sep] + rest;
      assert OccursAt(s, [sep], |p0|);
      var i := IndexOf(s, [sep]).value;
      assert s[i..i + 1][0] == s[i];
      assert i == |p0|;
      assert s[..i] == p0;
      assert s[i + 1..] == rest;
      SplitJoin(parts[1..], sep);
    }
  }
}

=== FILE: wrappers.dfy ===
/** The optional-value datatype used across the model. */
module Wrappers {

  datatype Option<+T> = None | Some(value: T) {

    function GetOr(default: T): T {
      match this
      case Some(v) => v
      case None => default
    }
  }
}
